=== FILE: README.md ===
# QuizVerse core, modelled in Dafny

QuizVerse is a React application over Firestore. Administrators keep a question
bank per course, compose quizzes from it, and enrol students. Students take
timed quizzes and review their results afterwards. Beneath the pages there are
several pieces of plain sequential logic. This project states each of them as
pure Dafny functions over immutable datatypes and proves what they promise.

| module | file | what it models |
|---|---|---|
| `Wrappers` | wrappers.dfy | `Option`, the `?:` / `\| null` fields and lookups that can miss; `GetOr` is `??` |
| `Strings` | strings.dfy | ASCII case mapping, `trim`, `startsWith`, `includes`, code-unit order, decimal printing |
| `Sorting` | sorting.dfy | `Array.prototype.sort` as a stable insertion sort over any total preorder |
| `Model` | model.dfy | the records of `src/types.ts`; bank lookup; fetching one question per id; the question-number order every page uses |
| `Scoring` | scoring.dfy | effective points, score and total of an attempt |
| `Clock` | clock.dfy | the countdown text `formatTime` |
| `AttemptEngine` | attempt.dfy | the attempt page as a state machine stepped by events: fetches, option picks, navigation, timer ticks, submission and the write's outcome |
| `Composition` | composition.dfy | the quiz editor: anchored insertion, random add, sections, removal, points edits, the total of marks, the bank panel filter |
| `Review` | review.dfy | the results page: percentage, pass status, history order, average, and the per-question review under the four review flags |
| `BulkImport` | bulk_import.dfy | the spreadsheet importers from a parsed row onwards: cell lookup, option compaction, letter to index, course and figure resolution, the tally and the batch; the bank list |
| `Students` | students.dfy | the student list filter and order, enrolment toggling with `arrayUnion` / `arrayRemove`, and what bulk registration derives from one row |
| `Routes` | routes.dfy | `ProtectedRoute` and `HomeRedirect` |

Conventions:
- Points are `real`, because the editor accepts fractional points.
- A NaN from `parseInt` / `parseFloat` is `None`.
- On the results page a quotient is a `Num`: finite, plus or minus Infinity, or NaN.
  A rounded percentage is a `Shown`: a whole number, Infinity, -Infinity or NaN.
  This follows JavaScript division by zero.
- The store, the clock, randomness and navigation are parameters or events:
  - a fetch result arrives as an event;
  - the current instant arrives as an event;
  - a write's success or failure arrives as an event;
  - the random shuffle is any permutation of the pool;
  - a new section id is a given fresh id;
  - `parseInt` / `parseFloat` results are given values.

Where the code and its documentation disagree, the model follows the code:
- Loaded questions are ordered by `questionNumber`, not by `questionIds`.
- An id without a document is not dropped. The model requires every id to resolve.
- A percentage or average over a zero total is not shown as 0%.
  - A positive score over a zero total gives Infinity. Infinity compares above 70, so the badge reads PASSED.
  - A negative score gives -Infinity, and 0/0 gives NaN. Both read REVIEW.
  - Negative points make a zero total with a positive score possible. See `Review.ZeroTotalCanPass`.
- A quiz without questions cannot be taken. The page's render reads the
  missing current question and fails. The model closes the page there.
- The comment at `src/types.ts:45` says a `null` start marks the first section.
  The editor actually draws such a section after every question, as a trailing
  heading. The model follows the editor.
- The advanced importer lower-cases the whole figure cell, so an `http` URL is
  stored lower-cased.
- Imported rows can carry a `correctOptionIndex` beyond their compacted
  options. See `BulkImport.BlankOptionShiftsLetters`.
- The enrolment toggle is drawn only while a course filter is set. The filter
  then lists only students enrolled in that course, so from the list the
  toggle can only unenrol. See `Students.ListedToggleUnenrolls`.

## Model

| member | source | states |
|---|---|---|
| `Model.Find` | src/pages/admin/Quizzes.tsx:704 | the bank question found is the first with that id; there is none exactly when no question has the id |
| `Model.Resolve` | src/pages/student/Quiz.tsx:65-67 | fetching yields one question per referenced id, duplicates kept, each a bank document with that id |
| `Model.ByNumberIsPreorder` | src/pages/student/Quiz.tsx:70 | the question-number comparator, a missing number counting as 0, is total and transitive, so it is a valid sort order |
| `Model.OrderByNumber` | src/pages/student/Quiz.tsx:70 | the ordered questions are a permutation of the fetched ones, ascending by number |
| `Model.OrderByNumberStable` | src/pages/student/Quiz.tsx:70 | questions with equal numbers keep their fetched order |
| `Model.FilterOrder` | src/pages/admin/Quizzes.tsx:878 | `filter` keeps the surviving elements in their order, each as often as it occurs |
| `Model.TiedWithFilter` | src/pages/admin/Quizzes.tsx:289-295 | filtering before a stable sort keeps each group of equal keys in its input order, minus the dropped elements |
| `Model.FilterKeepsDistinct` | src/pages/admin/Quizzes.tsx:878 | filtering an id list without repeats leaves none |
| `Sorting.Sort` | src/pages/student/Results.tsx:108 | sorting keeps every element with its multiplicity |
| `Sorting.SortSorted` | src/pages/student/Results.tsx:108 | for any total preorder the sorted list is ordered |
| `Sorting.SortStable` | src/pages/admin/Students.tsx:58 | elements that compare equal appear in the output in their input order |
| `Sorting.SortOfSorted` | src/pages/student/Results.tsx:108 | sorting an already ordered list changes nothing, so the in-place sort repeated on every render is harmless |
| `Scoring.Tally` | src/pages/student/Quiz.tsx:27-36 | the single pass of `handleSubmit`, adding each position's effective points to the total and, on an exact index match, to the score, ends with the position-by-position sums `Score` and `Total` |
| `Scoring.TotalSnoc` | src/pages/student/Quiz.tsx:30-32 | one more question adds exactly its effective points to the total, an override winning over the question's points |
| `Scoring.ScoreSnoc` | src/pages/student/Quiz.tsx:30-35 | one more question adds its effective points to the score when the pick at its position is the correct index, and nothing otherwise |
| `Scoring.ScoreBounded` | src/pages/student/Quiz.tsx:27-36 | with non-negative points the score lies between 0 and the total |
| `Scoring.ScoreUpdate` | src/pages/student/Quiz.tsx:30-36 | changing one pick moves the score by exactly the change in what that position earns, since positions are marked independently |
| `Scoring.UnansweredEarnsNothing` | src/pages/student/Quiz.tsx:33 | a -1 slot earns nothing when the answer key is a real index; picking there adds only what the pick earns |
| `Scoring.FullMarksIffAllCorrect` | src/pages/student/Quiz.tsx:30-36 | with positive points the score equals the total exactly when every position holds the correct index |
| `Scoring.TotalOfSort` | src/pages/student/Quiz.tsx:30-32 | the total does not depend on the order the questions are presented in |
| `Scoring.TotalOfOrderByNumber` | src/pages/student/Quiz.tsx:70 | in particular the number order leaves the total unchanged |
| `Clock.JsRemainder` | src/pages/student/Quiz.tsx:96 | `%` keeps the sign of the dividend: in 0..59 for a non-negative count, in -59..0 for a negative one; the count minus the remainder is the quotient truncated toward zero times 60 |
| `Clock.PadTwo` | src/pages/student/Quiz.tsx:97 | a one- or zero-character text is left-padded to two characters ending in it, every pad character a zero; longer text is unchanged |
| `Clock.FormatTime` | src/pages/student/Quiz.tsx:94-98 | for a non-negative count the text is digits, a colon and two digits below 60 that read back as minutes*60 + seconds = the count; a negative count prints with a leading minus |
| `Clock.SecondsField` | src/pages/student/Quiz.tsx:96-97 | a remainder below 60 prints as exactly two digits worth that remainder |
| `Clock.FormatTimeExamples` | src/pages/student/Quiz.tsx:114 | ten minutes display as 10:00 and 65 seconds as 1:05 |
| `Strings.Trim` | src/pages/admin/Students.tsx:106-110 | the trimmed text is a slice of the input, only white space and line terminators (the ECMAScript set, Unicode spaces included) are cut from either end, and it neither starts nor ends with one |
| `Strings.TrimIdempotent` | src/pages/admin/Students.tsx:116 | trimming a trimmed text changes nothing |
| `Strings.IncludesIffOffset` | src/pages/admin/Students.tsx:53-54 | `includes` holds exactly when the needle starts at some offset of the text |
| `Strings.LexLeTotal` | src/pages/admin/Students.tsx:58 | any two e-mails are comparable |
| `Strings.LexLeTransitive` | src/pages/admin/Students.tsx:58 | the e-mail order is transitive |
| `Strings.LexLeAntisymmetric` | src/pages/admin/Students.tsx:58 | two e-mails that sort no later than each other are equal |
| `Strings.NatToString` | src/pages/admin/Questions.tsx:189 | a row number prints as decimal digits without a leading zero that read back as the number |
| `AttemptEngine.Submit` | src/pages/student/Quiz.tsx:23-53 | a write happens exactly when there is a quiz and a profile and the latch is open; without one nothing changes; with one only the latch is set, and the written attempt carries the quiz, the student, the picks, the score and total of `Scoring`, completion at the second clock reading, and completion minus start equal to the allowance used plus the time between the two clock readings |
| `AttemptEngine.Load` | src/pages/student/Quiz.tsx:65-74 | one question per id, a permutation of the fetched ones ascending by number, one -1 slot per question, loading over, and the page closed exactly when the quiz has no questions; nothing else changes |
| `AttemptEngine.Step` | src/pages/student/Quiz.tsx:55-201 | once the page is gone no event changes the state or writes; any write comes from an event carrying clock readings, sets the latch, and records the resulting state at those readings |
| `AttemptEngine.StartInv` | src/pages/student/Quiz.tsx:15-21 | the freshly opened page satisfies the invariant |
| `AttemptEngine.StepPreservesInv` | src/pages/student/Quiz.tsx:55-201 | every event keeps the invariant: one answer slot per question, the cursor inside the list while questions are shown, time left within the allowance, the latch only with a quiz and a profile |
| `AttemptEngine.LoadedQuestions` | src/pages/student/Quiz.tsx:65-90 | after loading, apart from the latch, the state is `Load`'s: questions in stable number order; the latch changes only when the timer effect writes at once |
| `AttemptEngine.ExpiredOnLoadSubmits` | src/pages/student/Quiz.tsx:79-83 | when the allowance is already used up as the questions arrive, the effect writes at once, with every answer -1, and sets the latch |
| `AttemptEngine.SelectWritesCurrentSlot` | src/pages/student/Quiz.tsx:141-145 | picking option k writes k into the current slot; length, other slots, cursor and latch are unchanged |
| `AttemptEngine.NavigationControls` | src/pages/student/Quiz.tsx:166-201 | "previous" is offered except on the first question, "next" except on the last, "finish" only on the last while not submitting; moving never leaves the list |
| `AttemptEngine.LatchBlocksSubmission` | src/pages/student/Quiz.tsx:24 | while the latch is set neither the finish button nor the timer writes, and the latch stays set |
| `AttemptEngine.RaceWritesOnce` | src/pages/student/Quiz.tsx:79-90 | with one second left, the finish click and the last tick each write when they come first, and whichever comes second writes nothing |
| `AttemptEngine.FailedWriteAllowsRetry` | src/pages/student/Quiz.tsx:49-52 | a failed write with time left writes nothing, clears the latch and keeps the picks and cursor, so finishing again writes the same attempt |
| `AttemptEngine.ExpiredFailureResubmits` | src/pages/student/Quiz.tsx:79-83 | a failed write after the time is up reopens the latch, which rebuilds the submit routine; the timer effect then writes again at once and the latch stays set |
| `AttemptEngine.WrittenAttemptConsistent` | src/pages/student/Quiz.tsx:39-47 | any written attempt has 0 <= score <= total for non-negative points, a start no later than its completion, and one answer per question |
| `AttemptEngine.StepLatch` | src/pages/student/Quiz.tsx:24-51 | a write sets the `submitting` latch; apart from a failed write, a write needs the latch open before; only a failed write reopens it |
| `AttemptEngine.WritesBoundedByFailures` | src/pages/student/Quiz.tsx:24-25 | along any run of events after the questions arrived (ticks, picks, finish clicks, write results), at most one write happens, plus one more per failed write |
| `AttemptEngine.CountDown` | src/pages/student/Quiz.tsx:85-87 | while more than n seconds are left, n ticks take exactly n seconds off and write nothing |
| `AttemptEngine.ExpirySubmits` | src/pages/student/Quiz.tsx:79-90 | with t seconds left (necessarily at least 1), t-1 ticks leave one second without writing, and the t-th tick takes the clock to 0 and writes at once, recording the whole allowance, plus the time between the clock readings, as time used |
| `AttemptEngine.ClosedIsFinal` | src/pages/student/Quiz.tsx:48 | after navigation away any sequence of events changes nothing and writes nothing |
| `Composition.IndexOf` | src/pages/admin/Quizzes.tsx:142 | -1 exactly when the id is absent; otherwise the position of its first occurrence |
| `Composition.FindSection` | src/pages/admin/Quizzes.tsx:147 | the section found is the first with the id; none exactly when no section has it |
| `Composition.FreshIds` | src/pages/admin/Quizzes.tsx:130-131 | the ids kept are exactly the new ids not already in the quiz |
| `Composition.AddQuestions` | src/pages/admin/Quizzes.tsx:126-176 | point overrides are untouched; with no fresh id nothing changes; otherwise the list grows by exactly the fresh ids and the number of sections stays |
| `Composition.AddIsSplice` | src/pages/admin/Quizzes.tsx:133-165 | the fresh ids go in as one block in their given order, with the old ids in order around it; afterwards the ids are exactly the old and the new ones |
| `Composition.AddAtBottom` | src/pages/admin/Quizzes.tsx:136-137 | no anchor, an empty one or 'bottom' appends and changes nothing else |
| `Composition.AddAtTop` | src/pages/admin/Quizzes.tsx:138-139 | 'top' prepends and changes nothing else |
| `Composition.AddAfterQuestion` | src/pages/admin/Quizzes.tsx:142-144 | a question anchor puts the block right after its first occurrence, taking precedence over a section with the same id |
| `Composition.AddAtSection` | src/pages/admin/Quizzes.tsx:146-173 | a section anchored at a present question gets the block right before that question, and the section now starts at the first new id |
| `Composition.AddAtSectionWithMissingStart` | src/pages/admin/Quizzes.tsx:152-157 | a section whose start question is gone gets the block appended, and is still repointed to the first new id |
| `Composition.AddAtTrailingOrUnknown` | src/pages/admin/Quizzes.tsx:148-161 | a trailing section, or an anchor naming nothing, appends and leaves every section as it was |
| `Composition.AddKeepsIdsDistinct` | src/pages/admin/Quizzes.tsx:129-131 | adding never creates a duplicate id when list and batch have none |
| `Composition.Pool` | src/pages/admin/Quizzes.tsx:181-185 | the candidates are exactly the bank questions in scope ('all', the chosen course, else the quiz's course) not yet in the quiz |
| `Composition.AddRandom` | src/pages/admin/Quizzes.tsx:178-195 | the "no available questions" alert happens exactly when the pool is empty |
| `Composition.RandomAddsPoolIds` | src/pages/admin/Quizzes.tsx:189-192 | otherwise exactly min(count, pool size) ids of pool questions are spliced in as one block, the old ids in order around it; with unique store ids the block names no id twice |
| `Composition.RandomAddKeepsIdsDistinct` | src/pages/admin/Quizzes.tsx:178-195 | with unique store ids, a random add keeps a repeat-free quiz free of repeats |
| `Composition.PoolDistinct` | src/pages/admin/Quizzes.tsx:181-185 | with unique store ids, the pool holds no question twice |
| `Composition.SelectionDistinct` | src/pages/admin/Quizzes.tsx:189-190 | any shuffle of a repeat-free pool, cut to a prefix, names no question id twice |
| `Composition.AddSection` | src/pages/admin/Quizzes.tsx:253-276 | an empty title does nothing; otherwise the questions and points stay and one unshuffled heading with the fresh id, the title and the start question the anchor selects is appended after the existing ones |
| `Composition.LastAnchorTrails` | src/pages/admin/Quizzes.tsx:262-264 | with repeat-free ids, a heading anchored on the last question gets no start and is drawn as the last trailing heading |
| `Composition.NewSectionStarts` | src/pages/admin/Quizzes.tsx:256-264 | 'top' starts at the first question, 'bottom' nowhere, a question anchor at its successor (nowhere after the last), any other anchor at the first question (index -1 + 1) |
| `Composition.HeadingAbove` | src/pages/admin/Quizzes.tsx:786 | the heading drawn above a question is the first section starting there; none exactly when no section starts there |
| `Composition.TrailingSections` | src/pages/admin/Quizzes.tsx:949 | the headings drawn after the list are exactly the sections without a start question, each as often as it occurs, in section order |
| `Composition.BottomSectionIsLast` | src/pages/admin/Quizzes.tsx:259-260 | a heading added at 'bottom' is drawn last of all |
| `Composition.NewHeadingShownUnlessClaimed` | src/pages/admin/Quizzes.tsx:786 | a new heading with a start question is drawn above it unless an earlier section already starts there, in which case it is not drawn at all |
| `Composition.SetShuffle` | src/pages/admin/Quizzes.tsx:840 | only the shuffle flag of the sections with that id changes |
| `Composition.RemoveSection` | src/pages/admin/Quizzes.tsx:847 | the sections with that id go, every other section stays with its multiplicity and in its order, and the questions and points are untouched |
| `Composition.RemoveSectionHeadings` | src/pages/admin/Quizzes.tsx:847 | after removal no heading drawn above a question is the removed section, every other heading above a question is still drawn, and the trailing headings are the old ones minus the removed section |
| `Composition.HeadingAboveFilter` | src/pages/admin/Quizzes.tsx:786 | filtering out sections other than the one drawn above a question leaves that heading drawn |
| `Composition.RemoveQuestion` | src/pages/admin/Quizzes.tsx:877-883 | every occurrence of the id and its override go, every other id stays with its multiplicity and in its order, every other override stays, and the sections are untouched |
| `Composition.SetPoints` | src/pages/admin/Quizzes.tsx:871-874 | the question's override becomes the parsed number, 0 for NaN; no other override changes |
| `Composition.Mark` | src/pages/admin/Quizzes.tsx:703-707 | an id the bank has counts its effective points, the same override-or-points rule the attempt uses; an id it lacks counts its override, else 0 |
| `Composition.TotalMarksIsTotal` | src/pages/admin/Quizzes.tsx:703-707 | when every id resolves the total of marks is the attempt total over the fetched questions |
| `Composition.TotalMarksIsAttemptTotal` | src/pages/admin/Quizzes.tsx:703-707 | so the editor's total equals the `totalPoints` an attempt of the quiz records |
| `Composition.UnresolvedMarksNothing` | src/pages/admin/Quizzes.tsx:705 | an id the bank lacks and without an override adds 0, wherever it stands |
| `Composition.RemoveQuestionTotal` | src/pages/admin/Quizzes.tsx:877-883 | removing a question from a list without repeats takes exactly its marks out of the total |
| `Composition.SetPointsTotal` | src/pages/admin/Quizzes.tsx:871-874 | editing a listed question's points moves the total by the change of its marks, and editing an unlisted one leaves it |
| `Composition.FilteredQuestions` | src/pages/admin/Quizzes.tsx:289-295 | the panel lists exactly the bank questions passing the course filter, each as often as in the bank, ascending by number |
| `Composition.FilteredQuestionsStable` | src/pages/admin/Quizzes.tsx:289-295 | questions with the same number appear in the panel in their bank order |
| `Review.Round` | src/pages/student/Results.tsx:111 | the rounded value is within half a unit of the input, halves going up |
| `Review.RoundMonotone` | src/pages/student/Results.tsx:111 | rounding preserves order |
| `Review.Quotient` | src/pages/student/Results.tsx:111 | division gives a number exactly when the divisor is non-zero; by zero it gives Infinity for a positive dividend, -Infinity for a negative one, and NaN for 0 |
| `Review.Plus` | src/pages/student/Results.tsx:62 | a sum is finite exactly when both terms are, and then it is their sum |
| `Review.Percentage` | src/pages/student/Results.tsx:111 | a whole number exactly when the total is non-zero, and then within half a percent of score/total*100; over a zero total Infinity, -Infinity or NaN as the score is positive, negative or 0 |
| `Review.Passed` | src/pages/student/Results.tsx:145-149 | PASSED exactly when either the total is non-zero and the unrounded percentage is at least 69.5, or the total is 0 and the score positive (an infinite percentage) |
| `Review.ZeroTotalCanPass` | src/pages/student/Results.tsx:145-149 | a quiz whose points cancel out to a zero total can still record a positive score, and that attempt reads PASSED |
| `Review.PercentageBounds` | src/pages/student/Results.tsx:194 | a score within a positive total shows 0..100%, and full marks show 100% |
| `Review.NearMissShowsFull` | src/pages/student/Results.tsx:194 | 199 out of 200 also shows 100% |
| `Review.NewestFirstIsPreorder` | src/pages/student/Results.tsx:108 | the completion-time comparator is a valid sort order |
| `Review.History` | src/pages/student/Results.tsx:108 | the history is a permutation of the attempts, newest first |
| `Review.HistoryStable` | src/pages/student/Results.tsx:108 | attempts completed at the same instant keep their fetched order |
| `Review.RatioSum` | src/pages/student/Results.tsx:62 | the summed ratios are a number exactly when every attempt's total is non-zero, and then equal the exact sum of score / totalPoints over the attempts |
| `Review.SumRatiosSnoc` | src/pages/student/Results.tsx:62 | summing the ratios from the back, as `reduce` does, gives the same value as summing from the front |
| `Review.Average` | src/pages/student/Results.tsx:61-63 | 0 with no attempts; a whole number exactly when no attempt has a zero total, and then within one half of 100 times the mean ratio |
| `Review.AverageOfOne` | src/pages/student/Results.tsx:61-63 | with one attempt the average is that attempt's percentage |
| `Review.RatioSumBounds` | src/pages/student/Results.tsx:62 | for attempts within their totals the summed ratios lie between 0 and the number of attempts |
| `Review.AverageBounds` | src/pages/student/Results.tsx:61-63 | for attempts within their totals the average is a whole number in 0..100 |
| `Review.ReviewedQuestions` | src/pages/student/Results.tsx:52-55 | the review lists one question per id, a permutation of the fetched ones, ascending by number |
| `Review.SameOrderAsAttempt` | src/pages/student/Results.tsx:52-55 | with the same documents the review lists the questions in the attempt page's order, so answers pair with the questions they were given for |
| `Review.ReviewQuestion` | src/pages/student/Results.tsx:202-275 | a badge exactly when marks are shown, reading earned (all or nothing) out of the effective points; the correct-answer box exactly when feedback and the right answer are shown and the pick is wrong; one look per option |
| `Review.LookOf` | src/pages/student/Results.tsx:230-256 | an option is drawn as picked exactly when it is the pick; as picked and right, or picked and wrong, exactly when `showWhetherCorrect` is set and it is, or is not, the correct index; as the missed right answer exactly when it is the correct index, not the pick, and both flags are set; neutral-picked exactly when the flag is off |
| `Review.LooksDisclose` | src/pages/student/Results.tsx:230-256 | only the pick is drawn as picked; right or wrong only with `showWhetherCorrect`, and then truthfully; the unpicked right option is marked only with `showRightAnswer` too |
| `Review.BadgesAddUp` | src/pages/student/Results.tsx:213-219 | with marks shown the badges add up to the score and total of the same questions and answers |
| `Review.ReviewMatchesRecord` | src/pages/student/Results.tsx:190-219 | reviewing a written attempt against its quiz and questions, the badges add up to the recorded score and total and the percentage is the recorded one |
| `BulkImport.Cell` | src/pages/admin/Questions.tsx:151 | the value is non-empty and comes from the first header among the spellings with a non-empty cell; none exactly when every spelling is missing or empty |
| `BulkImport.Present` | src/pages/admin/Questions.tsx:154-159 | compaction keeps exactly the present cells, in order: a present cell lands at the position given by the number of present cells before it |
| `BulkImport.LetterIndex` | src/pages/admin/Questions.tsx:169 | A..D map to 0..3, the letter at that index; anything else gives -1 |
| `BulkImport.MapSet` | src/pages/admin/Questions.tsx:141 | setting a key keeps an existing key's place, appends a new one, and changes no other key's value |
| `BulkImport.Lookup` | src/pages/admin/Questions.tsx:204-205 | a lookup misses exactly when the key is not in the map; a hit is the value of the key's first entry |
| `BulkImport.ImagesMapKeys` | src/pages/admin/Questions.tsx:134-142 | the images map has exactly the lower-cased upload names as keys, each once |
| `BulkImport.FirstKeyStartingWith` | src/pages/admin/Questions.tsx:210 | the key found is the first starting with the prefix; none exactly when no key does |
| `BulkImport.Figure` | src/pages/admin/Questions.tsx:201-215 | exact upload name first, then an http reference, then the first upload named reference plus extension, else none; the result is always an uploaded image or the reference itself |
| `BulkImport.CourseNamed` | src/pages/admin/Questions.tsx:182-185 | the course found is the first matching by short code or name ignoring case; none exactly when no course does |
| `BulkImport.CourseFor` | src/pages/admin/Questions.tsx:179-195 | an unknown course cell fails with its name, no cell falls back to the selected course, and neither fails with "no course" |
| `BulkImport.AdvancedRow` | src/pages/admin/Questions.tsx:150-229 | a row is accepted exactly when its course resolves and it is well formed; course errors come before shape errors; an accepted row is the question `Build` makes from it with the resolved course and figure |
| `BulkImport.SyncRow` | src/pages/admin/Questions.tsx:284-328 | a pasted row is accepted exactly when well formed, and is then the question `Build` makes from it with the selected course and the image cell as given |
| `BulkImport.Build` | src/pages/admin/Questions.tsx:151-229 | the written question has the question cell as text, two to four options compacted from the option cells, a correct index in 0..3 from the answer letter, the given course and figure, Marathi options only when some Marathi option cell is present, `parseInt` of the points cell (of "1" without one) as points, and `parseInt` of the first number cell (of "" without one) as number |
| `BulkImport.BlankOptionShiftsLetters` | src/pages/admin/Questions.tsx:288-303 | a blank B cell shifts C and D down while the letters still count from A, so C marks the D text and D points past the options |
| `BulkImport.ImportRows` | src/pages/admin/Questions.tsx:146-240 | every row is counted once, as a success queued in order or a failure with its row number and reason; the batch is committed exactly when some row succeeded |
| `BulkImport.AdvancedUpload` | src/pages/admin/Questions.tsx:102-249 | the batch is the accepted rows' questions and the errors the refused rows, both in row order; the tally covers every row and every queued question is acceptable and has a course |
| `BulkImport.AcceptedAreOkRows` | src/pages/admin/Questions.tsx:146-240 | a question is queued exactly when some row was accepted with it |
| `BulkImport.ErrorsReportRefusedRows` | src/pages/admin/Questions.tsx:146-240 | a failure is listed exactly when the row with that 1-based number was refused for that reason |
| `BulkImport.BulkSync` | src/pages/admin/Questions.tsx:251-348 | nothing happens without a selected course; otherwise the batch is the accepted rows' questions and the errors the refused rows, in row order, and every queued question is acceptable and in that course |
| `BulkImport.BankList` | src/pages/admin/Questions.tsx:409-411 | the list is exactly the selected course's questions (all with none selected), each as often as in the bank, ascending by number |
| `BulkImport.BankListStable` | src/pages/admin/Questions.tsx:409-411 | questions with the same number appear in the list in their bank order |
| `Students.Listed` | src/pages/admin/Students.tsx:51-56 | a student is listed exactly when the lower-cased search occurs at some offset of the lower-cased name or e-mail, and, with a course chosen, the student is enrolled in it |
| `Students.ByEmailIsPreorder` | src/pages/admin/Students.tsx:58 | the e-mail comparator is a valid sort order |
| `Students.FilteredStudents` | src/pages/admin/Students.tsx:51-58 | exactly the students matching the search (name or e-mail, ignoring case) and the course filter, each as often as fetched, ordered by e-mail |
| `Students.FilteredStudentsStable` | src/pages/admin/Students.tsx:51-58 | students with the same e-mail appear in their fetched order |
| `Students.EmptySearchListsAll` | src/pages/admin/Students.tsx:53-55 | an empty search matches everyone, leaving only the course filter |
| `Students.ArrayRemove` | src/pages/admin/Students.tsx:44 | the course is gone, every other id stays, and no duplicate appears |
| `Students.ArrayUnion` | src/pages/admin/Students.tsx:46 | the course is present, every other id stays, and no duplicate appears |
| `Students.Toggle` | src/pages/admin/Students.tsx:41-49 | the student is enrolled afterwards exactly when they were not before, other courses unchanged |
| `Students.EnrollThenUnenroll` | src/pages/admin/Students.tsx:43-47 | enrolling and then unenrolling gives back the exact list |
| `Students.ToggleTwice` | src/pages/admin/Students.tsx:43-47 | two toggles restore the enrolment as a set |
| `Students.ListedToggleUnenrolls` | src/pages/admin/Students.tsx:318-320 | every student listed under a chosen course is enrolled in it, so the toggle unenrols |
| `Students.TrimRow` | src/pages/admin/Students.tsx:106-110 | the same headers, each cell trimmed |
| `Students.CourseByCode` | src/pages/admin/Students.tsx:154 | the course found is the first with the code ignoring case; none exactly when no course does |
| `Students.MapCodes` | src/pages/admin/Students.tsx:147-161 | the ids are the non-empty known codes, in column order, each mapped to its course's id; the unknown codes are the non-empty unknown codes in column order |
| `Students.KnownIdsFrom` | src/pages/admin/Students.tsx:151-159 | the column-by-column loop from any column on equals filtering the remaining codes into known and unknown and mapping the known ones to their ids |
| `Students.KnownIds` | src/pages/admin/Students.tsx:151-157 | every collected id is the id of some course, and every code naming a course (ignoring case) contributes that course's id |
| `Students.UnknownCodes` | src/pages/admin/Students.tsx:151-159 | every non-empty code that no course has is reported, and only such codes |
| `Students.Derive` | src/pages/admin/Students.tsx:105-191 | a row is refused exactly when its trimmed e-mail or password is empty, and the refusal names the e-mail when there is one and "Row n" otherwise; an accepted row's name is first and last name joined by a space and trimmed, and its course ids and unknown codes are those `MapCodes` gives for the row's course columns |
| `Students.NameWithoutLastName` | src/pages/admin/Students.tsx:114-116 | a first name alone gives exactly that name, with no stray space |
| `Students.UnknownCodeIsOnlyReported` | src/pages/admin/Students.tsx:151-161 | an unknown course code is reported and the row is still registered |
| `Students.PlanBulk` | src/pages/admin/Students.tsx:77-83 | "no data" exactly when the paste has no rows |
| `Routes.Guard` | src/App.tsx:17-30 | the loading screen exactly while loading; login without an account; login with an error without a profile; the root exactly for a wrong role; the page exactly for a matching or absent role |
| `Routes.HomeRedirect` | src/App.tsx:32-38 | nothing while loading, then the profile's area, or login without a profile |
| `Routes.WrongAreaSettles` | src/App.tsx:27-38 | a user turned away from the other role's area reaches their own area through the root and is let in there |
| `Routes.HomeLeadsToOwnArea` | src/App.tsx:48-60 | every signed-in user with a profile is sent to an area that admits them |
| `Routes.AreasExclusive` | src/App.tsx:51-60 | no one is admitted to both the admin and the student area |

## Left out

- Firestore and Auth I/O is not modelled. This covers `getDoc`, `getDocs`, `addDoc`, `updateDoc`, `writeBatch`, `commit`, and account creation and sign-in. Fetch results and write outcomes are events or inputs. A failing batch commit, which replaces the import results with one message, is not modelled.
- React state, effects and rendering are out, and so is `setInterval`. Ticks, clicks and write outcomes are a sequence of discrete events.
- `Math.random` is out. The shuffle is any permutation of the pool. A new section id is a fresh id passed in.
- Parsing is out: Papa and XLSX parsing, FileReader data URLs and the Google Sheets fetch. A row is a map from lower-cased header to cell text. XLSX cells that are numbers rather than text are not modelled.
- `parseInt` and `parseFloat` are given results, with `None` for NaN.
- The bulk registration plumbing is out: the secondary app, the delays and the exponential backoff. Account creation, sign-in, the profile write and their error messages are out too. `Students.Derive` covers what is decided from the row itself.
- The "Detected columns" list in the missing-credentials message is not modelled. It depends on the key order of a JavaScript object, which a Dafny map does not have.
- `localeCompare` is approximated by code-unit order. `toLowerCase` and `toUpperCase` map ASCII letters only.
- Floating-point rounding is not modelled. Points, scores and ratios are exact reals, and `Math.round` is floor(x + 1/2).
- Negative zero is not modelled. `Math.round` of a ratio in (-0.5, 0) gives -0, which prints as 0 and compares like 0; the model yields `Whole(0)`.
- `AttemptEngine.RaceWritesOnce` holds for events applied one after the other, each seeing the state the previous one left. In the page, the finish click and the timer effect can both call the `handleSubmit` of the same render before the latch set by the first call re-renders. Both calls then see the latch open, and both may write.
- `AttemptEngine.Submit` reads the clock twice, once for the start time and once for the completion time. The two readings are an input pair and are not tied to the tick events.
- `toFixed`, date formatting and `maxGrade` are display-only and left out.
- A question id without a document is excluded by a precondition. `Model.AllResolve` is required by the attempt loading and by `Review.ReviewedQuestions`. The source builds a record without points for such an id.
- The results page's question list after a quiz was deleted is left out. In the source it simply keeps the previous attempt's questions.
- `Composition.AddRandom`: the count is a natural number. A negative count would make `slice` drop elements from the end.
- `Composition.InsertionPoint` states only its range. Where it points is stated by the placement lemmas `AddAtBottom`, `AddAtTop`, `AddAfterQuestion`, `AddAtSection`, `AddAtSectionWithMissingStart` and `AddAtTrailingOrUnknown`.
- The editor actions `toggleQuestion`, `handleSubmit`, `handleUpdateQuestions` and `handleQuickAddQuestion`, and the delete actions, are plain store writes and are left out.
- The single-question form of the bank page and the dashboards are left out. So is the "an existing attempt hides the Start link" rule of the student dashboard.

=== FILE: attempt.dfy ===
/** The attempt page (src/pages/student/Quiz.tsx) as a state machine
    stepped by events. The page fetches the quiz, then its questions;
    the student picks options and moves a cursor; a one-second timer
    counts down and submits on expiry; submitting issues one write of the
    scored attempt, guarded by a `submitting` latch that a failed write
    clears again. The store, the clock and navigation are outside: a fetch
    result, the current instant and the outcome of a write arrive as
    events, and a `Step` reports the attempt it asks the store to write. */
module AttemptEngine {
  import opened Wrappers
  import opened Model
  import Scoring
  import Sorting

  /** The slot value of a question with no pick yet. */
  const Unanswered: int := -1

  datatype Engine = Engine(
    studentId: Option<Id>,    // the signed-in profile's uid, if any
    quiz: Option<Quiz>,
    questions: seq<Question>,
    answers: seq<int>,
    currentIdx: int,
    timeLeft: int,            // seconds
    loading: bool,
    submitting: bool,
    closed: bool)             // the page is gone (navigated away, or its render failed)

  /** The two readings of the clock a submission takes (ms): the first
      derives `startedAt`, the second is `completedAt`. */
  datatype ClockReads = ClockReads(first: int, second: int)

  datatype Event =
    | QuizFetched(quiz: Quiz)                         // the quiz document exists
    | QuizMissing                                     // it does not: back to the dashboard
    | QuestionsFetched(bank: Bank, at: ClockReads)    // every referenced question document has arrived
    | Select(option: int)                             // an option button of the current question
    | Previous
    | Next
    | Finish(at: ClockReads)                          // the finish button
    | Tick(at: ClockReads)                            // a wake-up of the one-second timer
    | WriteSucceeded
    | WriteFailed(at: ClockReads)

  /** The state after an event, and the attempt the event asks the store
      to create, if any. */
  datatype Outcome = Outcome(engine: Engine, write: Option<QuizAttempt>)

  /** The page just opened for the given signed-in student. */
  function Start(studentId: Option<Id>): Engine {
    Engine(studentId, None, [], [], 0, 0, true, false, false)
  }

  /** The question view is on screen and its controls can be used. */
  predicate Taking(e: Engine) {
    !e.closed && !e.loading && e.quiz.Some?
    && 0 <= e.currentIdx < |e.questions| && |e.answers| == |e.questions|
  }

  predicate PreviousOffered(e: Engine) {
    Taking(e) && e.currentIdx != 0
  }

  /** The right-hand button is "next" except on the last question. */
  predicate NextOffered(e: Engine) {
    Taking(e) && e.currentIdx != |e.questions| - 1
  }

  predicate FinishOffered(e: Engine) {
    Taking(e) && e.currentIdx == |e.questions| - 1 && !e.submitting
  }

  predicate SelectOffered(e: Engine, option: int) {
    Taking(e) && 0 <= option < |e.questions[e.currentIdx].options|
  }

  /** A fetch of questions only ever delivers documents for every
      referenced id. */
  predicate ValidEvent(e: Engine, ev: Event) {
    ev.QuestionsFetched? && e.quiz.Some? ==> AllResolve(e.quiz.value.questionIds, ev.bank)
  }

  /** The clock readings an event carries, if any. */
  function ReadsOf(ev: Event): Option<ClockReads> {
    match ev
    case QuestionsFetched(_, at) => Some(at)
    case Finish(at) => Some(at)
    case Tick(at) => Some(at)
    case WriteFailed(at) => Some(at)
    case _ => None
  }

  /** The clock does not run backwards between an event's two readings. */
  predicate OrderedReads(ev: Event) {
    ReadsOf(ev).Some? ==> ReadsOf(ev).value.first <= ReadsOf(ev).value.second
  }

  /** What a written attempt records about the state `e` the submission
      leaves: the quiz, the student, the picks, the score and total of
      `Scoring`, completion at the second reading, and as time between
      start and completion the allowance used plus the time between the
      two readings. */
  predicate Records(e: Engine, w: QuizAttempt, at: ClockReads)
    requires e.quiz.Some? && e.studentId.Some?
  {
    var q := e.quiz.value;
    && w.quizId == q.id
    && w.studentId == e.studentId.value
    && w.answers == e.answers
    && w.score == Scoring.Score(q.questionPoints, e.questions, e.answers)
    && w.totalPoints == Scoring.Total(q.questionPoints, e.questions)
    && w.completedAt == at.second
    && w.completedAt - w.startedAt == (q.durationMinutes * 60 - e.timeLeft) * 1000 + (at.second - at.first)
  }

  /** `startedAt` as the page derives it: the first reading of the clock
      minus the seconds of the allowance already used. */
  function StartedAt(q: Quiz, timeLeft: int, now: int): int {
    now - (q.durationMinutes * 60 - timeLeft) * 1000
  }

  /** `handleSubmit`: nothing without a quiz, a profile, or while the latch
      is set; otherwise set the latch and write the scored attempt. */
  function Submit(e: Engine, at: ClockReads): (o: Outcome)
    ensures o.write.Some? <==> e.quiz.Some? && e.studentId.Some? && !e.submitting
    ensures o.write.None? ==> o == Outcome(e, None)
    ensures o.write.Some? ==> o.engine == e.(submitting := true) && Records(o.engine, o.write.value, at)
  {
    if e.quiz.None? || e.studentId.None? || e.submitting then Outcome(e, None)
    else
      var q := e.quiz.value;
      var attempt := QuizAttempt(
        q.id, e.studentId.value, e.answers,
        Scoring.Score(q.questionPoints, e.questions, e.answers),
        Scoring.Total(q.questionPoints, e.questions),
        StartedAt(q, e.timeLeft, at.first), at.second);
      Outcome(e.(submitting := true), Some(attempt))
  }

  /** Loading the questions: fetch every id (duplicates included), order
      them by question number, one unanswered slot each. A quiz without
      questions cannot be displayed: the page's render fails on the
      missing current question. */
  function Load(e: Engine, bank: Bank): (r: Engine)
    requires e.quiz.Some? && AllResolve(e.quiz.value.questionIds, bank)
    ensures |r.questions| == |e.quiz.value.questionIds|
    ensures multiset(r.questions) == multiset(Resolve(e.quiz.value.questionIds, bank))
    ensures forall i, j :: 0 <= i < j < |r.questions| ==> NumberKey(r.questions[i]) <= NumberKey(r.questions[j])
    ensures |r.answers| == |r.questions| && forall i :: 0 <= i < |r.answers| ==> r.answers[i] == Unanswered
    ensures !r.loading && (r.closed <==> |e.quiz.value.questionIds| == 0)
    ensures r == e.(questions := r.questions, answers := r.answers, loading := false, closed := r.closed)
  {
    var qs := OrderByNumber(Resolve(e.quiz.value.questionIds, bank));
    e.(questions := qs, answers := seq(|qs|, _ => Unanswered), loading := false,
       closed := |qs| == 0)
  }

  /** The timer effect finds the time up on a loaded quiz. */
  predicate Expired(e: Engine) {
    !e.loading && e.quiz.Some? && e.timeLeft <= 0
  }

  /** The timer effect, which runs after every render that changed one of
      its dependencies: the time left, the loading flag, the quiz, or the
      submit routine (rebuilt whenever the picks, the time left or the
      latch change). On expiry it calls the submit routine and schedules
      no decrement. */
  function Settle(e: Engine, at: ClockReads): Outcome {
    if Expired(e) then Submit(e, at) else Outcome(e, None)
  }

  /** One event. The timer effect is run after the events that change its
      dependencies in a way that can matter: the end of loading, a tick,
      and a failed write reopening the latch. (After a pick or a move it
      runs too, but in a reachable state it finds either the time left or
      the latch already set, see `Inv`.) */
  function Step(e: Engine, ev: Event): (o: Outcome)
    requires ValidEvent(e, ev)
    ensures e.closed ==> o == Outcome(e, None)
    ensures o.write.Some? ==>
      && ReadsOf(ev).Some? && o.engine.submitting
      && o.engine.quiz.Some? && o.engine.studentId.Some?
      && Records(o.engine, o.write.value, ReadsOf(ev).value)
  {
    if e.closed then Outcome(e, None)
    else match ev
      case QuizFetched(q) =>
        if e.quiz.Some? then Outcome(e, None)
        else Outcome(e.(quiz := Some(q), timeLeft := q.durationMinutes * 60), None)
      case QuizMissing =>
        if e.quiz.Some? then Outcome(e, None) else Outcome(e.(closed := true), None)
      case QuestionsFetched(bank, at) =>
        if e.quiz.None? || !e.loading then Outcome(e, None)
        else
          var l := Load(e, bank);
          if l.closed then Outcome(l, None) else Settle(l, at)
      case Select(k) =>
        if SelectOffered(e, k) then Outcome(e.(answers := e.answers[e.currentIdx := k]), None)
        else Outcome(e, None)
      case Previous =>
        if PreviousOffered(e) then Outcome(e.(currentIdx := e.currentIdx - 1), None)
        else Outcome(e, None)
      case Next =>
        if NextOffered(e) then Outcome(e.(currentIdx := e.currentIdx + 1), None)
        else Outcome(e, None)
      case Finish(at) =>
        if FinishOffered(e) then Submit(e, at) else Outcome(e, None)
      case Tick(at) =>
        // the interval runs (during loading too) until the effect finds
        // the time up; the effect then runs on the decremented state
        Settle(if Expired(e) then e else e.(timeLeft := e.timeLeft - 1), at)
      case WriteSucceeded =>
        if e.submitting then Outcome(e.(closed := true), None) else Outcome(e, None)
      case WriteFailed(at) =>
        if e.submitting then Settle(e.(submitting := false), at) else Outcome(e, None)
  }

  /** What holds of every state the page can reach. The last clause says
      the timer effect has had its say: an open page never rests with the
      time up, a profile present and the latch open. */
  predicate Inv(e: Engine) {
    && |e.answers| == |e.questions|
    && (e.loading ==> e.currentIdx == 0 && |e.questions| == 0 && !e.submitting)
    && (!e.loading ==> e.quiz.Some?)
    && (!e.loading && !e.closed ==> 0 <= e.currentIdx < |e.questions|)
    && (e.quiz.Some? ==> e.timeLeft <= e.quiz.value.durationMinutes * 60)
    && (e.quiz.None? ==> e.timeLeft <= 0)
    && (e.submitting ==> e.quiz.Some? && e.studentId.Some?)
    && (Expired(e) && !e.closed && e.studentId.Some? ==> e.submitting)
  }

  lemma StartInv(studentId: Option<Id>)
    ensures Inv(Start(studentId))
  {
  }

  /** Every event keeps the invariant; in particular the cursor never
      leaves the question list, there is one answer slot per question, and
      an expired attempt is always submitted. */
  lemma StepPreservesInv(e: Engine, ev: Event)
    requires Inv(e) && ValidEvent(e, ev)
    ensures Inv(Step(e, ev).engine)
  {
  }

  /** The end of loading installs the loaded questions and changes nothing
      else but the latch, which it sets only to submit at once. */
  lemma LoadedQuestions(e: Engine, bank: Bank, at: ClockReads, z: Question)
    requires !e.closed && e.loading && e.quiz.Some?
    requires AllResolve(e.quiz.value.questionIds, bank)
    ensures var o := Step(e, QuestionsFetched(bank, at));
      var fetched := Resolve(e.quiz.value.questionIds, bank);
      && o.engine.(submitting := e.submitting) == Load(e, bank)
      && Sorting.TiedWith(o.engine.questions, ByNumber(), z) == Sorting.TiedWith(fetched, ByNumber(), z)
      && (o.engine.submitting != e.submitting ==> o.write.Some?)
  {
    var l := Load(e, bank);
    var o := Step(e, QuestionsFetched(bank, at));
    assert o == (if l.closed then Outcome(l, None) else Settle(l, at));
    assert o.engine == l || o.engine == l.(submitting := true);
    OrderByNumberStable(Resolve(e.quiz.value.questionIds, bank), z);
  }

  /** A quiz whose time ran out while its questions were loading is
      submitted as soon as they arrive, with every slot unanswered. */
  lemma ExpiredOnLoadSubmits(e: Engine, bank: Bank, at: ClockReads)
    requires Inv(e) && !e.closed && e.loading && e.quiz.Some? && e.studentId.Some?
    requires AllResolve(e.quiz.value.questionIds, bank)
    requires |e.quiz.value.questionIds| > 0 && e.timeLeft <= 0
    ensures var o := Step(e, QuestionsFetched(bank, at));
      && o.write.Some? && o.engine.submitting
      && forall i :: 0 <= i < |o.write.value.answers| ==> o.write.value.answers[i] == Unanswered
  {
  }

  /** Picking option k writes k into the current slot and nothing else. */
  lemma SelectWritesCurrentSlot(e: Engine, k: int)
    requires SelectOffered(e, k)
    ensures var e' := Step(e, Select(k)).engine;
      && |e'.answers| == |e.answers|
      && e'.answers[e.currentIdx] == k
      && (forall i :: 0 <= i < |e.answers| && i != e.currentIdx ==> e'.answers[i] == e.answers[i])
      && e'.currentIdx == e.currentIdx && e'.submitting == e.submitting
  {
  }

  /** The three navigation controls partition the positions: "previous"
      everywhere but the first question, "next" everywhere but the last,
      "finish" only on the last. */
  lemma NavigationControls(e: Engine)
    requires Taking(e)
    ensures PreviousOffered(e) <==> e.currentIdx > 0
    ensures NextOffered(e) <==> e.currentIdx < |e.questions| - 1
    ensures FinishOffered(e) <==> e.currentIdx == |e.questions| - 1 && !e.submitting
    ensures NextOffered(e) ==> Step(e, Next).engine.currentIdx < |e.questions|
    ensures PreviousOffered(e) ==> Step(e, Previous).engine.currentIdx >= 0
  {
  }

  /** While the latch is set neither trigger writes anything. */
  lemma LatchBlocksSubmission(e: Engine, at: ClockReads)
    requires e.submitting
    ensures Step(e, Finish(at)).write.None?
    ensures Step(e, Tick(at)).write.None?
    ensures Step(e, Tick(at)).engine.submitting
  {
  }

  /** A finish click and the last tick, taken one after the other:
      whichever comes first writes, the other is a no-op. */
  lemma RaceWritesOnce(e: Engine, a1: ClockReads, a2: ClockReads)
    requires Inv(e) && FinishOffered(e) && e.studentId.Some? && e.timeLeft == 1
    ensures Step(e, Finish(a1)).write.Some?
    ensures Step(Step(e, Finish(a1)).engine, Tick(a2)).write.None?
    ensures Step(e, Tick(a2)).write.Some?
    ensures Step(Step(e, Tick(a2)).engine, Finish(a1)).write.None?
  {
  }

  /** A failed write before the time is up clears the latch and keeps the
      picks, so finishing again writes the same attempt. */
  lemma FailedWriteAllowsRetry(e: Engine, a1: ClockReads, a2: ClockReads)
    requires Inv(e) && FinishOffered(e) && e.studentId.Some?
    ensures var o := Step(e, Finish(a1));
      var e' := Step(o.engine, WriteFailed(a2)).engine;
      && Step(o.engine, WriteFailed(a2)).write.None?
      && !e'.submitting && e'.answers == e.answers && e'.currentIdx == e.currentIdx
      && FinishOffered(e')
      && Step(e', Finish(a1)).write == o.write
  {
  }

  /** A failed write after the time is up is retried at once: reopening
      the latch reruns the timer effect, which submits again. */
  lemma ExpiredFailureResubmits(e: Engine, at: ClockReads)
    requires Inv(e) && !e.closed && e.submitting && Expired(e)
    ensures var o := Step(e, WriteFailed(at));
      && o.write.Some? && o.engine == e
      && Records(e, o.write.value, at)
  {
  }

  /** The written attempt is consistent: the score does not exceed the
      total (for non-negative points), the derived start instant is not
      after the completion instant, and there is one answer per question. */
  lemma WrittenAttemptConsistent(e: Engine, ev: Event)
    requires Inv(e) && ValidEvent(e, ev) && OrderedReads(ev)
    requires Step(e, ev).write.Some?
    requires Scoring.NonNegativePoints(Step(e, ev).engine.quiz.value.questionPoints, Step(e, ev).engine.questions)
    ensures var o := Step(e, ev);
      var w := o.write.value;
      && 0.0 <= w.score <= w.totalPoints
      && w.startedAt <= w.completedAt
      && |w.answers| == |o.engine.questions|
  {
    var o := Step(e, ev);
    StepPreservesInv(e, ev);
    Scoring.ScoreBounded(o.engine.quiz.value.questionPoints, o.engine.questions, o.engine.answers);
  }

  // ------------------------------------------------------------ runs

  /** A sequence of events of the live phase (after the fetches). */
  predicate LiveEvents(evs: seq<Event>) {
    forall i :: 0 <= i < |evs| ==> !evs[i].QuestionsFetched?
  }

  /** Feeding events one by one; the writes requested along the way. */
  function Run(e: Engine, evs: seq<Event>): (r: (Engine, seq<QuizAttempt>))
    requires LiveEvents(evs)
    decreases |evs|
  {
    if |evs| == 0 then (e, [])
    else
      var o := Step(e, evs[0]);
      var rest := Run(o.engine, evs[1..]);
      (rest.0, (if o.write.Some? then [o.write.value] else []) + rest.1)
  }

  function CountFailures(evs: seq<Event>): nat {
    if |evs| == 0 then 0 else (if evs[0].WriteFailed? then 1 else 0) + CountFailures(evs[1..])
  }

  /** The latch in trace form: along any run of events after the
      questions arrived, every write after the first is paid for by its
      own failed write. */
  lemma {:induction false} WritesBoundedByFailures(e: Engine, evs: seq<Event>)
    requires LiveEvents(evs)
    ensures |Run(e, evs).1| <= (if e.submitting then 0 else 1) + CountFailures(evs)
    decreases |evs|
  {
    if |evs| > 0 {
      var o := Step(e, evs[0]);
      assert LiveEvents(evs[1..]);
      WritesBoundedByFailures(o.engine, evs[1..]);
      StepLatch(e, evs[0]);
    }
  }

  /** One step of the latch: a write leaves it set, and needs it open
      unless the step is the failed write that reopened it; only a failed
      write reopens it. */
  lemma StepLatch(e: Engine, ev: Event)
    requires !ev.QuestionsFetched?
    ensures var o := Step(e, ev);
      && (o.write.Some? ==> o.engine.submitting)
      && (o.write.Some? && !ev.WriteFailed? ==> !e.submitting)
      && (e.submitting && !ev.WriteFailed? ==> o.engine.submitting)
  {
  }

  function Ticks(n: nat, at: ClockReads): (evs: seq<Event>)
    ensures |evs| == n && LiveEvents(evs)
  {
    seq(n, _ => Tick(at))
  }

  /** Ticks before the time is up only count down. */
  lemma {:induction false} CountDown(e: Engine, n: nat, at: ClockReads)
    requires !e.closed && !e.loading && e.quiz.Some? && e.timeLeft > n
    ensures Run(e, Ticks(n, at)) == (e.(timeLeft := e.timeLeft - n), [])
    decreases n
  {
    if n > 0 {
      var e1 := e.(timeLeft := e.timeLeft - 1);
      var evs := Ticks(n, at);
      assert evs[0] == Tick(at);
      assert Step(e, evs[0]) == Outcome(e1, None);
      assert evs[1..] == Ticks(n - 1, at);
      CountDown(e1, n - 1, at);
      assert e1.(timeLeft := e1.timeLeft - (n - 1)) == e.(timeLeft := e.timeLeft - n);
      var rest := Run(e1, evs[1..]);
      assert rest.1 == [] && [] + rest.1 == rest.1;
      assert rest.0 == e.(timeLeft := e.timeLeft - n);
      assert Run(e, evs) == (rest.0, [] + rest.1);
    }
  }

  /** Time expiry: from a loaded attempt with `t` seconds left and no
      submission pending, the first t - 1 ticks only count down, and the
      t-th tick writes the attempt, recording the whole allowance (plus
      the time between the clock's two readings) as time used. */
  lemma ExpirySubmits(e: Engine, t: nat, at: ClockReads)
    requires Inv(e) && !e.closed && !e.loading && !e.submitting && e.studentId.Some?
    requires e.timeLeft == t
    ensures t >= 1
    ensures var r := Run(e, Ticks(t - 1, at));
      && r.0 == e.(timeLeft := 1) && r.1 == []
      && var o := Step(r.0, Tick(at));
         && o.write.Some? && o.engine == e.(timeLeft := 0, submitting := true)
         && o.write.value.completedAt - o.write.value.startedAt
            == e.quiz.value.durationMinutes * 60 * 1000 + (at.second - at.first)
  {
    CountDown(e, t - 1, at);
  }

  /** Once the page is gone no event changes anything or writes. */
  lemma ClosedIsFinal(e: Engine, evs: seq<Event>)
    requires e.closed && LiveEvents(evs)
    ensures Run(e, evs) == (e, [])
    decreases |evs|
  {
    if |evs| > 0 {
      assert LiveEvents(evs[1..]);
      var o := Step(e, evs[0]);
      assert o == Outcome(e, None);
      ClosedIsFinal(e, evs[1..]);
      var rest := Run(o.engine, evs[1..]);
      assert rest == (e, []);
      assert [] + rest.1 == [];
      assert Run(e, evs) == (rest.0, [] + rest.1);
    }
  }
}

=== FILE: bulk_import.dfy ===
/** Importing questions from a spreadsheet (src/pages/admin/Questions.tsx,
    `handleAdvancedBulkUpload` and `handleBulkSync`), from the point where
    the file has been parsed into rows whose header keys are trimmed and
    lower-cased. Each row is validated on its own into a new question or
    an error message; the accepted ones go into one batch, committed only
    when there is at least one. The bank list below the importer is here
    too. */
module BulkImport {
  import opened Wrappers
  import opened Model
  import opened Strings
  import Sorting

  /** A parsed row: lower-cased header to cell text. */
  type Row = map<string, string>

  /** `row[k1] || row[k2] || …`: the first cell among the given headers
      that is present and non-empty (an empty string is falsy). */
  function Cell(row: Row, keys: seq<string>): (r: Option<string>)
    ensures r.Some? ==> r.value != ""
    ensures r.Some? ==>
      exists i :: 0 <= i < |keys| && keys[i] in row && row[keys[i]] == r.value
        && forall j :: 0 <= j < i ==> keys[j] !in row || row[keys[j]] == ""
    ensures r.None? <==> forall i :: 0 <= i < |keys| ==> keys[i] !in row || row[keys[i]] == ""
  {
    if |keys| == 0 then None
    else if keys[0] in row && row[keys[0]] != "" then Some(row[keys[0]])
    else
      var r := Cell(row, keys[1..]);
      assert forall i :: 1 <= i < |keys| ==> keys[i] == keys[1..][i - 1];
      r
  }

  // The header spellings each field is read from, in the order tried.
  const QuestionKeys := ["question", "text", "question text"]
  const MarathiQuestionKeys := ["question (marathi)", "text (marathi)", "marathi question", "marathi text"]
  const OptionKeys := [["option a", "a"], ["option b", "b"], ["option c", "c"], ["option d", "d"]]
  const MarathiOptionKeys := [
    ["option a (marathi)", "a (marathi)", "marathi a"],
    ["option b (marathi)", "b (marathi)", "marathi b"],
    ["option c (marathi)", "c (marathi)", "marathi c"],
    ["option d (marathi)", "d (marathi)", "marathi d"]]
  const CorrectKeys := ["correct answer", "correct"]
  const PointsKeys := ["points"]
  const NumberKeys := ["question num", "number", "qno", "sl no", "question number", "sr no", "sr. no."]
  const FigureKeys := ["figure", "figure url", "image", "image url"]
  const SyncImageKeys := ["figure url", "image", "figure", "image url"]
  const CourseKeys := ["course", "course short name", "short code"]

  /** The number of present cells before position `i`. */
  function PresentBefore(cells: seq<Option<string>>, i: nat): nat
    requires i <= |cells|
  {
    if i == 0 then 0 else PresentBefore(cells, i - 1) + (if cells[i - 1].Some? then 1 else 0)
  }

  lemma {:induction false} PresentBeforeTail(cells: seq<Option<string>>, i: nat)
    requires 0 < |cells| && i < |cells|
    ensures PresentBefore(cells, i + 1) == (if cells[0].Some? then 1 else 0) + PresentBefore(cells[1..], i)
  {
    if i > 0 {
      PresentBeforeTail(cells, i - 1);
      assert cells[1..][i - 1] == cells[i];
    }
  }

  /** `[…].filter(Boolean)`: the present cells, in order: the cell at
      position i, when present, is the j-th of the result, j being the
      number of present cells before it. */
  function Present(cells: seq<Option<string>>): (r: seq<string>)
    ensures |r| == PresentBefore(cells, |cells|)
    ensures |r| <= |cells|
    ensures forall i :: 0 <= i < |cells| && cells[i].Some? ==>
      PresentBefore(cells, i) < |r| && r[PresentBefore(cells, i)] == cells[i].value
    ensures forall i :: 0 <= i < |cells| && cells[i].Some? ==> cells[i].value in r
    ensures forall i :: 0 <= i < |r| ==> Some(r[i]) in cells
  {
    CompactLength(cells);
    CompactRank(cells);
    CompactMembers(cells);
    Compact(cells)
  }

  function Compact(cells: seq<Option<string>>): seq<string> {
    if |cells| == 0 then []
    else (if cells[0].Some? then [cells[0].value] else []) + Compact(cells[1..])
  }

  lemma {:induction false} CompactLength(cells: seq<Option<string>>)
    ensures |Compact(cells)| == PresentBefore(cells, |cells|) <= |cells|
    decreases |cells|
  {
    if |cells| > 0 {
      CompactLength(cells[1..]);
      PresentBeforeTail(cells, |cells| - 1);
    }
  }

  lemma {:induction false} CompactRank(cells: seq<Option<string>>)
    ensures forall i :: 0 <= i < |cells| && cells[i].Some? ==>
      PresentBefore(cells, i) < |Compact(cells)| && Compact(cells)[PresentBefore(cells, i)] == cells[i].value
    decreases |cells|
  {
    if |cells| > 0 {
      var rest := Compact(cells[1..]);
      CompactRank(cells[1..]);
      forall i | 0 <= i < |cells| && cells[i].Some?
        ensures PresentBefore(cells, i) < |Compact(cells)| && Compact(cells)[PresentBefore(cells, i)] == cells[i].value
      {
        if i > 0 {
          PresentBeforeTail(cells, i - 1);
          assert cells[1..][i - 1] == cells[i];
        }
      }
    }
  }

  lemma {:induction false} CompactMembers(cells: seq<Option<string>>)
    ensures forall i :: 0 <= i < |cells| && cells[i].Some? ==> cells[i].value in Compact(cells)
    ensures forall i :: 0 <= i < |Compact(cells)| ==> Some(Compact(cells)[i]) in cells
    decreases |cells|
  {
    if |cells| > 0 {
      CompactMembers(cells[1..]);
      assert forall i :: 1 <= i < |cells| ==> cells[i] == cells[1..][i - 1];
      assert forall x :: x in cells[1..] ==> x in cells;
    }
  }

  /** Nothing is present exactly when every cell is missing. */
  lemma PresentEmpty(cells: seq<Option<string>>)
    ensures |Present(cells)| == 0 <==> forall i :: 0 <= i < |cells| ==> cells[i].None?
  {
    if |Present(cells)| > 0 {
      assert Some(Present(cells)[0]) in cells;
    }
  }

  /** The four option columns A to D of a row, before compaction. */
  function OptionCells(row: Row, keys: seq<seq<string>>): (r: seq<Option<string>>)
    ensures |r| == |keys|
    ensures forall i :: 0 <= i < |keys| ==> r[i] == Cell(row, keys[i])
  {
    seq(|keys|, i requires 0 <= i < |keys| => Cell(row, keys[i]))
  }

  /** `['A', 'B', 'C', 'D'].indexOf(letter)`. */
  function LetterIndex(letter: string): (r: int)
    ensures -1 <= r <= 3
    ensures r >= 0 ==> letter == ["ABCD"[r]]
    ensures r == -1 <==> letter !in {"A", "B", "C", "D"}
  {
    if letter == "A" then 0
    else if letter == "B" then 1
    else if letter == "C" then 2
    else if letter == "D" then 3
    else -1
  }

  /** The correct-answer cell, trimmed and upper-cased, as an option index. */
  function CorrectIndex(row: Row): int {
    LetterIndex(Upper(Trim(Cell(row, CorrectKeys).GetOr(""))))
  }

  /** A question as the importer writes it. `points` and `questionNumber`
      are what `parseInt` made of their cells, `None` standing for NaN;
      the store assigns the id and the clock the creation time. */
  datatype NewQuestion = NewQuestion(
    courseId: Id,
    text: string,
    marathiText: Option<string>,
    options: seq<string>,
    marathiOptions: Option<seq<string>>,
    correctOptionIndex: int,
    points: Option<int>,
    imageUrl: Option<string>,
    questionNumber: Option<int>)

  /** Why a row was refused. */
  datatype RowError = CourseNotFound(name: string) | NoCourse | InvalidData

  /** A refused row: its 1-based number and the reason. */
  datatype Failure = Failure(rowNum: nat, error: RowError)

  /** The message a refused row adds to the results list. */
  function Message(f: Failure): string {
    "Row " + IntToString(f.rowNum) + ": " +
    match f.error
    case CourseNotFound(name) => "Course \"" + name + "\" not found."
    case NoCourse => "No course specified. Please select a course or include a 'Course' column."
    case InvalidData => "Invalid data. Need question, 2+ options, and correct answer (A/B/C/D)."
  }

  datatype Outcome<T> = Ok(value: T) | Err(error: RowError)

  // ------------------------------------------------------------ images

  /** An uploaded image: its file name and its contents as a data URL. */
  type ImageFile = (string, string)

  /** `Map.prototype.set`: an existing key keeps its place and takes the
      new value; a new key goes last. */
  function MapSet(entries: seq<(string, string)>, k: string, v: string): (r: seq<(string, string)>)
    ensures Keys(r) == if k in Keys(entries) then Keys(entries) else Keys(entries) + [k]
    ensures Lookup(r, k) == Some(v)
    ensures forall j :: j != k ==> Lookup(r, j) == Lookup(entries, j)
  {
    SetEntryKeys(entries, k, v);
    SetEntryLookup(entries, k, v);
    SetEntryOthers(entries, k, v);
    SetEntry(entries, k, v)
  }

  function SetEntry(entries: seq<(string, string)>, k: string, v: string): seq<(string, string)> {
    if |entries| == 0 then [(k, v)]
    else if entries[0].0 == k then [(k, v)] + entries[1..]
    else [entries[0]] + SetEntry(entries[1..], k, v)
  }

  /** The keys and lookups of a map with one more entry in front. */
  lemma MapCons(e: (string, string), rest: seq<(string, string)>)
    ensures Keys([e] + rest) == [e.0] + Keys(rest)
    ensures forall j :: Lookup([e] + rest, j) == if e.0 == j then Some(e.1) else Lookup(rest, j)
  {
    assert ([e] + rest)[1..] == rest;
  }

  lemma {:induction false} SetEntryKeys(entries: seq<(string, string)>, k: string, v: string)
    ensures Keys(SetEntry(entries, k, v)) == if k in Keys(entries) then Keys(entries) else Keys(entries) + [k]
    decreases |entries|
  {
    if |entries| > 0 {
      assert entries == [entries[0]] + entries[1..];
      MapCons(entries[0], entries[1..]);
      if entries[0].0 == k {
        MapCons((k, v), entries[1..]);
      } else {
        SetEntryKeys(entries[1..], k, v);
        MapCons(entries[0], SetEntry(entries[1..], k, v));
      }
    }
  }

  lemma {:induction false} SetEntryLookup(entries: seq<(string, string)>, k: string, v: string)
    ensures Lookup(SetEntry(entries, k, v), k) == Some(v)
    decreases |entries|
  {
    if |entries| == 0 {
      MapCons((k, v), []);
    } else if entries[0].0 == k {
      MapCons((k, v), entries[1..]);
    } else {
      SetEntryLookup(entries[1..], k, v);
      MapCons(entries[0], SetEntry(entries[1..], k, v));
    }
  }

  lemma {:induction false} SetEntryOthers(entries: seq<(string, string)>, k: string, v: string)
    ensures forall j :: j != k ==> Lookup(SetEntry(entries, k, v), j) == Lookup(entries, j)
    decreases |entries|
  {
    if |entries| == 0 {
      MapCons((k, v), []);
    } else {
      assert entries == [entries[0]] + entries[1..];
      MapCons(entries[0], entries[1..]);
      if entries[0].0 == k {
        MapCons((k, v), entries[1..]);
      } else {
        SetEntryOthers(entries[1..], k, v);
        MapCons(entries[0], SetEntry(entries[1..], k, v));
      }
    }
  }

  function Keys(entries: seq<(string, string)>): (r: seq<string>)
    ensures |r| == |entries| && forall i :: 0 <= i < |entries| ==> r[i] == entries[i].0
  {
    if |entries| == 0 then [] else [entries[0].0] + Keys(entries[1..])
  }

  /** `map.get(k)`: the value of the first entry with that key. */
  function Lookup(entries: seq<(string, string)>, k: string): (r: Option<string>)
    ensures r.None? <==> k !in Keys(entries)
    ensures r.Some? ==>
      exists i :: 0 <= i < |entries| && entries[i] == (k, r.value)
        && forall j :: 0 <= j < i ==> entries[j].0 != k
  {
    if |entries| == 0 then None
    else if entries[0].0 == k then Some(entries[0].1)
    else
      var r := Lookup(entries[1..], k);
      assert forall i :: 1 <= i < |entries| ==> entries[i] == entries[1..][i - 1];
      r
  }

  /** The images map: each uploaded file under its lower-cased name, in
      upload order; a later file with the same name replaces the earlier
      one's URL. */
  function ImagesMap(files: seq<ImageFile>): seq<(string, string)> {
    if |files| == 0 then []
    else
      var f := files[|files| - 1];
      MapSet(ImagesMap(files[..|files| - 1]), Lower(f.0), f.1)
  }

  /** The lower-cased names of the uploads, in upload order. */
  function UploadNames(files: seq<ImageFile>): (r: seq<string>)
    ensures |r| == |files| && forall i :: 0 <= i < |files| ==> r[i] == Lower(files[i].0)
  {
    seq(|files|, i requires 0 <= i < |files| => Lower(files[i].0))
  }

  /** The images map has exactly the lower-cased upload names as keys,
      each once. */
  lemma {:induction false} ImagesMapKeys(files: seq<ImageFile>)
    ensures NoDuplicates(Keys(ImagesMap(files)))
    ensures forall k :: k in Keys(ImagesMap(files)) <==> k in UploadNames(files)
  {
    if |files| > 0 {
      var init := files[..|files| - 1];
      var f := files[|files| - 1];
      ImagesMapKeys(init);
      MapSetKeepsDistinct(ImagesMap(init), Lower(f.0), f.1);
      MapSetKeys(ImagesMap(init), Lower(f.0), f.1);
      UploadNamesSnoc(files);
    }
  }

  lemma UploadNamesSnoc(files: seq<ImageFile>)
    requires |files| > 0
    ensures forall k :: k in UploadNames(files) <==>
      k in UploadNames(files[..|files| - 1]) || k == Lower(files[|files| - 1].0)
  {
    assert UploadNames(files) == UploadNames(files[..|files| - 1]) + [Lower(files[|files| - 1].0)];
  }

  lemma MapSetKeys(entries: seq<(string, string)>, k: string, v: string)
    ensures forall j :: j in Keys(MapSet(entries, k, v)) <==> j in Keys(entries) || j == k
  {
  }

  lemma MapSetKeepsDistinct(entries: seq<(string, string)>, k: string, v: string)
    requires NoDuplicates(Keys(entries))
    ensures NoDuplicates(Keys(MapSet(entries, k, v)))
  {
    if k !in Keys(entries) {
      var ks := Keys(entries) + [k];
      assert Keys(MapSet(entries, k, v)) == ks;
      forall i, j | 0 <= i < j < |ks| ensures ks[i] != ks[j] {
        if j == |ks| - 1 {
          assert ks[i] in Keys(entries);
        }
      }
    }
  }

  /** The first key starting with `prefix`, in map order. */
  function FirstKeyStartingWith(keys: seq<string>, prefix: string): (r: Option<string>)
    ensures r.Some? ==>
      exists i :: 0 <= i < |keys| && keys[i] == r.value && StartsWith(r.value, prefix)
        && forall j :: 0 <= j < i ==> !StartsWith(keys[j], prefix)
    ensures r.None? <==> forall i :: 0 <= i < |keys| ==> !StartsWith(keys[i], prefix)
  {
    if |keys| == 0 then None
    else if StartsWith(keys[0], prefix) then Some(keys[0])
    else
      var r := FirstKeyStartingWith(keys[1..], prefix);
      assert forall i :: 1 <= i < |keys| ==> keys[i] == keys[1..][i - 1];
      r
  }

  /** The figure of a row, from its reference (already trimmed and
      lower-cased): an uploaded file of exactly that name, else the
      reference itself when it starts with "http", else the first upload
      named `reference + "."` and an extension, else none. An empty value
      found counts as none (`imageUrl || null`). */
  function Figure(figureRef: string, images: seq<(string, string)>): (r: Option<string>)
    ensures r.Some? ==> r.value != ""
    ensures figureRef == "" ==> r.None?
    ensures figureRef != "" && Lookup(images, figureRef).Some? ==> r == Truthy(Lookup(images, figureRef))
    ensures figureRef != "" && Lookup(images, figureRef).None? && StartsWith(figureRef, "http") ==> r == Some(figureRef)
    ensures figureRef != "" && Lookup(images, figureRef).None? && !StartsWith(figureRef, "http") ==>
      r == match FirstKeyStartingWith(Keys(images), figureRef + ".")
           case None => None
           case Some(k) => Truthy(Lookup(images, k))
    ensures r.Some? ==>
      (exists k :: k in Keys(images) && Lookup(images, k) == r) || (StartsWith(figureRef, "http") && r == Some(figureRef))
  {
    if figureRef == "" then None
    else if Lookup(images, figureRef).Some? then Truthy(Lookup(images, figureRef))
    else if StartsWith(figureRef, "http") then Some(figureRef)
    else match FirstKeyStartingWith(Keys(images), figureRef + ".")
      case None => None
      case Some(k) => Truthy(Lookup(images, k))
  }

  /** `x || null` on an optional string. */
  function Truthy(x: Option<string>): (r: Option<string>)
    ensures r.Some? <==> x.Some? && x.value != ""
    ensures r.Some? ==> r == x
  {
    if x.Some? && x.value != "" then x else None
  }

  // ------------------------------------------------------------ courses

  /** The first course whose short code or name, lower-cased, is `name`. */
  function CourseNamed(courses: seq<Course>, name: string): (r: Option<Course>)
    ensures r.Some? ==>
      exists i :: 0 <= i < |courses| && courses[i] == r.value
        && (Lower(r.value.shortCode) == name || Lower(r.value.name) == name)
        && forall j :: 0 <= j < i ==> Lower(courses[j].shortCode) != name && Lower(courses[j].name) != name
    ensures r.None? <==> forall i :: 0 <= i < |courses| ==>
      Lower(courses[i].shortCode) != name && Lower(courses[i].name) != name
  {
    if |courses| == 0 then None
    else if Lower(courses[0].shortCode) == name || Lower(courses[0].name) == name then Some(courses[0])
    else
      var r := CourseNamed(courses[1..], name);
      assert forall i :: 1 <= i < |courses| ==> courses[i] == courses[1..][i - 1];
      r
  }

  /** The course cell of a row, trimmed and lower-cased; `''` without one. */
  function CourseCell(row: Row): string {
    Lower(Trim(Cell(row, CourseKeys).GetOr("")))
  }

  /** The course of a row: its course cell must name a course; without
      one the course selected on the page is used; with neither the row
      is refused. */
  function RowCourse(row: Row, courses: seq<Course>, selectedCourse: Id): Outcome<Id> {
    CourseFor(CourseCell(row), courses, selectedCourse)
  }

  /** The course decision for a (trimmed, lower-cased) course cell `name`:
      a name no course has is refused with that name, an empty name falls
      back to the selected course, and an empty id is "no course". */
  function CourseFor(name: string, courses: seq<Course>, selectedCourse: Id): (r: Outcome<Id>)
    ensures name != "" && CourseNamed(courses, name).None? <==> r == Err(CourseNotFound(name))
    ensures name != "" && CourseNamed(courses, name).Some? && CourseNamed(courses, name).value.id != ""
      ==> r == Ok(CourseNamed(courses, name).value.id)
    ensures name == "" && selectedCourse != "" ==> r == Ok(selectedCourse)
    ensures name == "" && selectedCourse == "" ==> r == Err(NoCourse)
    ensures r.Ok? ==> r.value != ""
  {
    var courseId :=
      if name == "" then Ok(selectedCourse)
      else match CourseNamed(courses, name)
        case Some(c) => Ok(c.id)
        case None => Err(CourseNotFound(name));
    if courseId.Err? then courseId
    else if courseId.value == "" then Err(NoCourse)
    else courseId
  }

  // ------------------------------------------------------------ one row

  /** The shape check both importers share: question text, at least two
      options, and a correct letter A to D. */
  predicate WellFormed(row: Row) {
    Cell(row, QuestionKeys).Some? && |Present(OptionCells(row, OptionKeys))| >= 2 && CorrectIndex(row) != -1
  }

  /** The question a row makes once its course and image are known. */
  function Build(row: Row, courseId: Id, imageUrl: Option<string>, parseInt: string -> Option<int>): (r: NewQuestion)
    requires WellFormed(row)
    ensures Acceptable(r)
    ensures r.courseId == courseId && r.imageUrl == imageUrl
    ensures r.text == Cell(row, QuestionKeys).value && r.marathiText == Cell(row, MarathiQuestionKeys)
    ensures r.options == Present(OptionCells(row, OptionKeys)) && r.correctOptionIndex == CorrectIndex(row)
    ensures r.marathiOptions.None? <==>
      forall i :: 0 <= i < |MarathiOptionKeys| ==> Cell(row, MarathiOptionKeys[i]).None?
    ensures r.marathiOptions.Some? ==> r.marathiOptions.value == Present(OptionCells(row, MarathiOptionKeys))
    ensures Cell(row, PointsKeys).None? ==> r.points == parseInt("1")
    ensures Cell(row, PointsKeys).Some? ==> r.points == parseInt(Cell(row, PointsKeys).value)
    ensures Cell(row, NumberKeys).None? ==> r.questionNumber == parseInt("")
    ensures Cell(row, NumberKeys).Some? ==> r.questionNumber == parseInt(Cell(row, NumberKeys).value)
  {
    var mOptions := Present(OptionCells(row, MarathiOptionKeys));
    PresentEmpty(OptionCells(row, MarathiOptionKeys));
    NewQuestion(
      courseId,
      Cell(row, QuestionKeys).value,
      Cell(row, MarathiQuestionKeys),
      Present(OptionCells(row, OptionKeys)),
      if |mOptions| > 0 then Some(mOptions) else None,
      CorrectIndex(row),
      parseInt(Cell(row, PointsKeys).GetOr("1")),
      imageUrl,
      parseInt(Cell(row, NumberKeys).GetOr("")))
  }

  /** A row of the spreadsheet upload: course errors are reported before
      shape errors. */
  function AdvancedRow(row: Row, courses: seq<Course>, selectedCourse: Id,
                       images: seq<(string, string)>, parseInt: string -> Option<int>): (r: Outcome<NewQuestion>)
    ensures r.Ok? <==> RowCourse(row, courses, selectedCourse).Ok? && WellFormed(row)
    ensures RowCourse(row, courses, selectedCourse).Err? ==> r.Err? && r.error == RowCourse(row, courses, selectedCourse).error
    ensures RowCourse(row, courses, selectedCourse).Ok? && !WellFormed(row) ==> r == Err(InvalidData)
    ensures r.Ok? ==>
      && r.value.courseId == RowCourse(row, courses, selectedCourse).value
      && r.value.imageUrl == Figure(Lower(Trim(Cell(row, FigureKeys).GetOr(""))), images)
    ensures r.Ok? ==>
      r.value == Build(row, RowCourse(row, courses, selectedCourse).value,
                       Figure(Lower(Trim(Cell(row, FigureKeys).GetOr(""))), images), parseInt)
  {
    match RowCourse(row, courses, selectedCourse)
    case Err(e) => Err(e)
    case Ok(courseId) =>
      if !WellFormed(row) then Err(InvalidData)
      else Ok(Build(row, courseId, Figure(Lower(Trim(Cell(row, FigureKeys).GetOr(""))), images), parseInt))
  }

  /** A row of the pasted-CSV sync: always the selected course, the image
      cell taken as it is. */
  function SyncRow(row: Row, selectedCourse: Id, parseInt: string -> Option<int>): (r: Outcome<NewQuestion>)
    ensures r.Ok? <==> WellFormed(row)
    ensures r.Err? ==> r.error == InvalidData
    ensures r.Ok? ==> r.value.courseId == selectedCourse && r.value.imageUrl == Cell(row, SyncImageKeys)
    ensures r.Ok? ==> r.value == Build(row, selectedCourse, Cell(row, SyncImageKeys), parseInt)
  {
    if !WellFormed(row) then Err(InvalidData)
    else Ok(Build(row, selectedCourse, Cell(row, SyncImageKeys), parseInt))
  }

  /** What every written question satisfies: text, two to four options,
      a correct index 0..3 — which is not checked against the number of
      options kept. */
  predicate Acceptable(q: NewQuestion) {
    q.text != "" && 2 <= |q.options| <= 4 && 0 <= q.correctOptionIndex <= 3
  }

  /** A blank B cell shifts the later options down while the letter keeps
      counting from A: "C" then marks the D text as correct, and "D" points
      past the last option. */
  lemma BlankOptionShiftsLetters(row: Row, parseInt: string -> Option<int>, selectedCourse: Id)
    requires Cell(row, QuestionKeys).Some?
    requires var o := OptionCells(row, OptionKeys); o[0].Some? && o[1].None? && o[2].Some? && o[3].Some?
    requires CorrectIndex(row) == 2 || CorrectIndex(row) == 3
    ensures var r := SyncRow(row, selectedCourse, parseInt);
      var o := OptionCells(row, OptionKeys);
      && r.Ok?
      && r.value.options == [o[0].value, o[2].value, o[3].value]
      && (CorrectIndex(row) == 2 ==> r.value.options[r.value.correctOptionIndex] == o[3].value)
      && (CorrectIndex(row) == 3 ==> r.value.correctOptionIndex == |r.value.options|)
  {
    var o := OptionCells(row, OptionKeys);
    PresentSkipsSecond(o);
    assert WellFormed(row);
    SyncRowFields(row, selectedCourse, parseInt);
  }

  lemma SyncRowFields(row: Row, selectedCourse: Id, parseInt: string -> Option<int>)
    requires WellFormed(row)
    ensures var r := SyncRow(row, selectedCourse, parseInt);
      && r.Ok?
      && r.value.options == Present(OptionCells(row, OptionKeys))
      && r.value.correctOptionIndex == CorrectIndex(row)
  {
  }

  lemma PresentSkipsSecond(o: seq<Option<string>>)
    requires |o| == 4 && o[0].Some? && o[1].None? && o[2].Some? && o[3].Some?
    ensures Present(o) == [o[0].value, o[2].value, o[3].value]
  {
    assert Compact(o[3..]) == [o[3].value] by {
      assert o[3..][1..] == [];
    }
    assert Compact(o[2..]) == [o[2].value, o[3].value] by {
      assert o[2..][1..] == o[3..];
    }
    assert Compact(o[1..]) == [o[2].value, o[3].value] by {
      assert o[1..][1..] == o[2..];
    }
  }


  // ------------------------------------------------------------ the whole sheet

  /** The questions written for the accepted rows, in row order (the
      functional reading of the loop). */
  function Accepted(outcomes: seq<Outcome<NewQuestion>>): (r: seq<NewQuestion>)
    ensures |r| <= |outcomes|
  {
    if |outcomes| == 0 then []
    else
      var last := outcomes[|outcomes| - 1];
      Accepted(outcomes[..|outcomes| - 1]) + (if last.Ok? then [last.value] else [])
  }

  /** The refused rows, each with its 1-based row number, in row order. */
  function Errors(outcomes: seq<Outcome<NewQuestion>>): (r: seq<Failure>)
    ensures |r| <= |outcomes|
  {
    if |outcomes| == 0 then []
    else
      var last := outcomes[|outcomes| - 1];
      Errors(outcomes[..|outcomes| - 1]) + (if last.Err? then [Failure(|outcomes|, last.error)] else [])
  }

  /** The results panel; each failure is shown as its `Message`. */
  datatype Tally = Tally(success: nat, failed: nat, errors: seq<Failure>)

  /** An import's results panel, the questions queued in the batch, and
      whether the batch is committed. */
  datatype Import = Import(tally: Tally, batch: seq<NewQuestion>, commit: bool)

  /** The import loop: every row counted once, as a success or as a
      failure with its message; the batch is committed only if some row
      succeeded. */
  method ImportRows(outcomes: seq<Outcome<NewQuestion>>) returns (t: Tally, batch: seq<NewQuestion>, commit: bool)
    ensures t.success + t.failed == |outcomes|
    ensures |t.errors| == t.failed && |batch| == t.success
    ensures batch == Accepted(outcomes) && t.errors == Errors(outcomes)
    ensures commit <==> t.success > 0
    ensures commit <==> exists i :: 0 <= i < |outcomes| && outcomes[i].Ok?
    ensures !commit ==> batch == []
  {
    t := Tally(0, 0, []);
    batch := [];
    var i := 0;
    while i < |outcomes|
      invariant 0 <= i <= |outcomes|
      invariant t.success + t.failed == i
      invariant batch == Accepted(outcomes[..i]) && |batch| == t.success
      invariant t.errors == Errors(outcomes[..i]) && |t.errors| == t.failed
      invariant t.success > 0 <==> exists j :: 0 <= j < i && outcomes[j].Ok?
    {
      var done := outcomes[..i + 1];
      assert done[..i] == outcomes[..i] && done[i] == outcomes[i];
      match outcomes[i] {
        case Ok(q) =>
          assert Errors(done) == Errors(outcomes[..i]);
          batch := batch + [q];
          t := t.(success := t.success + 1);
        case Err(e) =>
          var m := Failure(i + 1, e);
          assert Errors(done) == Errors(outcomes[..i]) + [m];
          t := t.(failed := t.failed + 1, errors := t.errors + [m]);
      }
      i := i + 1;
    }
    assert outcomes[..i] == outcomes;
    commit := t.success > 0;
  }

  /** The verdicts of the spreadsheet upload's rows, in row order. */
  function AdvancedOutcomes(rows: seq<Row>, courses: seq<Course>, selectedCourse: Id,
                            images: seq<(string, string)>, parseInt: string -> Option<int>): (r: seq<Outcome<NewQuestion>>)
    ensures |r| == |rows|
    ensures forall i :: 0 <= i < |rows| ==> r[i] == AdvancedRow(rows[i], courses, selectedCourse, images, parseInt)
  {
    seq(|rows|, i requires 0 <= i < |rows| => AdvancedRow(rows[i], courses, selectedCourse, images, parseInt))
  }

  /** The verdicts of the sync's rows, in row order. */
  function SyncOutcomes(rows: seq<Row>, selectedCourse: Id, parseInt: string -> Option<int>): (r: seq<Outcome<NewQuestion>>)
    ensures |r| == |rows|
    ensures forall i :: 0 <= i < |rows| ==> r[i] == SyncRow(rows[i], selectedCourse, parseInt)
  {
    seq(|rows|, i requires 0 <= i < |rows| => SyncRow(rows[i], selectedCourse, parseInt))
  }

  /** `handleAdvancedBulkUpload` over parsed rows and uploaded images: the
      batch holds the questions of the accepted rows, the results list the
      refused ones, each row judged by `AdvancedRow`. */
  method AdvancedUpload(rows: seq<Row>, courses: seq<Course>, selectedCourse: Id,
                        files: seq<ImageFile>, parseInt: string -> Option<int>)
    returns (r: Import)
    ensures var outcomes := AdvancedOutcomes(rows, courses, selectedCourse, ImagesMap(files), parseInt);
      && r.batch == Accepted(outcomes) && r.tally.errors == Errors(outcomes)
    ensures r.tally.success + r.tally.failed == |rows|
    ensures |r.tally.errors| == r.tally.failed && |r.batch| == r.tally.success
    ensures forall i :: 0 <= i < |r.batch| ==> Acceptable(r.batch[i]) && r.batch[i].courseId != ""
    ensures r.commit <==> r.tally.success > 0
  {
    var images := ImagesMap(files);
    var outcomes := AdvancedOutcomes(rows, courses, selectedCourse, images, parseInt);
    var t, batch, commit := ImportRows(outcomes);
    var good := (q: NewQuestion) => Acceptable(q) && q.courseId != "";
    AcceptedFromOk(outcomes, good);
    forall i | 0 <= i < |batch| ensures Acceptable(batch[i]) && batch[i].courseId != "" {
      assert good(batch[i]);
    }
    return Import(t, batch, commit);
  }

  /** `handleBulkSync` over parsed rows: nothing at all happens without a
      selected course; otherwise each row is judged by `SyncRow`. */
  method BulkSync(rows: seq<Row>, selectedCourse: Id, parseInt: string -> Option<int>)
    returns (r: Option<Import>)
    ensures r.None? <==> selectedCourse == ""
    ensures r.Some? ==>
      var outcomes := SyncOutcomes(rows, selectedCourse, parseInt);
      && r.value.batch == Accepted(outcomes) && r.value.tally.errors == Errors(outcomes)
      && r.value.tally.success + r.value.tally.failed == |rows|
      && |r.value.tally.errors| == r.value.tally.failed
      && |r.value.batch| == r.value.tally.success
      && (forall i :: 0 <= i < |r.value.batch| ==>
            Acceptable(r.value.batch[i]) && r.value.batch[i].courseId == selectedCourse)
      && (r.value.commit <==> r.value.tally.success > 0)
  {
    if selectedCourse == "" {
      return None;
    }
    var outcomes := SyncOutcomes(rows, selectedCourse, parseInt);
    var t, batch, commit := ImportRows(outcomes);
    var good := (q: NewQuestion) => Acceptable(q) && q.courseId == selectedCourse;
    AcceptedFromOk(outcomes, good);
    forall i | 0 <= i < |batch| ensures Acceptable(batch[i]) && batch[i].courseId == selectedCourse {
      assert good(batch[i]);
    }
    return Some(Import(t, batch, commit));
  }

  /** The batch against the rows: a question is queued exactly when some
      row was accepted with it. */
  lemma {:induction false} AcceptedAreOkRows(outcomes: seq<Outcome<NewQuestion>>)
    ensures forall q :: q in Accepted(outcomes) <==> exists i :: 0 <= i < |outcomes| && outcomes[i] == Ok(q)
    decreases |outcomes|
  {
    if |outcomes| > 0 {
      var n := |outcomes| - 1;
      var init := outcomes[..n];
      AcceptedAreOkRows(init);
      assert forall i :: 0 <= i < n ==> init[i] == outcomes[i];
      assert Accepted(outcomes) == Accepted(init) + (if outcomes[n].Ok? then [outcomes[n].value] else []);
    }
  }

  /** The results against the rows: a failure is listed exactly when the
      row with its number was refused for its reason. */
  lemma {:induction false} ErrorsReportRefusedRows(outcomes: seq<Outcome<NewQuestion>>)
    ensures forall f :: f in Errors(outcomes) <==>
      1 <= f.rowNum <= |outcomes| && outcomes[f.rowNum - 1] == Err(f.error)
    decreases |outcomes|
  {
    if |outcomes| > 0 {
      var n := |outcomes| - 1;
      var init := outcomes[..n];
      ErrorsReportRefusedRows(init);
      assert forall i :: 0 <= i < n ==> init[i] == outcomes[i];
      assert Errors(outcomes) == Errors(init) + (if outcomes[n].Err? then [Failure(n + 1, outcomes[n].error)] else []);
    }
  }

  /** Whatever holds of every accepted row's question holds of the batch. */
  lemma {:induction false} AcceptedFromOk(outcomes: seq<Outcome<NewQuestion>>, p: NewQuestion -> bool)
    requires forall i :: 0 <= i < |outcomes| && outcomes[i].Ok? ==> p(outcomes[i].value)
    ensures forall i :: 0 <= i < |Accepted(outcomes)| ==> p(Accepted(outcomes)[i])
    decreases |outcomes|
  {
    if |outcomes| > 0 {
      var init := outcomes[..|outcomes| - 1];
      assert forall i :: 0 <= i < |init| ==> init[i] == outcomes[i];
      AcceptedFromOk(init, p);
    }
  }

  // ------------------------------------------------------------ bank list

  /** The bank page's list: the questions of the selected course (every
      question when none is selected), in stable question-number order. */
  function BankList(bank: Bank, selectedCourse: Id): (r: seq<Question>)
    ensures forall i :: 0 <= i < |r| ==> r[i] in bank && (selectedCourse == "" || r[i].courseId == selectedCourse)
    ensures forall i :: 0 <= i < |bank| && (selectedCourse == "" || bank[i].courseId == selectedCourse) ==> bank[i] in r
    ensures forall i, j :: 0 <= i < j < |r| ==> NumberKey(r[i]) <= NumberKey(r[j])
    ensures multiset(r) == multiset(Filter(bank, OfCourse(selectedCourse)))
  {
    var kept := Filter(bank, OfCourse(selectedCourse));
    var r := OrderByNumber(kept);
    ReorderedFilter(bank, OfCourse(selectedCourse), r);
    r
  }

  /** The bank list's filter: the selected course, or every question. */
  function OfCourse(selectedCourse: Id): Question -> bool {
    (q: Question) => selectedCourse == "" || q.courseId == selectedCourse
  }

  /** Questions with the same number are listed in their bank order. */
  lemma BankListStable(bank: Bank, selectedCourse: Id, z: Question)
    ensures Sorting.TiedWith(BankList(bank, selectedCourse), ByNumber(), z)
         == Filter(Sorting.TiedWith(bank, ByNumber(), z), OfCourse(selectedCourse))
  {
    OrderByNumberStable(Filter(bank, OfCourse(selectedCourse)), z);
    TiedWithFilter(bank, OfCourse(selectedCourse), ByNumber(), z);
  }
}

=== FILE: clock.dfy ===
/** The countdown display of the attempt page (`formatTime`,
    src/pages/student/Quiz.tsx): whole minutes, a colon, and the seconds
    left over padded to two digits. `Math.floor` rounds toward minus
    infinity while `%` keeps the sign of the dividend, as in JavaScript. */
module Clock {
  import opened Strings

  /** `a / b` rounded toward zero. */
  function TruncQuotient(a: int, b: int): int
    requires b > 0
  {
    if a >= 0 then a / b else -((-a) / b)
  }

  /** JavaScript's `a % b` for a positive divisor: what is left after
      taking out the quotient rounded toward zero, so the remainder takes
      the sign of `a`. */
  function JsRemainder(a: int, b: int): (r: int)
    requires b > 0
    ensures a >= 0 ==> 0 <= r < b
    ensures a < 0 ==> -b < r <= 0
    ensures a == TruncQuotient(a, b) * b + r
  {
    if a >= 0 then a % b
    else
      assert -a == ((-a) / b) * b + (-a) % b;
      -((-a) % b)
  }

  /** `s.padStart(2, '0')`. */
  function PadTwo(s: string): (r: string)
    ensures |s| >= 2 ==> r == s
    ensures |s| < 2 ==> |r| == 2 && r[2 - |s|..] == s
    ensures forall i :: 0 <= i < |r| - |s| ==> r[i] == '0'
  {
    if |s| >= 2 then s else if |s| == 1 then "0" + s else "00"
  }

  /** `formatTime(seconds)`. For a non-negative count the text reads back
      as the same number of seconds: minutes times 60 plus a two-digit
      seconds field below 60. */
  function FormatTime(seconds: int): (r: string)
    ensures seconds >= 0 ==>
      && |r| >= 4
      && r[|r| - 3] == ':'
      && AllDigits(r[..|r| - 3]) && AllDigits(r[|r| - 2..])
      && DigitsValue(r[|r| - 2..]) < 60
      && DigitsValue(r[..|r| - 3]) * 60 + DigitsValue(r[|r| - 2..]) == seconds
    ensures seconds < 0 ==> |r| > 0 && r[0] == '-'
  {
    var m := seconds / 60;  // floor division for a positive divisor
    var s := JsRemainder(seconds, 60);
    var minutes := IntToString(m);
    var secs := PadTwo(IntToString(s));
    var r := minutes + ":" + secs;
    if seconds >= 0 then
      SecondsField(s);
      assert r[..|r| - 3] == minutes;
      assert r[|r| - 2..] == secs;
      r
    else
      r
  }

  /** The padded seconds field of a remainder below 60 is two digits
      worth that remainder. */
  lemma SecondsField(s: int)
    requires 0 <= s < 60
    ensures |PadTwo(IntToString(s))| == 2
    ensures AllDigits(PadTwo(IntToString(s)))
    ensures DigitsValue(PadTwo(IntToString(s))) == s
  {
    var d := NatToString(s);
    if s >= 10 {
      assert NatToString(s / 10) == [DigitChar(s / 10)];
      assert |d| == 2;
    } else {
      var p := "0" + d;
      assert p[..1] == "0";
      assert DigitsValue(p[..1]) == 0;
    }
  }

  /** Two examples of the display: ten minutes, and the last 65 seconds. */
  lemma FormatTimeExamples()
    ensures FormatTime(600) == "10:00"
    ensures FormatTime(65) == "1:05"
  {
    assert NatToString(1) == "1" && NatToString(0) == "0" && NatToString(5) == "5";
    assert NatToString(10) == NatToString(1) + "0";
    assert PadTwo(IntToString(0)) == "00";
    assert PadTwo(IntToString(5)) == "05";
    assert 600 / 60 == 10 && JsRemainder(600, 60) == 0;
    assert 65 / 60 == 1 && JsRemainder(65, 60) == 5;
    assert FormatTime(600) == IntToString(10) + ":" + PadTwo(IntToString(0));
    assert FormatTime(65) == IntToString(1) + ":" + PadTwo(IntToString(5));
  }
}

=== FILE: composition.dfy ===
/** The quiz composition editor (src/pages/admin/Quizzes.tsx): the ordered
    question ids of a quiz, its section headings and its per-question
    point overrides, edited by pure functions. The editor's "add" menu
    remembers an anchor: nothing, the literal strings 'top' or 'bottom',
    a question id (add after it) or a section id (add at that section). */
module Composition {
  import opened Wrappers
  import opened Model
  import Scoring
  import Sorting

  /** The editor's working copy of a quiz's content. */
  datatype Composition = Composition(
    questionIds: seq<Id>,
    sections: seq<Section>,
    questionPoints: map<Id, real>)

  /** Opening the editor on a stored quiz. */
  function FromQuiz(q: Quiz): Composition {
    Composition(q.questionIds, q.sections, q.questionPoints)
  }

  /** `s.indexOf(x)`: the first position of `x`, or -1. */
  function IndexOf(s: seq<Id>, x: Id): (r: int)
    ensures -1 <= r < |s|
    ensures r == -1 <==> x !in s
    ensures r >= 0 ==> s[r] == x && x !in s[..r]
  {
    if |s| == 0 then -1
    else if s[0] == x then 0
    else
      var k := IndexOf(s[1..], x);
      assert s == [s[0]] + s[1..];
      if k == -1 then -1
      else
        assert s[..k + 1] == [s[0]] + s[1..][..k];
        k + 1
  }

  /** `sections.find(s => s.id === id)`. */
  function FindSection(sections: seq<Section>, id: Id): (r: Option<Section>)
    ensures r.None? <==> forall i :: 0 <= i < |sections| ==> sections[i].id != id
    ensures r.Some? ==>
      exists i :: 0 <= i < |sections| && sections[i] == r.value && r.value.id == id
        && forall j :: 0 <= j < i ==> sections[j].id != id
  {
    if |sections| == 0 then None
    else if sections[0].id == id then Some(sections[0])
    else
      var r := FindSection(sections[1..], id);
      assert forall i :: 1 <= i < |sections| ==> sections[i] == sections[1..][i - 1];
      r
  }

  /** `newIds.filter(id => !existing.includes(id))`. */
  function FreshIds(newIds: seq<Id>, existing: seq<Id>): (r: seq<Id>)
    ensures |r| <= |newIds|
    ensures forall x :: x in r <==> x in newIds && x !in existing
  {
    Filter(newIds, (x: Id) => x !in existing)
  }

  /** The anchor names something other than the two ends. */
  predicate NamesItem(anchor: Option<string>) {
    anchor.Some? && anchor.value != "" && anchor.value != "top" && anchor.value != "bottom"
  }

  /** Where `addQuestionsToQuiz` splices the new ids in. */
  function InsertionPoint(c: Composition, anchor: Option<string>): (p: int)
    ensures 0 <= p <= |c.questionIds|
  {
    var ids := c.questionIds;
    if !anchor.Some? || anchor.value == "" || anchor.value == "bottom" then |ids|
    else if anchor.value == "top" then 0
    else
      var qi := IndexOf(ids, anchor.value);
      if qi != -1 then qi + 1
      else match FindSection(c.sections, anchor.value)
        case None => |ids|
        case Some(s) =>
          match s.startQuestionId
          case None => |ids|
          case Some(st) =>
            var si := IndexOf(ids, st);
            if si != -1 then si else |ids|
  }

  /** Every section with the given id now starts at `start`. */
  function Repoint(sections: seq<Section>, id: Id, start: Id): (r: seq<Section>)
    ensures |r| == |sections|
    ensures forall i :: 0 <= i < |r| ==>
      if sections[i].id == id then r[i] == sections[i].(startQuestionId := Some(start))
      else r[i] == sections[i]
  {
    seq(|sections|, i requires 0 <= i < |sections| =>
      if sections[i].id == id then sections[i].(startQuestionId := Some(start)) else sections[i])
  }

  /** `r` is `before` with `block` spliced in at position `p`. */
  predicate IsSplice(r: seq<Id>, before: seq<Id>, block: seq<Id>, p: int) {
    0 <= p <= |before| && r == before[..p] + block + before[p..]
  }

  /** A non-empty batch is spliced in at the insertion point. */
  lemma AddSplicesAt(c: Composition, anchor: Option<string>, newIds: seq<Id>)
    requires |FreshIds(newIds, c.questionIds)| > 0
    ensures IsSplice(AddQuestions(c, anchor, newIds).questionIds, c.questionIds,
                     FreshIds(newIds, c.questionIds), InsertionPoint(c, anchor))
  {
  }

  /** The three parts of a splice, read back. */
  lemma SpliceParts(r: seq<Id>, before: seq<Id>, block: seq<Id>, p: int)
    requires IsSplice(r, before, block, p)
    ensures r[..p] == before[..p]
    ensures r[p..p + |block|] == block
    ensures r[p + |block|..] == before[p..]
  {
    assert r[..p] == (before[..p] + block + before[p..])[..p];
  }

  /** The sections after a non-empty batch whose first id is `first` was
      added: when the anchor names a section that has a start question
      (found or not among the ids), every section with that id now starts
      at `first`. */
  function RepointAnchor(c: Composition, anchor: Option<string>, first: Id): (r: seq<Section>)
    ensures |r| == |c.sections|
  {
    if NamesItem(anchor) then
      match FindSection(c.sections, anchor.value)
      case Some(s) => if s.startQuestionId.Some? then Repoint(c.sections, s.id, first) else c.sections
      case None => c.sections
    else c.sections
  }

  /** `addQuestionsToQuiz(newIds)` with the remembered anchor. */
  function AddQuestions(c: Composition, anchor: Option<string>, newIds: seq<Id>): (r: Composition)
    ensures r.questionPoints == c.questionPoints
    ensures |FreshIds(newIds, c.questionIds)| == 0 ==> r == c
    ensures |r.questionIds| == |c.questionIds| + |FreshIds(newIds, c.questionIds)|
    ensures |r.sections| == |c.sections|
  {
    var u := FreshIds(newIds, c.questionIds);
    if |u| == 0 then c
    else
      var p := InsertionPoint(c, anchor);
      Composition(c.questionIds[..p] + u + c.questionIds[p..], RepointAnchor(c, anchor, u[0]), c.questionPoints)
  }

  /** Whatever the anchor, the fresh ids are spliced in as one block, in
      their given order, with the old ids in order around them; the ids
      afterwards are exactly the old ones and the new ones. */
  lemma AddIsSplice(c: Composition, anchor: Option<string>, newIds: seq<Id>)
    ensures var u := FreshIds(newIds, c.questionIds);
      var r := AddQuestions(c, anchor, newIds).questionIds;
      && IsSplice(r, c.questionIds, u, if |u| == 0 then |c.questionIds| else InsertionPoint(c, anchor))
      && forall x :: x in r <==> x in c.questionIds || x in newIds
  {
    var u := FreshIds(newIds, c.questionIds);
    var r := AddQuestions(c, anchor, newIds).questionIds;
    var p := if |u| == 0 then |c.questionIds| else InsertionPoint(c, anchor);
    assert c.questionIds == c.questionIds[..p] + c.questionIds[p..];
    assert r == c.questionIds[..p] + u + c.questionIds[p..];
  }

  /** No anchor, an empty one or 'bottom': the new ids are appended. */
  lemma AddAtBottom(c: Composition, anchor: Option<string>, newIds: seq<Id>)
    requires anchor.None? || anchor == Some("") || anchor == Some("bottom")
    ensures var u := FreshIds(newIds, c.questionIds);
      AddQuestions(c, anchor, newIds) == c.(questionIds := c.questionIds + u)
  {
  }

  /** 'top': the new ids are prepended. */
  lemma AddAtTop(c: Composition, newIds: seq<Id>)
    ensures var u := FreshIds(newIds, c.questionIds);
      AddQuestions(c, Some("top"), newIds) == c.(questionIds := u + c.questionIds)
  {
  }

  /** A question anchor: the new ids follow the anchor's first occurrence;
      a question id takes precedence over a section with the same id. */
  lemma AddAfterQuestion(c: Composition, a: Id, newIds: seq<Id>)
    requires NamesItem(Some(a)) && a in c.questionIds
    ensures var u := FreshIds(newIds, c.questionIds);
      var k := IndexOf(c.questionIds, a);
      IsSplice(AddQuestions(c, Some(a), newIds).questionIds, c.questionIds, u, k + 1)
  {
    var u := FreshIds(newIds, c.questionIds);
    var k := IndexOf(c.questionIds, a);
    if |u| > 0 {
      AfterQuestionPoint(c, a);
      AddSplicesAt(c, Some(a), newIds);
    } else {
      EmptySplice(c.questionIds, u, k + 1);
    }
  }

  lemma AfterQuestionPoint(c: Composition, a: Id)
    requires NamesItem(Some(a)) && a in c.questionIds
    ensures InsertionPoint(c, Some(a)) == IndexOf(c.questionIds, a) + 1
  {
  }

  lemma EmptySplice(ids: seq<Id>, u: seq<Id>, p: int)
    requires |u| == 0 && 0 <= p <= |ids|
    ensures IsSplice(ids, ids, u, p)
  {
    assert ids == ids[..p] + ids[p..];
  }

  /** A section anchored at a present question: the new ids go right
      before that question's first occurrence and the section now starts
      at the first new id, so its heading still sits right above the
      block; every other section is untouched. */
  lemma AddAtSection(c: Composition, a: Id, newIds: seq<Id>, st: Id)
    requires NamesItem(Some(a)) && a !in c.questionIds
    requires FindSection(c.sections, a).Some?
    requires FindSection(c.sections, a).value.startQuestionId == Some(st)
    requires st in c.questionIds
    requires |FreshIds(newIds, c.questionIds)| > 0
    ensures var u := FreshIds(newIds, c.questionIds);
      var k := IndexOf(c.questionIds, st);
      var r := AddQuestions(c, Some(a), newIds);
      && c.questionIds[k] == st
      && r.questionIds[..k] == c.questionIds[..k]
      && r.questionIds[k..k + |u|] == u
      && r.questionIds[k + |u|..] == c.questionIds[k..]
      && r.sections == Repoint(c.sections, a, r.questionIds[k])
  {
    var u := FreshIds(newIds, c.questionIds);
    var k := IndexOf(c.questionIds, st);
    SectionStartPoint(c, a, st);
    var r := AddQuestions(c, Some(a), newIds);
    AddSplicesAt(c, Some(a), newIds);
    SpliceParts(r.questionIds, c.questionIds, u, k);
    assert r.questionIds[k] == r.questionIds[k..k + |u|][0];
    assert RepointAnchor(c, Some(a), u[0]) == Repoint(c.sections, a, u[0]);
  }

  lemma SectionStartPoint(c: Composition, a: Id, st: Id)
    requires NamesItem(Some(a)) && a !in c.questionIds
    requires FindSection(c.sections, a).Some?
    requires FindSection(c.sections, a).value.startQuestionId == Some(st)
    requires st in c.questionIds
    ensures InsertionPoint(c, Some(a)) == IndexOf(c.questionIds, st)
  {
    assert IndexOf(c.questionIds, a) == -1;
  }

  /** A section whose start question is gone: the ids are appended, and
      the section is still repointed to the first of them. */
  lemma AddAtSectionWithMissingStart(c: Composition, a: Id, newIds: seq<Id>, st: Id)
    requires NamesItem(Some(a)) && a !in c.questionIds
    requires FindSection(c.sections, a).Some?
    requires FindSection(c.sections, a).value.startQuestionId == Some(st)
    requires st !in c.questionIds
    requires |FreshIds(newIds, c.questionIds)| > 0
    ensures var u := FreshIds(newIds, c.questionIds);
      var r := AddQuestions(c, Some(a), newIds);
      && r.questionIds == c.questionIds + u
      && r.sections == Repoint(c.sections, a, u[0])
  {
    var ids := c.questionIds;
    var u := FreshIds(newIds, ids);
    MissingStartAppends(c, a, st);
    SpliceAtEnd(ids, u);
    assert RepointAnchor(c, Some(a), u[0]) == Repoint(c.sections, a, u[0]);
  }

  lemma MissingStartAppends(c: Composition, a: Id, st: Id)
    requires NamesItem(Some(a)) && a !in c.questionIds
    requires FindSection(c.sections, a).Some?
    requires FindSection(c.sections, a).value.startQuestionId == Some(st)
    requires st !in c.questionIds
    ensures InsertionPoint(c, Some(a)) == |c.questionIds|
  {
    assert IndexOf(c.questionIds, a) == -1 && IndexOf(c.questionIds, st) == -1;
  }

  lemma SpliceAtEnd(ids: seq<Id>, u: seq<Id>)
    ensures ids[..|ids|] + u + ids[|ids|..] == ids + u
  {
    assert ids[..|ids|] == ids && ids[|ids|..] == [];
  }

  /** A trailing section (no start question), or an anchor that names
      nothing: the ids are appended and no section changes. */
  lemma AddAtTrailingOrUnknown(c: Composition, a: Id, newIds: seq<Id>)
    requires NamesItem(Some(a)) && a !in c.questionIds
    requires FindSection(c.sections, a).None?
          || FindSection(c.sections, a).value.startQuestionId.None?
    ensures var u := FreshIds(newIds, c.questionIds);
      AddQuestions(c, Some(a), newIds) == c.(questionIds := c.questionIds + u)
  {
    var u := FreshIds(newIds, c.questionIds);
    if |u| > 0 {
      assert IndexOf(c.questionIds, a) == -1;
      assert InsertionPoint(c, Some(a)) == |c.questionIds|;
      SpliceAtEnd(c.questionIds, u);
      assert RepointAnchor(c, Some(a), u[0]) == c.sections;
    }
  }

  /** Adding never introduces a duplicate id when the list and the batch
      have none. */
  lemma AddKeepsIdsDistinct(c: Composition, anchor: Option<string>, newIds: seq<Id>)
    requires NoDuplicates(c.questionIds) && NoDuplicates(newIds)
    ensures NoDuplicates(AddQuestions(c, anchor, newIds).questionIds)
  {
    var u := FreshIds(newIds, c.questionIds);
    FilterKeepsDistinct(newIds, (x: Id) => x !in c.questionIds);
    if |u| > 0 {
      var p := InsertionPoint(c, anchor);
      var ids := c.questionIds;
      var r := AddQuestions(c, anchor, newIds).questionIds;
      assert r == ids[..p] + u + ids[p..];
      forall i, j | 0 <= i < j < |r| ensures r[i] != r[j] {
        if i < p && j >= p + |u| {
          assert r[i] == ids[i] && r[j] == ids[j - |u|];
        } else if i < p && p <= j < p + |u| {
          assert r[i] in ids && r[j] in u;
        } else if p <= i < p + |u| && j >= p + |u| {
          assert r[i] in u && r[j] == ids[j - |u|];
        }
      }
    }
  }

  // ------------------------------------------------------------ random add

  /** The random-add scope: 'all', a chosen course, or (empty choice) the
      quiz's own course. */
  predicate InScope(q: Question, scope: string, quizCourse: Id) {
    scope == "all" || (if scope != "" then q.courseId == scope else q.courseId == quizCourse)
  }

  /** The candidates: bank questions in scope and not yet in the quiz. */
  function Pool(bank: Bank, scope: string, quizCourse: Id, ids: seq<Id>): (r: seq<Question>)
    ensures forall i :: 0 <= i < |r| ==> r[i] in bank && InScope(r[i], scope, quizCourse) && r[i].id !in ids
    ensures forall i :: 0 <= i < |bank| && InScope(bank[i], scope, quizCourse) && bank[i].id !in ids
                        ==> bank[i] in r
  {
    Filter(bank, Candidate(scope, quizCourse, ids))
  }

  /** The pool's filter as a predicate on questions. */
  function Candidate(scope: string, quizCourse: Id, ids: seq<Id>): Question -> bool {
    (q: Question) => InScope(q, scope, quizCourse) && q.id !in ids
  }

  function Min(a: int, b: int): int {
    if a <= b then a else b
  }

  /** `handleAddRandomQuestions`. The random shuffle is a parameter: any
      ordering of the pool. `None` is the "no available questions" alert,
      which leaves the quiz as it was. */
  function AddRandom(c: Composition, anchor: Option<string>, bank: Bank, scope: string,
                     quizCourse: Id, count: nat, shuffled: seq<Question>): (r: Option<Composition>)
    requires multiset(shuffled) == multiset(Pool(bank, scope, quizCourse, c.questionIds))
    ensures r.None? <==> |Pool(bank, scope, quizCourse, c.questionIds)| == 0
  {
    var pool := Pool(bank, scope, quizCourse, c.questionIds);
    assert |shuffled| == |multiset(shuffled)| == |pool|;
    if |pool| == 0 then None
    else
      var selected := shuffled[..Min(count, |pool|)];
      Some(AddQuestions(c, anchor, IdsOf(selected)))
  }

  lemma FreshIdsOfFresh(s: seq<Id>, existing: seq<Id>)
    requires forall i :: 0 <= i < |s| ==> s[i] !in existing
    ensures FreshIds(s, existing) == s
  {
    if |s| > 0 {
      FreshIdsOfFresh(s[1..], existing);
      assert s == [s[0]] + s[1..];
    }
  }

  /** A random add inserts exactly min(count, pool size) ids, each of a
      pool question, keeping the old ids in order around them. */
  lemma RandomAddsPoolIds(c: Composition, anchor: Option<string>, bank: Bank, scope: string,
                          quizCourse: Id, count: nat, shuffled: seq<Question>)
    requires multiset(shuffled) == multiset(Pool(bank, scope, quizCourse, c.questionIds))
    requires |Pool(bank, scope, quizCourse, c.questionIds)| > 0
    ensures var pool := Pool(bank, scope, quizCourse, c.questionIds);
      var r := AddRandom(c, anchor, bank, scope, quizCourse, count, shuffled).value;
      var n := Min(count, |pool|);
      && |r.questionIds| == |c.questionIds| + n
      && exists p, block ::
           IsSplice(r.questionIds, c.questionIds, block, p) && |block| == n
           && (forall i :: 0 <= i < |block| ==> exists q :: q in pool && q.id == block[i])
           && (NoDuplicates(IdsOf(bank)) ==> NoDuplicates(block))
  {
    var pool := Pool(bank, scope, quizCourse, c.questionIds);
    var n := Min(count, |pool|);
    var selected := shuffled[..n];
    var sel := IdsOf(selected);
    forall i | 0 <= i < |sel| ensures sel[i] !in c.questionIds && selected[i] in pool {
      assert selected[i] in multiset(shuffled);
    }
    FreshIdsOfFresh(sel, c.questionIds);
    var r := AddRandom(c, anchor, bank, scope, quizCourse, count, shuffled).value;
    assert r == AddQuestions(c, anchor, sel);
    AddIsSplice(c, anchor, sel);
    var p :| IsSplice(r.questionIds, c.questionIds, sel, p);
    forall i | 0 <= i < |sel| ensures exists q :: q in pool && q.id == sel[i] {
      assert selected[i] in pool && selected[i].id == sel[i];
    }
    assert NoDuplicates(IdsOf(bank)) ==> NoDuplicates(sel) by {
      if NoDuplicates(IdsOf(bank)) {
        PoolDistinct(bank, scope, quizCourse, c.questionIds);
        SelectionDistinct(bank, pool, shuffled, n);
      }
    }
  }

  /** With the store's unique ids, a random add keeps a repeat-free quiz
      free of repeats. */
  lemma RandomAddKeepsIdsDistinct(c: Composition, anchor: Option<string>, bank: Bank, scope: string,
                                  quizCourse: Id, count: nat, shuffled: seq<Question>)
    requires multiset(shuffled) == multiset(Pool(bank, scope, quizCourse, c.questionIds))
    requires NoDuplicates(c.questionIds) && NoDuplicates(IdsOf(bank))
    ensures var r := AddRandom(c, anchor, bank, scope, quizCourse, count, shuffled);
      r.Some? ==> NoDuplicates(r.value.questionIds)
  {
    var pool := Pool(bank, scope, quizCourse, c.questionIds);
    assert |shuffled| == |multiset(shuffled)| == |pool|;
    if |pool| > 0 {
      var n := Min(count, |pool|);
      PoolDistinct(bank, scope, quizCourse, c.questionIds);
      SelectionDistinct(bank, pool, shuffled, n);
      AddKeepsIdsDistinct(c, anchor, IdsOf(shuffled[..n]));
    }
  }

  /** With the store's unique ids, the pool holds no question twice. */
  lemma PoolDistinct(bank: Bank, scope: string, quizCourse: Id, ids: seq<Id>)
    requires NoDuplicates(IdsOf(bank))
    ensures NoDuplicates(Pool(bank, scope, quizCourse, ids))
  {
    assert NoDuplicates(bank) by {
      forall i, j | 0 <= i < j < |bank| ensures bank[i] != bank[j] {
        assert IdsOf(bank)[i] != IdsOf(bank)[j];
      }
    }
    FilterKeepsDistinct(bank, Candidate(scope, quizCourse, ids));
  }

  /** Any ordering of a repeat-free pool of bank questions, cut to a
      prefix, names no question id twice. */
  lemma SelectionDistinct(bank: Bank, pool: seq<Question>, shuffled: seq<Question>, n: nat)
    requires NoDuplicates(IdsOf(bank)) && NoDuplicates(pool)
    requires forall i :: 0 <= i < |pool| ==> pool[i] in bank
    requires multiset(shuffled) == multiset(pool) && n <= |shuffled|
    ensures NoDuplicates(IdsOf(shuffled[..n]))
  {
    DistinctCountsAtMostOne(pool);
    CountsAtMostOneDistinct(shuffled);
    var selected := shuffled[..n];
    var sel := IdsOf(selected);
    forall i, j | 0 <= i < j < |sel| ensures sel[i] != sel[j] {
      assert selected[i] in multiset(pool) && selected[j] in multiset(pool);
      var a :| 0 <= a < |bank| && bank[a] == selected[i];
      var b :| 0 <= b < |bank| && bank[b] == selected[j];
      assert selected[i] != selected[j];
      assert a != b;
      assert IdsOf(bank)[a] != IdsOf(bank)[b];
    }
  }

  // ------------------------------------------------------------ sections

  /** `x || null` on a string read at position `j`. */
  function TruthyAt(ids: seq<Id>, j: int): Option<Id> {
    if 0 <= j < |ids| && ids[j] != "" then Some(ids[j]) else None
  }

  /** The start question `confirmAddSection` gives a new heading. */
  function NewSectionStart(ids: seq<Id>, anchor: Option<string>): Option<Id> {
    if anchor == Some("top") then TruthyAt(ids, 0)
    else if anchor == Some("bottom") then None
    else
      // `indexOf(null)` is -1 as well
      var i := if anchor.Some? then IndexOf(ids, anchor.value) else -1;
      TruthyAt(ids, i + 1)
  }

  /** `confirmAddSection`: an empty title does nothing; otherwise a new,
      unshuffled heading with a fresh id is appended to the sections. */
  function AddSection(c: Composition, title: string, anchor: Option<string>, freshId: Id): (r: Composition)
    ensures title == "" ==> r == c
    ensures title != "" ==>
      && r.questionIds == c.questionIds && r.questionPoints == c.questionPoints
      && |r.sections| == |c.sections| + 1
      && r.sections[..|c.sections|] == c.sections
      && r.sections[|c.sections|].id == freshId
      && r.sections[|c.sections|].title == title
      && !r.sections[|c.sections|].shuffle
      && r.sections[|c.sections|].startQuestionId == NewSectionStart(c.questionIds, anchor)
  {
    if title == "" then c
    else c.(sections := c.sections + [Section(freshId, title, NewSectionStart(c.questionIds, anchor), false)])
  }

  /** Where each anchor puts the new heading: 'top' above the first
      question, 'bottom' at the end, after a question above its successor
      (at the end when it is last), and an anchor that is not a question
      above the first question. */
  lemma NewSectionStarts(ids: seq<Id>, anchor: Option<string>)
    requires forall i :: 0 <= i < |ids| ==> ids[i] != ""
    ensures anchor == Some("top") ==>
      NewSectionStart(ids, anchor) == (if |ids| > 0 then Some(ids[0]) else None)
    ensures anchor == Some("bottom") ==> NewSectionStart(ids, anchor).None?
    ensures NamesItem(anchor) && anchor.value in ids ==>
      var k := IndexOf(ids, anchor.value);
      NewSectionStart(ids, anchor) == (if k + 1 < |ids| then Some(ids[k + 1]) else None)
    ensures anchor != Some("top") && anchor != Some("bottom") && (anchor.None? || anchor.value !in ids) ==>
      NewSectionStart(ids, anchor) == (if |ids| > 0 then Some(ids[0]) else None)
  {
  }

  /** The heading drawn above question `id`: the first section that
      starts there. */
  function HeadingAbove(sections: seq<Section>, id: Id): (r: Option<Section>)
    ensures r.Some? ==>
      exists i :: 0 <= i < |sections| && sections[i] == r.value
        && r.value.startQuestionId == Some(id)
        && forall j :: 0 <= j < i ==> sections[j].startQuestionId != Some(id)
    ensures r.None? <==> forall i :: 0 <= i < |sections| ==> sections[i].startQuestionId != Some(id)
  {
    if |sections| == 0 then None
    else if sections[0].startQuestionId == Some(id) then Some(sections[0])
    else
      var r := HeadingAbove(sections[1..], id);
      assert forall i :: 1 <= i < |sections| ==> sections[i] == sections[1..][i - 1];
      r
  }

  /** The headings drawn after the last question: those without a start. */
  function TrailingSections(sections: seq<Section>): (r: seq<Section>)
    ensures forall i :: 0 <= i < |r| ==> r[i] in sections && r[i].startQuestionId.None?
    ensures forall i :: 0 <= i < |sections| && sections[i].startQuestionId.None? ==> sections[i] in r
    ensures forall x :: multiset(r)[x] == if x.startQuestionId.None? then multiset(sections)[x] else 0
    ensures Subsequence(r, sections)
  {
    var keep := (s: Section) => s.startQuestionId.None?;
    FilterOrder(sections, keep);
    Filter(sections, keep)
  }

  /** A heading added at 'bottom' is drawn last, after every question. */
  lemma BottomSectionIsLast(c: Composition, title: string, freshId: Id)
    requires title != ""
    ensures var t := TrailingSections(AddSection(c, title, Some("bottom"), freshId).sections);
      |t| > 0 && t[|t| - 1] == Section(freshId, title, None, false)
  {
    var s := AddSection(c, title, Some("bottom"), freshId).sections;
    var x := Section(freshId, title, None, false);
    assert s == c.sections + [x];
    FilterAppend(c.sections, x, (s: Section) => s.startQuestionId.None?);
  }

  lemma FilterAppend<T(!new)>(s: seq<T>, x: T, p: T -> bool)
    ensures Filter(s + [x], p) == Filter(s, p) + (if p(x) then [x] else [])
  {
    if |s| > 0 {
      assert (s + [x])[1..] == s[1..] + [x];
      FilterAppend(s[1..], x, p);
    } else {
      assert s + [x] == [x];
    }
  }

  /** A heading anchored after the last question has no start: it is
      drawn after every question, as the last trailing heading. */
  lemma LastAnchorTrails(c: Composition, title: string, freshId: Id)
    requires title != "" && |c.questionIds| > 0 && NoDuplicates(c.questionIds)
    requires NamesItem(Some(c.questionIds[|c.questionIds| - 1]))
    ensures var anchor := Some(c.questionIds[|c.questionIds| - 1]);
      var r := AddSection(c, title, anchor, freshId);
      var t := TrailingSections(r.sections);
      && r.sections[|c.sections|].startQuestionId.None?
      && |t| > 0 && t[|t| - 1] == Section(freshId, title, None, false)
  {
    var ids := c.questionIds;
    var last := |ids| - 1;
    var k := IndexOf(ids, ids[last]);
    assert k == last;
    var r := AddSection(c, title, Some(ids[last]), freshId);
    var x := Section(freshId, title, None, false);
    assert r.sections == c.sections + [x];
    FilterAppend(c.sections, x, (s: Section) => s.startQuestionId.None?);
  }

  /** A heading with a start question is drawn above it unless an earlier
      section already starts there, in which case it is drawn nowhere. */
  lemma NewHeadingShownUnlessClaimed(c: Composition, title: string, anchor: Option<string>, freshId: Id)
    requires title != ""
    requires NewSectionStart(c.questionIds, anchor).Some?
    ensures var st := NewSectionStart(c.questionIds, anchor).value;
      var r := AddSection(c, title, anchor, freshId);
      var x := r.sections[|c.sections|];
      && (HeadingAbove(c.sections, st).None? ==> HeadingAbove(r.sections, st) == Some(x))
      && (HeadingAbove(c.sections, st).Some? ==> HeadingAbove(r.sections, st) == HeadingAbove(c.sections, st))
      && x !in TrailingSections(r.sections)
  {
    var st := NewSectionStart(c.questionIds, anchor).value;
    var r := AddSection(c, title, anchor, freshId);
    var x := r.sections[|c.sections|];
    assert r.sections == c.sections + [x];
    HeadingAboveAppend(c.sections, x, st);
  }

  lemma HeadingAboveAppend(s: seq<Section>, x: Section, id: Id)
    ensures HeadingAbove(s + [x], id)
         == if HeadingAbove(s, id).Some? then HeadingAbove(s, id)
            else if x.startQuestionId == Some(id) then Some(x) else None
  {
    if |s| > 0 {
      assert (s + [x])[1..] == s[1..] + [x];
      HeadingAboveAppend(s[1..], x, id);
    } else {
      assert s + [x] == [x];
    }
  }

  /** The shuffle checkbox of one heading. */
  function SetShuffle(c: Composition, sectionId: Id, shuffle: bool): (r: Composition)
    ensures r.questionIds == c.questionIds && r.questionPoints == c.questionPoints
    ensures |r.sections| == |c.sections|
    ensures forall i :: 0 <= i < |r.sections| ==>
      if c.sections[i].id == sectionId then r.sections[i] == c.sections[i].(shuffle := shuffle)
      else r.sections[i] == c.sections[i]
  {
    c.(sections := seq(|c.sections|, i requires 0 <= i < |c.sections| =>
      if c.sections[i].id == sectionId then c.sections[i].(shuffle := shuffle) else c.sections[i]))
  }

  /** Deleting a heading (every section with that id); questions stay. */
  function RemoveSection(c: Composition, sectionId: Id): (r: Composition)
    ensures r.questionIds == c.questionIds && r.questionPoints == c.questionPoints
    ensures forall i :: 0 <= i < |r.sections| ==> r.sections[i].id != sectionId && r.sections[i] in c.sections
    ensures forall i :: 0 <= i < |c.sections| && c.sections[i].id != sectionId ==> c.sections[i] in r.sections
    ensures forall x :: multiset(r.sections)[x] == if x.id != sectionId then multiset(c.sections)[x] else 0
    ensures Subsequence(r.sections, c.sections)
  {
    var keep := (s: Section) => s.id != sectionId;
    FilterOrder(c.sections, keep);
    c.(sections := Filter(c.sections, keep))
  }

  /** After deleting a heading no question is headed by it, and every
      question whose heading was another one keeps that heading; the
      trailing headings lose only the deleted one. */
  lemma RemoveSectionHeadings(c: Composition, sectionId: Id, q: Id)
    ensures var r := RemoveSection(c, sectionId);
      && (HeadingAbove(r.sections, q).Some? ==> HeadingAbove(r.sections, q).value.id != sectionId)
      && (HeadingAbove(c.sections, q).Some? && HeadingAbove(c.sections, q).value.id != sectionId
          ==> HeadingAbove(r.sections, q) == HeadingAbove(c.sections, q))
      && (forall x :: x in TrailingSections(r.sections) <==> x in TrailingSections(c.sections) && x.id != sectionId)
  {
    var h := HeadingAbove(c.sections, q);
    if h.Some? && h.value.id != sectionId {
      HeadingAboveFilter(c.sections, sectionId, q);
    }
  }

  lemma {:induction false} HeadingAboveFilter(sections: seq<Section>, sectionId: Id, q: Id)
    requires HeadingAbove(sections, q).Some? && HeadingAbove(sections, q).value.id != sectionId
    ensures HeadingAbove(Filter(sections, (s: Section) => s.id != sectionId), q) == HeadingAbove(sections, q)
    decreases |sections|
  {
    var keep := (s: Section) => s.id != sectionId;
    FilterCons(sections, keep);
    if sections[0].startQuestionId != Some(q) {
      HeadingAboveFilter(sections[1..], sectionId, q);
      var kept := Filter(sections[1..], keep);
      if keep(sections[0]) {
        assert ([sections[0]] + kept)[1..] == kept;
      }
    }
  }

  // ------------------------------------------------------------ questions and marks

  /** Deleting a question from the quiz: every occurrence of its id and its
      point override go; headings are left as they are, so one that
      started at it no longer matches any question. */
  function RemoveQuestion(c: Composition, id: Id): (r: Composition)
    ensures id !in r.questionIds && id !in r.questionPoints
    ensures forall i :: 0 <= i < |c.questionIds| && c.questionIds[i] != id ==> c.questionIds[i] in r.questionIds
    ensures forall x :: x in r.questionIds ==> x in c.questionIds
    ensures forall k :: k in r.questionPoints <==> k in c.questionPoints && k != id
    ensures forall k :: k in r.questionPoints ==> r.questionPoints[k] == c.questionPoints[k]
    ensures r.sections == c.sections
    ensures multiset(r.questionIds) == multiset(c.questionIds)[id := 0]
    ensures Subsequence(r.questionIds, c.questionIds)
  {
    var keep := (x: Id) => x != id;
    var ids := Filter(c.questionIds, keep);
    FilterOrder(c.questionIds, keep);
    assert multiset(ids) == multiset(c.questionIds)[id := 0] by {
      forall x ensures multiset(ids)[x] == multiset(c.questionIds)[id := 0][x] { }
    }
    Composition(ids, c.sections, c.questionPoints - {id})
  }

  /** The points box of a question: a number that does not parse (NaN)
      is stored as 0. `parsed` is what `parseFloat` made of the input. */
  function SetPoints(c: Composition, id: Id, parsed: Option<real>): (r: Composition)
    ensures r.questionIds == c.questionIds && r.sections == c.sections
    ensures id in r.questionPoints && r.questionPoints[id] == (if parsed.Some? then parsed.value else 0.0)
    ensures forall k :: k != id ==> (k in r.questionPoints <==> k in c.questionPoints)
    ensures forall k :: k != id && k in c.questionPoints ==> r.questionPoints[k] == c.questionPoints[k]
  {
    c.(questionPoints := c.questionPoints[id := parsed.GetOr(0.0)])
  }

  /** The marks one listed id counts for in the editor: its override, else
      the bank question's points, else 0 for an id the bank lacks. */
  function Mark(points: map<Id, real>, bank: Bank, id: Id): (r: real)
    ensures Find(bank, id).Some? ==> r == Scoring.EffectivePoints(points, Find(bank, id).value)
    ensures Find(bank, id).None? ==> r == (if id in points then points[id] else 0.0)
  {
    if id in points then points[id]
    else match Find(bank, id)
      case Some(q) => q.points
      case None => 0.0
  }

  /** "Total of marks": the marks summed over the listed ids. */
  function TotalMarks(ids: seq<Id>, points: map<Id, real>, bank: Bank): real {
    if |ids| == 0 then 0.0 else Mark(points, bank, ids[0]) + TotalMarks(ids[1..], points, bank)
  }

  /** For a quiz whose ids all resolve, the editor's total of marks is the
      `totalPoints` its attempts record. */
  lemma {:induction false} TotalMarksIsAttemptTotal(ids: seq<Id>, points: map<Id, real>, bank: Bank)
    requires AllResolve(ids, bank)
    ensures TotalMarks(ids, points, bank) == Scoring.Total(points, OrderByNumber(Resolve(ids, bank)))
  {
    TotalMarksIsTotal(ids, points, bank);
    Scoring.TotalOfOrderByNumber(points, Resolve(ids, bank));
  }

  lemma {:induction false} TotalMarksIsTotal(ids: seq<Id>, points: map<Id, real>, bank: Bank)
    requires AllResolve(ids, bank)
    ensures TotalMarks(ids, points, bank) == Scoring.Total(points, Resolve(ids, bank))
    decreases |ids|
  {
    if |ids| > 0 {
      assert AllResolve(ids[1..], bank) by {
        forall i | 0 <= i < |ids[1..]| ensures Find(bank, ids[1..][i]).Some? {
          assert ids[1..][i] == ids[i + 1];
        }
      }
      TotalMarksIsTotal(ids[1..], points, bank);
      assert Resolve(ids, bank)[1..] == Resolve(ids[1..], bank);
    }
  }

  /** An id the bank lacks and that has no override adds nothing to the
      total of marks, wherever it stands in the list. */
  lemma {:induction false} UnresolvedMarksNothing(ids: seq<Id>, points: map<Id, real>, bank: Bank, x: Id, k: nat)
    requires x !in points && Find(bank, x).None? && k <= |ids|
    ensures TotalMarks(ids[..k] + [x] + ids[k..], points, bank) == TotalMarks(ids, points, bank)
    decreases k
  {
    if k == 0 {
      assert ([] + [x] + ids)[1..] == ids;
      assert ids[..0] + [x] + ids[0..] == [] + [x] + ids;
    } else {
      var s := ids[..k] + [x] + ids[k..];
      UnresolvedMarksNothing(ids[1..], points, bank, x, k - 1);
      assert s[1..] == ids[1..][..k - 1] + [x] + ids[1..][k - 1..];
      assert s[0] == ids[0];
    }
  }

  /** Removing a question from a list without repeats takes exactly its
      marks out of the total; every other question keeps its marks. */
  lemma {:induction false} RemoveQuestionTotal(ids: seq<Id>, points: map<Id, real>, bank: Bank, id: Id)
    requires NoDuplicates(ids)
    ensures TotalMarks(Filter(ids, (x: Id) => x != id), points - {id}, bank)
         == TotalMarks(ids, points, bank) - (if id in ids then Mark(points, bank, id) else 0.0)
    decreases |ids|
  {
    if |ids| > 0 {
      var keep := (x: Id) => x != id;
      var pts := points - {id};
      var kept := Filter(ids[1..], keep);
      DistinctTail(ids);
      RemoveQuestionTotal(ids[1..], points, bank, id);
      FilterCons(ids, keep);
      if ids[0] != id {
        assert ([ids[0]] + kept)[1..] == kept;
        assert Mark(pts, bank, ids[0]) == Mark(points, bank, ids[0]);
        assert id in ids <==> id in ids[1..];
      }
    }
  }

  /** Editing one question's points in a list without repeats changes the
      total by the change of its marks. */
  lemma {:induction false} SetPointsTotal(ids: seq<Id>, points: map<Id, real>, bank: Bank, id: Id, v: real)
    requires NoDuplicates(ids)
    ensures TotalMarks(ids, points[id := v], bank)
         == TotalMarks(ids, points, bank) + (if id in ids then v - Mark(points, bank, id) else 0.0)
    decreases |ids|
  {
    if |ids| > 0 {
      DistinctTail(ids);
      SetPointsTotal(ids[1..], points, bank, id, v);
      if ids[0] != id {
        assert Mark(points[id := v], bank, ids[0]) == Mark(points, bank, ids[0]);
        assert id in ids <==> id in ids[1..];
      }
    }
  }

  // ------------------------------------------------------------ bank list

  /** The bank panel's course filter: 'all', a chosen course, or (empty
      choice) the course selected for the quiz. */
  predicate InBankFilter(q: Question, filter: string, selectedCourse: Id) {
    filter == "all" || (if filter != "" then q.courseId == filter else q.courseId == selectedCourse)
  }

  /** The panel's filter as a predicate on questions. */
  function InBank(filter: string, selectedCourse: Id): Question -> bool {
    (q: Question) => InBankFilter(q, filter, selectedCourse)
  }

  /** `filteredQuestions`: the bank questions passing the filter, in
      stable question-number order. */
  function FilteredQuestions(bank: Bank, filter: string, selectedCourse: Id): (r: seq<Question>)
    ensures forall i :: 0 <= i < |r| ==> r[i] in bank && InBankFilter(r[i], filter, selectedCourse)
    ensures forall i :: 0 <= i < |bank| && InBankFilter(bank[i], filter, selectedCourse) ==> bank[i] in r
    ensures forall i, j :: 0 <= i < j < |r| ==> NumberKey(r[i]) <= NumberKey(r[j])
    ensures multiset(r) == multiset(Filter(bank, InBank(filter, selectedCourse)))
  {
    var kept := Filter(bank, InBank(filter, selectedCourse));
    var r := OrderByNumber(kept);
    ReorderedFilter(bank, InBank(filter, selectedCourse), r);
    r
  }

  /** Questions with the same number are listed in their bank order: the
      list's questions tied with `z` are the bank's, filtered. */
  lemma FilteredQuestionsStable(bank: Bank, filter: string, selectedCourse: Id, z: Question)
    ensures Sorting.TiedWith(FilteredQuestions(bank, filter, selectedCourse), ByNumber(), z)
         == Filter(Sorting.TiedWith(bank, ByNumber(), z), InBank(filter, selectedCourse))
  {
    OrderByNumberStable(Filter(bank, InBank(filter, selectedCourse)), z);
    TiedWithFilter(bank, InBank(filter, selectedCourse), ByNumber(), z);
  }
}

=== FILE: model.dfy ===
/** The records the pages share (src/types.ts), as immutable datatypes.
    Optional properties (`?:`) and `| null` values become `Option`s; an
    absent `questionPoints` map is the empty map and an absent `sections`
    list is the empty list, which is how every reader treats them. Points
    may be fractional, so they are `real`. */
module Model {
  import opened Wrappers
  import Sorting

  /** A document identity in the store. */
  type Id = string

  datatype Role = Admin | Student

  datatype UserProfile = UserProfile(
    uid: Id,
    email: string,
    displayName: string,
    role: Role,
    courseIds: seq<Id>,
    createdAt: int)

  datatype Course = Course(
    id: Id,
    name: string,
    shortCode: string,
    description: string,
    adminId: Id,
    createdAt: int)

  /** A bank question: `options` in display order, `correctOptionIndex`
      into them and a numeric weight `points`. */
  datatype Question = Question(
    id: Id,
    courseId: Id,
    text: string,
    marathiText: Option<string>,
    options: seq<string>,
    marathiOptions: Option<seq<string>>,
    correctOptionIndex: int,
    points: real,
    imageUrl: Option<string>,
    questionNumber: Option<int>,
    createdAt: int)

  /** A section heading of a quiz. `startQuestionId` names the question the
      heading sits above; `None` makes it a trailing heading shown after
      every question. */
  datatype Section = Section(
    id: Id,
    title: string,
    startQuestionId: Option<Id>,
    shuffle: bool)

  /** The four independent switches of the post-attempt review. */
  datatype ReviewOptions = ReviewOptions(
    showMarks: bool,
    showWhetherCorrect: bool,
    showRightAnswer: bool,
    showFeedback: bool)

  datatype Quiz = Quiz(
    id: Id,
    courseId: Id,
    title: string,
    description: string,
    questionIds: seq<Id>,
    questionPoints: map<Id, real>,
    sections: seq<Section>,
    durationMinutes: int,
    maxGrade: Option<real>,
    reviewOptions: Option<ReviewOptions>,
    createdAt: int)

  /** A submitted attempt: `answers[i]` is the option picked for the i-th
      question of the attempt's order (-1 when none was picked). The
      store-assigned document identity is not part of the model. */
  datatype QuizAttempt = QuizAttempt(
    quizId: Id,
    studentId: Id,
    answers: seq<int>,
    score: real,
    totalPoints: real,
    startedAt: int,
    completedAt: int)

  /** A snapshot of the question collection, in store order. */
  type Bank = seq<Question>

  /** `bank.find(q => q.id === id)`: the first question with that id. */
  function Find(bank: Bank, id: Id): (r: Option<Question>)
    ensures r.None? <==> forall i :: 0 <= i < |bank| ==> bank[i].id != id
    ensures r.Some? ==> exists i :: 0 <= i < |bank| && bank[i] == r.value
                           && r.value.id == id
                           && forall j :: 0 <= j < i ==> bank[j].id != id
  {
    if |bank| == 0 then None
    else if bank[0].id == id then Some(bank[0])
    else
      var r := Find(bank[1..], id);
      assert forall i :: 1 <= i < |bank| ==> bank[i] == bank[1..][i - 1];
      r
  }

  /** Every id of `ids` names a question of `bank`. */
  predicate AllResolve(ids: seq<Id>, bank: Bank) {
    forall i :: 0 <= i < |ids| ==> Find(bank, ids[i]).Some?
  }

  /** Fetching every referenced document, in reference order (one entry
      per id, duplicates included). */
  function Resolve(ids: seq<Id>, bank: Bank): (r: seq<Question>)
    requires AllResolve(ids, bank)
    ensures |r| == |ids|
    ensures forall i :: 0 <= i < |ids| ==> r[i].id == ids[i] && r[i] in bank
  {
    seq(|ids|, i requires 0 <= i < |ids| => Find(bank, ids[i]).value)
  }

  /** The sort key `q.questionNumber || 0`. */
  function NumberKey(q: Question): int {
    q.questionNumber.GetOr(0)
  }

  /** The comparator `(a, b) => (a.questionNumber || 0) - (b.questionNumber || 0)`,
      read as "a sorts no later than b". */
  function ByNumber(): (Question, Question) -> bool {
    (a: Question, b: Question) => NumberKey(a) <= NumberKey(b)
  }

  lemma ByNumberIsPreorder()
    ensures Sorting.TotalPreorder(ByNumber())
  {
  }

  /** The question order every page uses: stable, ascending by number,
      a missing number counting as 0. */
  function OrderByNumber(qs: seq<Question>): (r: seq<Question>)
    ensures |r| == |qs| && multiset(r) == multiset(qs)
    ensures forall i, j :: 0 <= i < j < |r| ==> NumberKey(r[i]) <= NumberKey(r[j])
  {
    ByNumberIsPreorder();
    Sorting.SortSorted(qs, ByNumber());
    Sorting.Sort(qs, ByNumber())
  }

  /** Questions with equal numbers keep their relative input order. */
  lemma OrderByNumberStable(qs: seq<Question>, z: Question)
    ensures Sorting.TiedWith(OrderByNumber(qs), ByNumber(), z) == Sorting.TiedWith(qs, ByNumber(), z)
  {
    ByNumberIsPreorder();
    Sorting.SortStable(qs, ByNumber(), z);
  }

  /** `r` can be obtained from `s` by deleting elements: `r`'s elements
      occur in `s` in the same order. */
  predicate Subsequence<T(==)>(r: seq<T>, s: seq<T>)
    decreases |s|
  {
    |r| == 0 || (|s| > 0 && ((r[0] == s[0] && Subsequence(r[1..], s[1..])) || Subsequence(r, s[1..])))
  }

  /** `s.filter(p)`: the elements satisfying `p`, in their order, each as
      often as it occurs in `s`. */
  function Filter<T(==)>(s: seq<T>, p: T -> bool): (r: seq<T>)
    ensures |r| <= |s|
    ensures forall i :: 0 <= i < |r| ==> p(r[i]) && r[i] in s
    ensures forall i :: 0 <= i < |s| && p(s[i]) ==> s[i] in r
  {
    if |s| == 0 then []
    else
      var rest := Filter(s[1..], p);
      if p(s[0]) then [s[0]] + rest else rest
  }

  /** The filter keeps the order of `s` and each kept element as often
      as it occurs there. */
  lemma {:induction false} FilterOrder<T(!new)>(s: seq<T>, p: T -> bool)
    ensures forall x :: multiset(Filter(s, p))[x] == if p(x) then multiset(s)[x] else 0
    ensures Subsequence(Filter(s, p), s)
    decreases |s|
  {
    if |s| > 0 {
      FilterOrder(s[1..], p);
      assert s == [s[0]] + s[1..];
      var rest := Filter(s[1..], p);
      if p(s[0]) {
        assert ([s[0]] + rest)[1..] == rest;
      }
    }
  }

  /** One step of the filter. */
  lemma FilterCons<T(!new)>(s: seq<T>, p: T -> bool)
    requires |s| > 0
    ensures Filter(s, p) == if p(s[0]) then [s[0]] + Filter(s[1..], p) else Filter(s[1..], p)
  {
  }

  /** Filtering and then taking the elements tied with `z` gives the
      tied elements of `s` that pass the filter, in their order in `s`. */
  lemma {:induction false} TiedWithFilter<T(!new)>(s: seq<T>, p: T -> bool, le: (T, T) -> bool, z: T)
    ensures Sorting.TiedWith(Filter(s, p), le, z) == Filter(Sorting.TiedWith(s, le, z), p)
    decreases |s|
  {
    if |s| > 0 {
      TiedWithFilter(s[1..], p, le, z);
      var rest := Filter(s[1..], p);
      var tied := Sorting.TiedWith(s[1..], le, z);
      FilterCons(s, p);
      if p(s[0]) {
        assert ([s[0]] + rest)[1..] == rest;
      }
      if Sorting.Tied(le, z, s[0]) {
        assert ([s[0]] + tied)[1..] == tied;
        FilterCons([s[0]] + tied, p);
      } else {
        assert Sorting.TiedWith(s, le, z) == [] + tied;
        assert [] + tied == tied;
      }
    }
  }

  /** A reordering of `s.filter(p)` holds exactly the elements of `s`
      that satisfy `p`. */
  lemma ReorderedFilter<T(!new)>(s: seq<T>, p: T -> bool, r: seq<T>)
    requires multiset(r) == multiset(Filter(s, p))
    ensures forall i :: 0 <= i < |r| ==> p(r[i]) && r[i] in s
    ensures forall i :: 0 <= i < |s| && p(s[i]) ==> s[i] in r
  {
    var kept := Filter(s, p);
    forall i | 0 <= i < |r| ensures r[i] in kept {
      assert r[i] in multiset(r);
    }
    forall i | 0 <= i < |s| && p(s[i]) ensures s[i] in r {
      assert s[i] in multiset(kept);
    }
  }

  /** The ids of a list of questions, position by position. */
  function IdsOf(qs: seq<Question>): (r: seq<Id>)
    ensures |r| == |qs| && forall i :: 0 <= i < |qs| ==> r[i] == qs[i].id
  {
    seq(|qs|, i requires 0 <= i < |qs| => qs[i].id)
  }

  /** No value occurs twice. */
  predicate NoDuplicates<T(==)>(s: seq<T>) {
    forall i, j :: 0 <= i < j < |s| ==> s[i] != s[j]
  }

  /** The tail of a list without repeats has none, and lacks the head. */
  lemma DistinctTail<T>(s: seq<T>)
    requires NoDuplicates(s) && |s| > 0
    ensures NoDuplicates(s[1..]) && s[0] !in s[1..]
  {
    forall i, j | 0 <= i < j < |s[1..]| ensures s[1..][i] != s[1..][j] {
      assert s[1..][i] == s[i + 1] && s[1..][j] == s[j + 1];
    }
    forall m | 0 <= m < |s[1..]| ensures s[1..][m] != s[0] {
      assert s[1..][m] == s[m + 1];
    }
  }

  /** Filtering a list without repeats leaves none. */
  /** Without repeats, every value occurs at most once. */
  lemma {:induction false} DistinctCountsAtMostOne<T(!new)>(s: seq<T>)
    requires NoDuplicates(s)
    ensures forall x :: multiset(s)[x] <= 1
    decreases |s|
  {
    if |s| > 0 {
      DistinctTail(s);
      DistinctCountsAtMostOne(s[1..]);
      assert s == [s[0]] + s[1..];
      assert multiset(s) == multiset{s[0]} + multiset(s[1..]);
    }
  }

  /** A value that occurs at most once occurs at one position. */
  lemma CountsAtMostOneDistinct<T(!new)>(s: seq<T>)
    requires forall x :: multiset(s)[x] <= 1
    ensures NoDuplicates(s)
  {
    forall i, j | 0 <= i < j < |s| ensures s[i] != s[j] {
      assert s == s[..i] + [s[i]] + s[i + 1..j] + [s[j]] + s[j + 1..];
      assert multiset(s) == multiset(s[..i]) + multiset{s[i]} + multiset(s[i + 1..j])
                            + multiset{s[j]} + multiset(s[j + 1..]);
      assert multiset(s)[s[i]] >= multiset{s[i]}[s[i]] + multiset{s[j]}[s[i]];
    }
  }

  lemma {:induction false} FilterKeepsDistinct<T(!new)>(s: seq<T>, p: T -> bool)
    requires NoDuplicates(s)
    ensures NoDuplicates(Filter(s, p))
  {
    if |s| > 0 {
      DistinctTail(s);
      FilterKeepsDistinct(s[1..], p);
      var t := Filter(s[1..], p);
      if p(s[0]) {
        assert Filter(s, p) == [s[0]] + t;
      } else {
        assert Filter(s, p) == t;
      }
    }
  }
}

=== FILE: review.dfy ===
/** The student's results page (src/pages/student/Results.tsx): the
    history table with its percentage and pass/review status, the average
    proficiency card, and the per-question review of one attempt, whose
    disclosure is governed by the quiz's review options. */
module Review {
  import opened Wrappers
  import opened Model
  import Scoring
  import Sorting
  import AttemptEngine

  // ------------------------------------------------------------ rounding

  /** `Math.round`: the nearest integer, halves rounding up. */
  function Round(x: real): (n: int)
    ensures n as real - 0.5 <= x < n as real + 0.5
  {
    (x + 0.5).Floor
  }

  /** Rounding is monotone. */
  lemma RoundMonotone(x: real, y: real)
    requires x <= y
    ensures Round(x) <= Round(y)
  {
  }

  // ------------------------------------------------------------ JavaScript numbers

  /** A JavaScript number as far as these pages need one: finite, or one of
      the special values a division by zero gives. */
  datatype Num = Finite(x: real) | PosInfinity | NegInfinity | NaN

  /** `a / b`: a zero divisor gives an infinity of the dividend's sign, or
      NaN for a zero dividend (a negative zero is not modelled). */
  function Quotient(a: real, b: real): (q: Num)
    ensures q.Finite? <==> b != 0.0
    ensures q.Finite? ==> q.x * b == a
    ensures b == 0.0 ==> (q == PosInfinity <==> a > 0.0) && (q == NegInfinity <==> a < 0.0)
  {
    if b != 0.0 then Finite(a / b)
    else if a > 0.0 then PosInfinity
    else if a < 0.0 then NegInfinity
    else NaN
  }

  /** `a + b`: NaN absorbs, opposite infinities give NaN. */
  function Plus(a: Num, b: Num): (r: Num)
    ensures r.Finite? <==> a.Finite? && b.Finite?
    ensures r.Finite? ==> r.x == a.x + b.x
  {
    match (a, b)
    case (Finite(x), Finite(y)) => Finite(x + y)
    case (NaN, _) => NaN
    case (_, NaN) => NaN
    case (PosInfinity, NegInfinity) => NaN
    case (NegInfinity, PosInfinity) => NaN
    case (PosInfinity, _) => PosInfinity
    case (_, PosInfinity) => PosInfinity
    case (NegInfinity, _) => NegInfinity
    case (_, NegInfinity) => NegInfinity
  }

  /** Multiplication by a positive finite factor keeps the kind. */
  function Times(a: Num, k: real): (r: Num)
    requires k > 0.0
  {
    if a.Finite? then Finite(a.x * k) else a
  }

  /** Division by a positive finite divisor keeps the kind. */
  function Over(a: Num, k: real): (r: Num)
    requires k > 0.0
  {
    if a.Finite? then Finite(a.x / k) else a
  }

  /** What `Math.round` shows: a whole number, or the special value itself. */
  datatype Shown = Whole(n: int) | Infinity | MinusInfinity | NotANumber

  function RoundNum(a: Num): Shown {
    match a
    case Finite(x) => Whole(Round(x))
    case PosInfinity => Infinity
    case NegInfinity => MinusInfinity
    case NaN => NotANumber
  }

  /** `Math.round(score / totalPoints * 100)`: a zero total shows
      "Infinity%", "-Infinity%" or "NaN%" by the sign of the score. */
  function Percentage(score: real, total: real): (p: Shown)
    ensures p.Whole? <==> total != 0.0
    ensures p.Whole? ==> p.n as real - 0.5 <= score / total * 100.0 < p.n as real + 0.5
    ensures total == 0.0 ==>
      && (p == Infinity <==> score > 0.0)
      && (p == MinusInfinity <==> score < 0.0)
      && (p == NotANumber <==> score == 0.0)
  {
    RoundNum(Times(Quotient(score, total), 100.0))
  }

  /** The status badge `percentage >= 70`: PASSED or REVIEW. An infinite
      percentage compares above 70, minus infinity and NaN do not; so an
      attempt passes exactly when its unrounded percentage is at least 69.5
      (the rounding gives away half a percent), or when its total is 0 and
      its score positive, which negative points make possible. */
  function Passed(score: real, total: real): (b: bool)
    ensures b <==> (total != 0.0 && score / total * 100.0 >= 69.5) || (total == 0.0 && score > 0.0)
  {
    match Percentage(score, total)
    case Whole(n) => n >= 70
    case Infinity => true
    case _ => false
  }

  /** Two questions worth 5 and -5 with only the first answered right:
      5 points out of a total of 0, shown as PASSED. */
  lemma ZeroTotalCanPass()
    ensures var qs := [Question("a", "c", "", None, [""], None, 0, 5.0, None, None, 0),
                       Question("b", "c", "", None, [""], None, 0, -5.0, None, None, 0)];
      && Scoring.Total(map[], qs) == 0.0
      && Scoring.Score(map[], qs, [0, -1]) == 5.0
      && Passed(Scoring.Score(map[], qs, [0, -1]), Scoring.Total(map[], qs))
  {
    var qs := [Question("a", "c", "", None, [""], None, 0, 5.0, None, None, 0),
               Question("b", "c", "", None, [""], None, 0, -5.0, None, None, 0)];
    assert qs[1..][1..] == [];
  }

  /** With a positive total and a score within it, the percentage lies in
      0..100, and full marks show as 100. */
  lemma PercentageBounds(score: real, total: real)
    requires 0.0 < total && 0.0 <= score <= total
    ensures Percentage(score, total).Whole?
    ensures 0 <= Percentage(score, total).n <= 100
    ensures score == total ==> Percentage(score, total).n == 100
  {
    assert 0.0 <= score / total <= 1.0;
    RoundMonotone(0.0, score / total * 100.0);
    RoundMonotone(score / total * 100.0, 100.0);
    if score == total {
      assert score / total == 1.0;
    }
  }

  /** Full marks are not needed for 100%: 199 out of 200 is 99.5%, which
      rounds up. */
  lemma NearMissShowsFull()
    ensures Percentage(199.0, 200.0) == Whole(100)
  {
  }

  // ------------------------------------------------------------ history and average

  /** The history comparator `(a, b) => b.completedAt - a.completedAt`,
      read as "a sorts no later than b": newest first. */
  function NewestFirst(): (QuizAttempt, QuizAttempt) -> bool {
    (a: QuizAttempt, b: QuizAttempt) => a.completedAt >= b.completedAt
  }

  lemma NewestFirstIsPreorder()
    ensures Sorting.TotalPreorder(NewestFirst())
  {
  }

  /** The history table's rows: the student's attempts, newest first;
      attempts completed at the same instant keep their fetched order. */
  function History(attempts: seq<QuizAttempt>): (r: seq<QuizAttempt>)
    ensures |r| == |attempts| && multiset(r) == multiset(attempts)
    ensures forall i, j :: 0 <= i < j < |r| ==> r[i].completedAt >= r[j].completedAt
  {
    NewestFirstIsPreorder();
    Sorting.SortSorted(attempts, NewestFirst());
    Sorting.Sort(attempts, NewestFirst())
  }

  lemma HistoryStable(attempts: seq<QuizAttempt>, z: QuizAttempt)
    ensures Sorting.TiedWith(History(attempts), NewestFirst(), z)
         == Sorting.TiedWith(attempts, NewestFirst(), z)
  {
    NewestFirstIsPreorder();
    Sorting.SortStable(attempts, NewestFirst(), z);
  }

  /** Every attempt has a non-zero total. */
  predicate AllTotalsNonZero(attempts: seq<QuizAttempt>) {
    forall i :: 0 <= i < |attempts| ==> attempts[i].totalPoints != 0.0
  }

  /** The sum of the per-attempt ratios score / totalPoints, in exact
      arithmetic, taken from the front. */
  function SumRatios(attempts: seq<QuizAttempt>): real
    requires AllTotalsNonZero(attempts)
  {
    if |attempts| == 0 then 0.0
    else attempts[0].score / attempts[0].totalPoints + SumRatios(attempts[1..])
  }

  /** Taking the sum from the back gives the same value. */
  lemma {:induction false} SumRatiosSnoc(attempts: seq<QuizAttempt>)
    requires |attempts| > 0 && AllTotalsNonZero(attempts)
    ensures var n := |attempts| - 1;
      SumRatios(attempts) == SumRatios(attempts[..n]) + attempts[n].score / attempts[n].totalPoints
    decreases |attempts|
  {
    var n := |attempts| - 1;
    if n > 0 {
      var tail := attempts[1..];
      SumRatiosSnoc(tail);
      assert tail[..n - 1] == attempts[..n][1..];
    }
  }

  /** `attempts.reduce((acc, a) => acc + a.score / a.totalPoints, 0)`,
      folded from the left; finite exactly when no total is zero, and then
      the sum of the ratios. */
  function RatioSum(attempts: seq<QuizAttempt>): (r: Num)
    ensures r.Finite? <==> AllTotalsNonZero(attempts)
    ensures r.Finite? ==> r.x == SumRatios(attempts)
    decreases |attempts|
  {
    if |attempts| == 0 then Finite(0.0)
    else
      var n := |attempts| - 1;
      assert AllTotalsNonZero(attempts) <==>
        AllTotalsNonZero(attempts[..n]) && attempts[n].totalPoints != 0.0 by {
        assert forall i :: 0 <= i < n ==> attempts[..n][i] == attempts[i];
      }
      assert AllTotalsNonZero(attempts) ==>
        SumRatios(attempts) == SumRatios(attempts[..n]) + attempts[n].score / attempts[n].totalPoints by {
        if AllTotalsNonZero(attempts) { SumRatiosSnoc(attempts); }
      }
      Plus(RatioSum(attempts[..n]), Quotient(attempts[n].score, attempts[n].totalPoints))
  }

  /** The "Average Proficiency" card: 0 with no attempts, otherwise the
      rounded mean of the per-attempt ratios, as a percentage (not the
      ratio of the summed scores); a special value when some total is
      zero. */
  function Average(attempts: seq<QuizAttempt>): (r: Shown)
    ensures |attempts| == 0 ==> r == Whole(0)
    ensures r.Whole? <==> AllTotalsNonZero(attempts)
    ensures |attempts| > 0 && r.Whole? ==>
      r.n as real - 0.5 <= 100.0 * SumRatios(attempts) / |attempts| as real < r.n as real + 0.5
  {
    if |attempts| == 0 then Whole(0)
    else
      var k := |attempts| as real;
      var sum := RatioSum(attempts);
      assert sum.Finite? ==> sum.x / k * 100.0 == 100.0 * SumRatios(attempts) / k;
      RoundNum(Times(Over(sum, k), 100.0))
  }

  /** With one attempt the card shows that attempt's percentage. */
  lemma AverageOfOne(a: QuizAttempt)
    ensures Average([a]) == Percentage(a.score, a.totalPoints)
  {
    var q := Quotient(a.score, a.totalPoints);
    assert [a][..0] == [];
    assert RatioSum([a]) == Plus(Finite(0.0), q);
    assert Plus(Finite(0.0), q) == q;
    assert Over(q, 1.0) == q;
  }

  /** Attempts within their totals. */
  predicate InRange(attempts: seq<QuizAttempt>) {
    forall i :: 0 <= i < |attempts| ==>
      0.0 < attempts[i].totalPoints && 0.0 <= attempts[i].score <= attempts[i].totalPoints
  }

  lemma {:induction false} RatioSumBounds(attempts: seq<QuizAttempt>)
    requires InRange(attempts)
    ensures RatioSum(attempts).Finite?
    ensures 0.0 <= RatioSum(attempts).x <= |attempts| as real
    decreases |attempts|
  {
    if |attempts| > 0 {
      var n := |attempts| - 1;
      var a := attempts[n];
      assert InRange(attempts[..n]) by {
        forall i | 0 <= i < n ensures attempts[..n][i] == attempts[i] { }
      }
      RatioSumBounds(attempts[..n]);
      assert 0.0 <= a.score / a.totalPoints <= 1.0;
    }
  }

  /** When every attempt is within its total the average lies in 0..100. */
  lemma AverageBounds(attempts: seq<QuizAttempt>)
    requires InRange(attempts)
    ensures Average(attempts).Whole?
    ensures 0 <= Average(attempts).n <= 100
  {
    RatioSumBounds(attempts);
    if |attempts| > 0 {
      var n := |attempts| as real;
      var m := RatioSum(attempts).x / n;
      assert 0.0 <= m <= 1.0;
      RoundMonotone(0.0, m * 100.0);
      RoundMonotone(m * 100.0, 100.0);
    }
  }

  // ------------------------------------------------------------ one attempt's review

  /** With no review options stored, everything is disclosed. */
  const DisclosingAll := ReviewOptions(true, true, true, true)

  /** `quiz?.reviewOptions || { every flag true }`. */
  function FlagsOf(quiz: Option<Quiz>): ReviewOptions {
    if quiz.Some? && quiz.value.reviewOptions.Some? then quiz.value.reviewOptions.value else DisclosingAll
  }

  /** `quiz?.questionPoints`, read as no overrides when the quiz is gone. */
  function OverridesOf(quiz: Option<Quiz>): map<Id, real> {
    if quiz.Some? then quiz.value.questionPoints else map[]
  }

  /** How one option is drawn. */
  datatype Look =
    | Plain          // white, no icon
    | PickedRight    // green with a tick: the pick, and right
    | PickedWrong    // red with a cross: the pick, and wrong
    | MissedRight    // dashed green: the right option, not picked
    | PickedNeutral  // highlighted without a verdict

  /** The "x / y PTS" badge. */
  datatype Badge = Badge(earned: real, outOf: real)

  /** The "Correct Answer" box, with the text `q.options[correctOptionIndex]`
      (undefined when the index is outside the options). */
  datatype AnswerBox = NoBox | Box(text: Option<string>)

  datatype QuestionReview = QuestionReview(badge: Option<Badge>, looks: seq<Look>, answerBox: AnswerBox)

  /** How option `optIdx` is drawn: only the pick is drawn as picked; a
      verdict appears only with `showWhetherCorrect` on, and is right; the
      right option is pointed out unpicked only with `showRightAnswer` on
      as well. */
  function LookOf(flags: ReviewOptions, pick: Option<int>, correct: int, optIdx: int): (l: Look)
    ensures l in {PickedRight, PickedWrong, PickedNeutral} <==> pick == Some(optIdx)
    ensures l == PickedRight <==> flags.showWhetherCorrect && pick == Some(optIdx) && optIdx == correct
    ensures l == PickedWrong <==> flags.showWhetherCorrect && pick == Some(optIdx) && optIdx != correct
    ensures l == MissedRight <==>
      flags.showWhetherCorrect && flags.showRightAnswer && pick != Some(optIdx) && optIdx == correct
    ensures l == PickedNeutral <==> !flags.showWhetherCorrect && pick == Some(optIdx)
  {
    var picked := pick == Some(optIdx);
    if flags.showWhetherCorrect then
      if picked then (if optIdx == correct then PickedRight else PickedWrong)
      else if optIdx == correct && flags.showRightAnswer then MissedRight
      else Plain
    else if picked then PickedNeutral
    else Plain
  }

  /** The review card of one question, given the pick stored at its
      position. */
  function ReviewQuestion(flags: ReviewOptions, overrides: map<Id, real>, q: Question, pick: Option<int>): (r: QuestionReview)
    ensures |r.looks| == |q.options|
    ensures r.badge.Some? <==> flags.showMarks
    ensures r.badge.Some? ==>
      && r.badge.value.outOf == Scoring.EffectivePoints(overrides, q)
      && r.badge.value.earned == Scoring.Earned(overrides, q, pick)
    ensures r.answerBox.Box? <==>
      flags.showFeedback && flags.showRightAnswer && pick != Some(q.correctOptionIndex)
  {
    var pts := Scoring.EffectivePoints(overrides, q);
    var isCorrect := pick == Some(q.correctOptionIndex);
    QuestionReview(
      if flags.showMarks then Some(Badge(if isCorrect then pts else 0.0, pts)) else None,
      seq(|q.options|, i => LookOf(flags, pick, q.correctOptionIndex, i)),
      if flags.showFeedback && !isCorrect && flags.showRightAnswer then
        Box(if 0 <= q.correctOptionIndex < |q.options| then Some(q.options[q.correctOptionIndex]) else None)
      else NoBox)
  }

  /** The option colouring of a question card discloses exactly what
      `LookOf` promises, option by option. */
  lemma LooksDisclose(flags: ReviewOptions, overrides: map<Id, real>, q: Question, pick: Option<int>, i: int)
    requires 0 <= i < |q.options|
    ensures var l := ReviewQuestion(flags, overrides, q, pick).looks[i];
      && (l in {PickedRight, PickedWrong, PickedNeutral} <==> pick == Some(i))
      && (l == PickedRight <==> flags.showWhetherCorrect && pick == Some(i) && i == q.correctOptionIndex)
      && (l == PickedWrong <==> flags.showWhetherCorrect && pick == Some(i) && i != q.correctOptionIndex)
      && (l == MissedRight <==>
            flags.showWhetherCorrect && flags.showRightAnswer && pick != Some(i) && i == q.correctOptionIndex)
      && (l == PickedNeutral <==> !flags.showWhetherCorrect && pick == Some(i))
  {
  }

  /** The review of every question fetched for the attempt, position by
      position against the stored answers. */
  function ReviewAttempt(quiz: Option<Quiz>, qs: seq<Question>, answers: seq<int>): (r: seq<QuestionReview>)
    ensures |r| == |qs|
    ensures forall i :: 0 <= i < |qs| ==>
      r[i] == ReviewQuestion(FlagsOf(quiz), OverridesOf(quiz), qs[i], Scoring.PickAt(answers, i))
  {
    seq(|qs|, i requires 0 <= i < |qs| =>
      ReviewQuestion(FlagsOf(quiz), OverridesOf(quiz), qs[i], Scoring.PickAt(answers, i)))
  }

  /** `handleViewDetails`: the attempt's quiz's questions fetched one per
      id and ordered by question number, as the attempt page orders them. */
  function ReviewedQuestions(quiz: Quiz, bank: Bank): (r: seq<Question>)
    requires AllResolve(quiz.questionIds, bank)
    ensures |r| == |quiz.questionIds|
    ensures multiset(r) == multiset(Resolve(quiz.questionIds, bank))
    ensures forall i, j :: 0 <= i < j < |r| ==> NumberKey(r[i]) <= NumberKey(r[j])
  {
    OrderByNumber(Resolve(quiz.questionIds, bank))
  }

  /** With the same question documents, the review lists the questions in
      the order the attempt page showed them, so `answers[i]` is read
      against the question it was given for. */
  lemma SameOrderAsAttempt(e: AttemptEngine.Engine, bank: Bank, at: AttemptEngine.ClockReads)
    requires !e.closed && e.loading && e.quiz.Some?
    requires AllResolve(e.quiz.value.questionIds, bank)
    ensures AttemptEngine.Step(e, AttemptEngine.QuestionsFetched(bank, at)).engine.questions
         == ReviewedQuestions(e.quiz.value, bank)
  {
    var l := AttemptEngine.Load(e, bank);
    var o := AttemptEngine.Step(e, AttemptEngine.QuestionsFetched(bank, at));
    assert o == (if l.closed then AttemptEngine.Outcome(l, None) else AttemptEngine.Settle(l, at));
    assert o.engine.questions == l.questions;
  }

  /** The earned parts of the badges shown, added up. */
  function EarnedShown(rs: seq<QuestionReview>): real {
    if |rs| == 0 then 0.0
    else (if rs[0].badge.Some? then rs[0].badge.value.earned else 0.0) + EarnedShown(rs[1..])
  }

  /** The "out of" parts of the badges shown, added up. */
  function OutOfShown(rs: seq<QuestionReview>): real {
    if |rs| == 0 then 0.0
    else (if rs[0].badge.Some? then rs[0].badge.value.outOf else 0.0) + OutOfShown(rs[1..])
  }

  lemma ReviewAttemptRest(quiz: Option<Quiz>, qs: seq<Question>, answers: seq<int>)
    requires |qs| > 0
    ensures ReviewAttempt(quiz, qs, answers)[1..] == ReviewAttempt(quiz, qs[1..], Scoring.Rest(answers))
  {
    var a := ReviewAttempt(quiz, qs, answers)[1..];
    var b := ReviewAttempt(quiz, qs[1..], Scoring.Rest(answers));
    forall i | 0 <= i < |a| ensures a[i] == b[i] {
      Scoring.PickAtRest(answers, i);
    }
  }

  /** With marks shown, the badges add up to the score and the total that
      the same questions and answers were marked with. */
  lemma {:induction false} BadgesAddUp(quiz: Option<Quiz>, qs: seq<Question>, answers: seq<int>)
    requires FlagsOf(quiz).showMarks
    ensures EarnedShown(ReviewAttempt(quiz, qs, answers)) == Scoring.Score(OverridesOf(quiz), qs, answers)
    ensures OutOfShown(ReviewAttempt(quiz, qs, answers)) == Scoring.Total(OverridesOf(quiz), qs)
    decreases |qs|
  {
    if |qs| > 0 {
      ReviewAttemptRest(quiz, qs, answers);
      BadgesAddUp(quiz, qs[1..], Scoring.Rest(answers));
    }
  }

  /** The attempt page and the results page agree: reviewing a written
      attempt against the same quiz and the same question list, the badges
      add up to the recorded score and total and the header's percentage
      is the recorded one. */
  lemma ReviewMatchesRecord(e: AttemptEngine.Engine, at: AttemptEngine.ClockReads)
    requires AttemptEngine.Submit(e, at).write.Some?
    requires FlagsOf(e.quiz).showMarks
    ensures var w := AttemptEngine.Submit(e, at).write.value;
      var rs := ReviewAttempt(e.quiz, e.questions, w.answers);
      && EarnedShown(rs) == w.score
      && OutOfShown(rs) == w.totalPoints
      && Percentage(EarnedShown(rs), OutOfShown(rs)) == Percentage(w.score, w.totalPoints)
  {
    BadgesAddUp(e.quiz, e.questions, e.answers);
  }
}

=== FILE: routes.dfy ===
/** Route protection (src/App.tsx): what `ProtectedRoute` shows for an
    authentication state and a required role, and where `HomeRedirect`
    sends the root path. */
module Routes {
  import opened Wrappers
  import opened Model

  /** What the authentication context provides: whether it is still
      resolving, the signed-in account, and that account's profile. */
  datatype Auth = Auth(loading: bool, user: Option<Id>, profile: Option<UserProfile>)

  /** What a route element produces. */
  datatype View =
    | LoadingScreen
    | Blank                                            // `return null`
    | Redirect(path: string, error: Option<string>)    // `<Navigate to=… state={{ error }}>`
    | Children

  const ProfileMissing := "Your profile was not found. Please try registering again."

  /** `ProtectedRoute`: the checks in order — still loading, no account,
      no profile, a required role the profile does not have. */
  function Guard(a: Auth, role: Option<Role>): (v: View)
    ensures a.loading <==> v == LoadingScreen
    ensures !a.loading && a.user.None? ==> v == Redirect("/login", None)
    ensures !a.loading && a.user.Some? && a.profile.None? ==> v == Redirect("/login", Some(ProfileMissing))
    ensures v == Redirect("/", None) <==>
      !a.loading && a.user.Some? && a.profile.Some? && role.Some? && a.profile.value.role != role.value
    ensures v == Children <==>
      !a.loading && a.user.Some? && a.profile.Some? && (role.None? || a.profile.value.role == role.value)
  {
    if a.loading then LoadingScreen
    else if a.user.None? then Redirect("/login", None)
    else if a.profile.None? then Redirect("/login", Some(ProfileMissing))
    else if role.Some? && a.profile.value.role != role.value then Redirect("/", None)
    else Children
  }

  /** The area of each role. */
  function Home(r: Role): string {
    match r
    case Admin => "/admin"
    case Student => "/student"
  }

  /** `HomeRedirect`: nothing while loading, then the profile's area, and
      the login page without a profile. It looks at the profile only, not
      at the account. */
  function HomeRedirect(a: Auth): (v: View)
    ensures a.loading <==> v == Blank
    ensures !a.loading && a.profile.None? ==> v == Redirect("/login", None)
    ensures !a.loading && a.profile.Some? ==> v == Redirect(Home(a.profile.value.role), None)
  {
    if a.loading then Blank
    else if a.profile.Some? && a.profile.value.role == Admin then Redirect("/admin", None)
    else if a.profile.Some? && a.profile.value.role == Student then Redirect("/student", None)
    else Redirect("/login", None)
  }

  /** The role each area's guard demands. */
  function AreaRole(path: string): Option<Role> {
    if path == "/admin" then Some(Admin) else if path == "/student" then Some(Student) else None
  }

  /** A user turned away from the other role's area lands, through the
      root, in an area whose guard lets them in: two redirects and no loop. */
  lemma WrongAreaSettles(a: Auth, r: Role)
    requires Guard(a, Some(r)) == Redirect("/", None)
    ensures HomeRedirect(a) == Redirect(Home(a.profile.value.role), None)
    ensures Guard(a, AreaRole(Home(a.profile.value.role))) == Children
  {
  }

  /** Every signed-in user with a profile is sent from the root to an area
      that renders for them. */
  lemma HomeLeadsToOwnArea(a: Auth)
    requires !a.loading && a.user.Some? && a.profile.Some?
    ensures HomeRedirect(a).Redirect?
    ensures Guard(a, AreaRole(HomeRedirect(a).path)) == Children
  {
  }

  /** No authentication state passes both the admin and the student
      guard. */
  lemma AreasExclusive(a: Auth)
    ensures !(Guard(a, Some(Admin)) == Children && Guard(a, Some(Student)) == Children)
  {
  }
}

=== FILE: scoring.dfy ===
/** How an attempt is marked (src/pages/student/Quiz.tsx `handleSubmit`):
    each position carries the question's effective points, the whole
    attempt is out of their sum, and a position earns its points exactly
    when the picked option index equals the correct one. */
module Scoring {
  import opened Wrappers
  import opened Model
  import Sorting

  /** `quiz.questionPoints?.[q.id] ?? q.points`: a per-quiz override wins
      whenever its key is present, an override of 0 included. */
  function EffectivePoints(overrides: map<Id, real>, q: Question): (p: real)
    ensures q.id in overrides ==> p == overrides[q.id]
    ensures q.id !in overrides ==> p == q.points
  {
    if q.id in overrides then overrides[q.id] else q.points
  }

  /** The pick recorded at position `i`, if the answers reach that far
      (reading past the end gives `undefined`, which equals no index). */
  function PickAt(answers: seq<int>, i: nat): Option<int> {
    if i < |answers| then Some(answers[i]) else None
  }

  /** What one position earns: all of its points for an exact index match,
      nothing otherwise (no partial credit). */
  function Earned(overrides: map<Id, real>, q: Question, pick: Option<int>): real {
    if pick == Some(q.correctOptionIndex) then EffectivePoints(overrides, q) else 0.0
  }

  /** `answers` without its first slot (empty stays empty). */
  function Rest(answers: seq<int>): seq<int> {
    if |answers| > 0 then answers[1..] else []
  }

  /** `totalPoints`: the effective points summed over every position. */
  function Total(overrides: map<Id, real>, qs: seq<Question>): real {
    if |qs| == 0 then 0.0 else EffectivePoints(overrides, qs[0]) + Total(overrides, qs[1..])
  }

  /** `score`: the effective points summed over the positions answered
      correctly, answers paired with questions by position. */
  function Score(overrides: map<Id, real>, qs: seq<Question>, answers: seq<int>): real {
    if |qs| == 0 then 0.0
    else Earned(overrides, qs[0], PickAt(answers, 0)) + Score(overrides, qs[1..], Rest(answers))
  }

  predicate NonNegativePoints(overrides: map<Id, real>, qs: seq<Question>) {
    forall i :: 0 <= i < |qs| ==> EffectivePoints(overrides, qs[i]) >= 0.0
  }

  predicate PositivePoints(overrides: map<Id, real>, qs: seq<Question>) {
    forall i :: 0 <= i < |qs| ==> EffectivePoints(overrides, qs[i]) > 0.0
  }

  /** Position `i` is answered with the correct index. */
  predicate CorrectAt(qs: seq<Question>, answers: seq<int>, i: nat)
    requires i < |qs|
  {
    PickAt(answers, i) == Some(qs[i].correctOptionIndex)
  }

  lemma PickAtRest(answers: seq<int>, i: nat)
    ensures PickAt(Rest(answers), i) == PickAt(answers, i + 1)
  {
  }

  /** Appending a question adds its effective points to the total. */
  lemma {:induction false} TotalSnoc(overrides: map<Id, real>, qs: seq<Question>, q: Question)
    ensures Total(overrides, qs + [q]) == Total(overrides, qs) + EffectivePoints(overrides, q)
    decreases |qs|
  {
    if |qs| == 0 {
      assert qs + [q] == [q];
      assert [q][1..] == [];
    } else {
      assert (qs + [q])[1..] == qs[1..] + [q];
      TotalSnoc(overrides, qs[1..], q);
    }
  }

  /** Appending a question adds what the pick at its position earns. */
  lemma {:induction false} ScoreSnoc(overrides: map<Id, real>, qs: seq<Question>, q: Question, answers: seq<int>)
    ensures Score(overrides, qs + [q], answers)
         == Score(overrides, qs, answers) + Earned(overrides, q, PickAt(answers, |qs|))
    decreases |qs|
  {
    if |qs| == 0 {
      assert qs + [q] == [q];
      assert [q][1..] == [];
    } else {
      assert (qs + [q])[1..] == qs[1..] + [q];
      ScoreSnoc(overrides, qs[1..], q, Rest(answers));
      PickAtRest(answers, |qs| - 1);
    }
  }

  /** The `forEach` of `handleSubmit`: one pass over the questions in
      presentation order adding each effective points to `totalPoints`, and
      to `score` when the answer in the same slot is the correct index. The
      two running sums end as the position-by-position sums above. */
  method Tally(overrides: map<Id, real>, qs: seq<Question>, answers: seq<int>) returns (score: real, totalPoints: real)
    ensures score == Score(overrides, qs, answers)
    ensures totalPoints == Total(overrides, qs)
  {
    score := 0.0;
    totalPoints := 0.0;
    var idx := 0;
    while idx < |qs|
      invariant 0 <= idx <= |qs|
      invariant score == Score(overrides, qs[..idx], answers)
      invariant totalPoints == Total(overrides, qs[..idx])
    {
      var q := qs[idx];
      var qPoints := if q.id in overrides then overrides[q.id] else q.points;
      totalPoints := totalPoints + qPoints;
      if idx < |answers| && answers[idx] == q.correctOptionIndex {
        score := score + qPoints;
      }
      TotalSnoc(overrides, qs[..idx], q);
      ScoreSnoc(overrides, qs[..idx], q, answers);
      assert qs[..idx + 1] == qs[..idx] + [q];
      idx := idx + 1;
    }
    assert qs[..idx] == qs;
  }

  /** With non-negative points the score lies between 0 and the total. */
  lemma {:induction false} ScoreBounded(overrides: map<Id, real>, qs: seq<Question>, answers: seq<int>)
    requires NonNegativePoints(overrides, qs)
    ensures 0.0 <= Score(overrides, qs, answers) <= Total(overrides, qs)
    decreases |qs|
  {
    if |qs| > 0 {
      assert EffectivePoints(overrides, qs[0]) >= 0.0;
      assert NonNegativePoints(overrides, qs[1..]) by {
        forall i | 0 <= i < |qs[1..]| ensures EffectivePoints(overrides, qs[1..][i]) >= 0.0 {
          assert qs[1..][i] == qs[i + 1];
        }
      }
      ScoreBounded(overrides, qs[1..], Rest(answers));
    }
  }

  /** Replacing the pick at one position changes the score by exactly the
      difference of what that position earns: positions are scored
      independently of each other. */
  lemma {:induction false} ScoreUpdate(overrides: map<Id, real>, qs: seq<Question>, answers: seq<int>, i: nat, v: int)
    requires i < |qs| && i < |answers|
    ensures Score(overrides, qs, answers[i := v])
         == Score(overrides, qs, answers)
            - Earned(overrides, qs[i], Some(answers[i]))
            + Earned(overrides, qs[i], Some(v))
    decreases |qs|
  {
    if i > 0 {
      assert Rest(answers[i := v]) == Rest(answers)[i - 1 := v];
      ScoreUpdate(overrides, qs[1..], Rest(answers), i - 1, v);
    } else {
      assert Rest(answers[i := v]) == Rest(answers);
    }
  }

  /** An unanswered slot (-1) contributes nothing when the answer key is a
      real index: whatever is later picked there, the score grows by what
      that pick alone earns. */
  lemma UnansweredEarnsNothing(overrides: map<Id, real>, qs: seq<Question>, answers: seq<int>, i: nat, v: int)
    requires i < |qs| && i < |answers|
    requires answers[i] == -1 && qs[i].correctOptionIndex >= 0
    ensures Score(overrides, qs, answers[i := v])
         == Score(overrides, qs, answers) + Earned(overrides, qs[i], Some(v))
  {
    ScoreUpdate(overrides, qs, answers, i, v);
  }

  /** With positive points, full marks means every position is correct,
      and conversely. */
  lemma {:induction false} FullMarksIffAllCorrect(overrides: map<Id, real>, qs: seq<Question>, answers: seq<int>)
    requires PositivePoints(overrides, qs)
    ensures Score(overrides, qs, answers) == Total(overrides, qs)
        <==> forall i :: 0 <= i < |qs| ==> CorrectAt(qs, answers, i)
    decreases |qs|
  {
    if |qs| > 0 {
      assert PositivePoints(overrides, qs[1..]) by {
        forall i | 0 <= i < |qs[1..]| ensures EffectivePoints(overrides, qs[1..][i]) > 0.0 {
          assert qs[1..][i] == qs[i + 1];
        }
      }
      FullMarksIffAllCorrect(overrides, qs[1..], Rest(answers));
      ScoreBounded(overrides, qs[1..], Rest(answers));
      assert EffectivePoints(overrides, qs[0]) > 0.0;
      forall i | 1 <= i < |qs|
        ensures CorrectAt(qs[1..], Rest(answers), i - 1) <==> CorrectAt(qs, answers, i)
      {
        PickAtRest(answers, i - 1);
        assert qs[1..][i - 1] == qs[i];
      }
      if Score(overrides, qs, answers) == Total(overrides, qs) {
        assert CorrectAt(qs, answers, 0);
        forall i | 0 <= i < |qs| ensures CorrectAt(qs, answers, i) {
          if i > 0 {
            assert CorrectAt(qs[1..], Rest(answers), i - 1);
          }
        }
      }
      if forall i :: 0 <= i < |qs| ==> CorrectAt(qs, answers, i) {
        forall i | 0 <= i < |qs[1..]| ensures CorrectAt(qs[1..], Rest(answers), i) {
          assert CorrectAt(qs, answers, i + 1);
        }
        assert CorrectAt(qs, answers, 0);
      }
    }
  }

  lemma {:induction false} TotalInsert(overrides: map<Id, real>, x: Question, qs: seq<Question>, le: (Question, Question) -> bool)
    ensures Total(overrides, Sorting.Insert(x, qs, le)) == EffectivePoints(overrides, x) + Total(overrides, qs)
    decreases |qs|
  {
    if |qs| > 0 {
      if le(x, qs[0]) {
        assert Sorting.Insert(x, qs, le) == [x] + qs;
        assert ([x] + qs)[1..] == qs;
      } else {
        var t := Sorting.Insert(x, qs[1..], le);
        assert Sorting.Insert(x, qs, le) == [qs[0]] + t;
        assert ([qs[0]] + t)[1..] == t;
        TotalInsert(overrides, x, qs[1..], le);
      }
    }
  }

  /** The total does not depend on the order the questions are presented in. */
  lemma {:induction false} TotalOfSort(overrides: map<Id, real>, qs: seq<Question>, le: (Question, Question) -> bool)
    ensures Total(overrides, Sorting.Sort(qs, le)) == Total(overrides, qs)
    decreases |qs|
  {
    if |qs| > 0 {
      TotalOfSort(overrides, qs[1..], le);
      TotalInsert(overrides, qs[0], Sorting.Sort(qs[1..], le), le);
    }
  }

  lemma TotalOfOrderByNumber(overrides: map<Id, real>, qs: seq<Question>)
    ensures Total(overrides, OrderByNumber(qs)) == Total(overrides, qs)
  {
    TotalOfSort(overrides, qs, ByNumber());
  }
}

=== FILE: sorting.dfy ===
/** The stable comparison sort every list view of the application relies
    on (`Array.prototype.sort` is stable since ES2019), modelled as a
    stable insertion sort over an arbitrary total preorder `le`
    ("sorts no later than"). Its specification is the triple that pins a
    stable sort down: the output is ordered, it is a permutation of the
    input, and elements that compare equal keep their input order. */
module Sorting {

  /** `le` is total and transitive: what a comparator must describe. */
  ghost predicate TotalPreorder<T(!new)>(le: (T, T) -> bool) {
    && (forall a, b :: le(a, b) || le(b, a))
    && (forall a, b, c :: le(a, b) && le(b, c) ==> le(a, c))
  }

  predicate SortedBy<T>(s: seq<T>, le: (T, T) -> bool) {
    forall i, j :: 0 <= i < j < |s| ==> le(s[i], s[j])
  }

  /** `a` and `b` compare equal under `le`. */
  predicate Tied<T>(le: (T, T) -> bool, a: T, b: T) {
    le(a, b) && le(b, a)
  }

  /** The elements of `s` that compare equal to `x`, in their order in `s`. */
  function TiedWith<T>(s: seq<T>, le: (T, T) -> bool, x: T): (r: seq<T>)
    ensures |r| <= |s|
  {
    if |s| == 0 then []
    else (if Tied(le, x, s[0]) then [s[0]] else []) + TiedWith(s[1..], le, x)
  }

  /** Places `x` before the first element it sorts no later than. */
  function Insert<T>(x: T, s: seq<T>, le: (T, T) -> bool): (r: seq<T>)
    ensures |r| == |s| + 1
    ensures multiset(r) == multiset(s) + multiset{x}
  {
    if |s| == 0 then [x]
    else if le(x, s[0]) then [x] + s
    else
      var t := Insert(x, s[1..], le);
      assert s == [s[0]] + s[1..];
      [s[0]] + t
  }

  /** The stable sort of `s` under `le`. */
  function Sort<T>(s: seq<T>, le: (T, T) -> bool): (r: seq<T>)
    ensures |r| == |s|
    ensures multiset(r) == multiset(s)
  {
    if |s| == 0 then []
    else
      assert s == [s[0]] + s[1..];
      Insert(s[0], Sort(s[1..], le), le)
  }

  lemma {:induction false} InsertSorted<T(!new)>(x: T, s: seq<T>, le: (T, T) -> bool)
    requires TotalPreorder(le)
    requires SortedBy(s, le)
    ensures SortedBy(Insert(x, s, le), le)
    decreases |s|
  {
    if |s| > 0 && !le(x, s[0]) {
      InsertSorted(x, s[1..], le);
      var t := Insert(x, s[1..], le);
      var r := [s[0]] + t;
      assert r == Insert(x, s, le);
      forall i, j | 0 <= i < j < |r|
        ensures le(r[i], r[j])
      {
        if i == 0 {
          assert r[j] in multiset(t);
          assert r[j] == x || r[j] in s[1..];
        }
      }
    }
  }

  /** The output of `Sort` is ordered by `le`. */
  lemma {:induction false} SortSorted<T(!new)>(s: seq<T>, le: (T, T) -> bool)
    requires TotalPreorder(le)
    ensures SortedBy(Sort(s, le), le)
    decreases |s|
  {
    if |s| > 0 {
      SortSorted(s[1..], le);
      InsertSorted(s[0], Sort(s[1..], le), le);
    }
  }

  lemma {:induction false} TiedWithInsert<T(!new)>(x: T, s: seq<T>, le: (T, T) -> bool, z: T)
    requires TotalPreorder(le)
    ensures TiedWith(Insert(x, s, le), le, z)
         == (if Tied(le, z, x) then [x] else []) + TiedWith(s, le, z)
    decreases |s|
  {
    if |s| == 0 {
    } else if le(x, s[0]) {
      assert Insert(x, s, le) == [x] + s;
      assert ([x] + s)[1..] == s;
    } else {
      TiedWithInsert(x, s[1..], le, z);
      var t := Insert(x, s[1..], le);
      assert Insert(x, s, le) == [s[0]] + t;
      assert ([s[0]] + t)[1..] == t;
      var rest := TiedWith(s[1..], le, z);
      var head := if Tied(le, z, s[0]) then [s[0]] else [];
      assert TiedWith([s[0]] + t, le, z) == head + TiedWith(t, le, z);
      if Tied(le, z, x) {
        assert !Tied(le, z, s[0]);
        assert TiedWith(s, le, z) == rest;
      } else {
        assert TiedWith(t, le, z) == rest;
      }
    }
  }

  /** Stability: the elements that compare equal to any `z` appear in the
      output in exactly the order they had in the input. */
  lemma {:induction false} SortStable<T(!new)>(s: seq<T>, le: (T, T) -> bool, z: T)
    requires TotalPreorder(le)
    ensures TiedWith(Sort(s, le), le, z) == TiedWith(s, le, z)
    decreases |s|
  {
    if |s| > 0 {
      SortStable(s[1..], le, z);
      TiedWithInsert(s[0], Sort(s[1..], le), le, z);
    }
  }

  /** A sorted sequence is its own sort. */
  lemma {:induction false} SortOfSorted<T(!new)>(s: seq<T>, le: (T, T) -> bool)
    requires TotalPreorder(le)
    requires SortedBy(s, le)
    ensures Sort(s, le) == s
    decreases |s|
  {
    if |s| > 0 {
      assert SortedBy(s[1..], le);
      SortOfSorted(s[1..], le);
      if |s| > 1 {
        assert le(s[0], s[1]);
        assert Insert(s[0], s[1..], le) == [s[0]] + s[1..];
      }
      assert s == [s[0]] + s[1..];
    }
  }
}

=== FILE: strings.dfy ===
/** The string primitives the application leans on: ASCII case mapping,
    `String.prototype.trim`, `startsWith`, `includes`, code-unit
    lexicographic comparison, and decimal printing and reading of integers. */
module Strings {

  // ---------------------------------------------------------------- case

  /** `toLowerCase` on one character, restricted to the ASCII letters. */
  function LowerChar(c: char): char {
    if 'A' <= c <= 'Z' then (c as int + 32) as char else c
  }

  /** `toUpperCase` on one character, restricted to the ASCII letters. */
  function UpperChar(c: char): char {
    if 'a' <= c <= 'z' then (c as int - 32) as char else c
  }

  function Lower(s: string): (r: string)
    ensures |r| == |s|
    ensures forall i :: 0 <= i < |s| ==> r[i] == LowerChar(s[i])
  {
    seq(|s|, i requires 0 <= i < |s| => LowerChar(s[i]))
  }

  function Upper(s: string): (r: string)
    ensures |r| == |s|
    ensures forall i :: 0 <= i < |s| ==> r[i] == UpperChar(s[i])
  {
    seq(|s|, i requires 0 <= i < |s| => UpperChar(s[i]))
  }

  /** Case-insensitive equality as the application writes it:
      `a.toLowerCase() === b.toLowerCase()`. */
  predicate EqualsIgnoringCase(a: string, b: string) {
    Lower(a) == Lower(b)
  }

  // ---------------------------------------------------------------- trim

  /** The white-space and line-terminator characters `trim` removes
      (section 12.2 and 12.3 of ECMA-262): tab, vertical tab, form feed,
      the byte-order mark, the space separators of Unicode category Zs,
      and the four line terminators. */
  predicate IsSpace(c: char) {
    || c == '\t' || c == '\U{B}' || c == '\U{C}' || c == '\U{FEFF}'
    || c == ' ' || c == '\U{A0}' || c == '\U{1680}' || '\U{2000}' <= c <= '\U{200A}'
    || c == '\U{202F}' || c == '\U{205F}' || c == '\U{3000}'
    || c == '\n' || c == '\r' || c == '\U{2028}' || c == '\U{2029}'
  }

  function TrimStart(s: string): (r: string)
    ensures |r| <= |s| && r == s[|s| - |r|..]
    ensures forall i :: 0 <= i < |s| - |r| ==> IsSpace(s[i])
    ensures |r| > 0 ==> !IsSpace(r[0])
  {
    if |s| > 0 && IsSpace(s[0]) then TrimStart(s[1..]) else s
  }

  function TrimEnd(s: string): (r: string)
    ensures |r| <= |s| && r == s[..|r|]
    ensures forall i :: |r| <= i < |s| ==> IsSpace(s[i])
    ensures |r| > 0 ==> !IsSpace(r[|r| - 1])
  {
    if |s| > 0 && IsSpace(s[|s| - 1]) then TrimEnd(s[..|s| - 1]) else s
  }

  /** `s.trim()`: the longest slice of `s` that neither starts nor ends
      with white space, everything cut off being white space. */
  function Trim(s: string): (r: string)
    ensures |r| <= |s|
    ensures |r| > 0 ==> !IsSpace(r[0]) && !IsSpace(r[|r| - 1])
    ensures exists lo :: 0 <= lo <= |s| - |r| && IsCutOf(s, lo, r)
  {
    var t := TrimStart(s);
    var r := TrimEnd(t);
    assert IsCutOf(s, |s| - |t|, r);
    r
  }

  /** `r` is `s` with `lo` white-space characters cut from the front and
      only white space cut from the back. */
  ghost predicate IsCutOf(s: string, lo: int, r: string)
    requires 0 <= lo <= |s| - |r|
  {
    && r == s[lo..lo + |r|]
    && (forall i :: 0 <= i < lo ==> IsSpace(s[i]))
    && (forall i :: lo + |r| <= i < |s| ==> IsSpace(s[i]))
  }

  /** Trimming twice is trimming once. */
  lemma TrimIdempotent(s: string)
    ensures Trim(Trim(s)) == Trim(s)
  {
    var r := Trim(s);
    if |r| > 0 {
      assert TrimStart(r) == r;
      assert TrimEnd(r) == r;
    }
  }

  // ---------------------------------------------------------------- search

  /** `s.startsWith(p)`. */
  predicate StartsWith(s: string, p: string) {
    |p| <= |s| && s[..|p|] == p
  }

  /** `s.includes(sub)`: `sub` occurs in `s` at some offset. */
  predicate Includes(s: string, sub: string)
    decreases |s|
  {
    StartsWith(s, sub) || (|s| > 0 && Includes(s[1..], sub))
  }

  /** `Includes` holds exactly when `sub` starts at some offset of `s`. */
  lemma {:induction false} IncludesIffOffset(s: string, sub: string)
    ensures Includes(s, sub) <==> exists k :: 0 <= k <= |s| && StartsWith(s[k..], sub)
    decreases |s|
  {
    if Includes(s, sub) {
      if StartsWith(s, sub) {
        assert s[0..] == s;
      } else {
        IncludesIffOffset(s[1..], sub);
        var k :| 0 <= k <= |s| - 1 && StartsWith(s[1..][k..], sub);
        assert s[1..][k..] == s[k + 1..];
      }
    }
    if exists k :: 0 <= k <= |s| && StartsWith(s[k..], sub) {
      var k :| 0 <= k <= |s| && StartsWith(s[k..], sub);
      if k == 0 {
        assert s[0..] == s;
      } else {
        assert s[1..][k - 1..] == s[k..];
        IncludesIffOffset(s[1..], sub);
      }
    }
  }

  // ---------------------------------------------------------------- order

  /** Code-unit lexicographic order: `a` sorts no later than `b`. */
  predicate LexLe(a: string, b: string)
    decreases |a|
  {
    |a| == 0 || (|b| > 0 && (a[0] < b[0] || (a[0] == b[0] && LexLe(a[1..], b[1..]))))
  }

  lemma {:induction false} LexLeTotal(a: string, b: string)
    ensures LexLe(a, b) || LexLe(b, a)
    decreases |a|
  {
    if |a| > 0 && |b| > 0 && a[0] == b[0] {
      LexLeTotal(a[1..], b[1..]);
    }
  }

  lemma {:induction false} LexLeTransitive(a: string, b: string, c: string)
    requires LexLe(a, b) && LexLe(b, c)
    ensures LexLe(a, c)
    decreases |a|
  {
    if |a| > 0 && a[0] == b[0] && b[0] == c[0] {
      LexLeTransitive(a[1..], b[1..], c[1..]);
    }
  }

  lemma {:induction false} LexLeAntisymmetric(a: string, b: string)
    requires LexLe(a, b) && LexLe(b, a)
    ensures a == b
    decreases |a|
  {
    if |a| > 0 {
      LexLeAntisymmetric(a[1..], b[1..]);
      assert a == [a[0]] + a[1..] && b == [b[0]] + b[1..];
    }
  }

  // ---------------------------------------------------------------- decimal

  predicate IsDigit(c: char) {
    '0' <= c <= '9'
  }

  predicate AllDigits(s: string) {
    forall i :: 0 <= i < |s| ==> IsDigit(s[i])
  }

  function DigitChar(d: nat): (c: char)
    requires d < 10
    ensures IsDigit(c) && c as int - '0' as int == d
  {
    ('0' as int + d) as char
  }

  /** The value of a string of decimal digits, most significant first. */
  function DigitsValue(s: string): nat
    requires AllDigits(s)
  {
    if |s| == 0 then 0 else DigitsValue(s[..|s| - 1]) * 10 + (s[|s| - 1] as int - '0' as int)
  }

  /** `String(n)` for a natural number: its shortest decimal digits. */
  function NatToString(n: nat): (r: string)
    ensures 1 <= |r| && AllDigits(r)
    ensures DigitsValue(r) == n
    ensures |r| > 1 ==> r[0] != '0'
    decreases n
  {
    if n < 10 then [DigitChar(n)]
    else
      var p := NatToString(n / 10);
      var r := p + [DigitChar(n % 10)];
      assert r[..|r| - 1] == p;
      r
  }

  /** `String(i)` for an integer: a minus sign before the digits of |i|. */
  function IntToString(i: int): (r: string)
    ensures i >= 0 ==> r == NatToString(i)
    ensures i < 0 ==> r == "-" + NatToString(-i)
  {
    if i < 0 then "-" + NatToString(-i) else NatToString(i)
  }
}

=== FILE: students.dfy ===
/** The admin's student list (src/pages/admin/Students.tsx): the search
    and course filter, the order by e-mail, enrolment toggling with the
    store's set-like array operations, and what bulk registration derives
    from one pasted row before it talks to the authentication service. */
module Students {
  import opened Wrappers
  import opened Model
  import opened Strings
  import Sorting

  // ------------------------------------------------------------ the list

  /** The filter of `filteredStudents`: the search text occurs, ignoring
      ASCII case, in the name or the e-mail, and when a course is chosen
      the student is enrolled in it. */
  function Listed(s: UserProfile, search: string, selectedCourse: Id): (b: bool)
    ensures b <==> ((exists k :: 0 <= k <= |s.displayName| && StartsWith(Lower(s.displayName)[k..], Lower(search)))
                    || (exists k :: 0 <= k <= |s.email| && StartsWith(Lower(s.email)[k..], Lower(search))))
                   && (selectedCourse == "" || selectedCourse in s.courseIds)
  {
    IncludesIffOffset(Lower(s.displayName), Lower(search));
    IncludesIffOffset(Lower(s.email), Lower(search));
    && (Includes(Lower(s.displayName), Lower(search)) || Includes(Lower(s.email), Lower(search)))
    && (selectedCourse == "" || selectedCourse in s.courseIds)
  }

  /** `a.email.localeCompare(b.email)` read as "a sorts no later than b",
      with code-unit order standing in for the locale's collation. */
  function ByEmail(): (UserProfile, UserProfile) -> bool {
    (a: UserProfile, b: UserProfile) => LexLe(a.email, b.email)
  }

  lemma ByEmailIsPreorder()
    ensures Sorting.TotalPreorder(ByEmail())
  {
    forall a: UserProfile, b: UserProfile ensures ByEmail()(a, b) || ByEmail()(b, a) {
      LexLeTotal(a.email, b.email);
    }
    forall a: UserProfile, b: UserProfile, c: UserProfile | ByEmail()(a, b) && ByEmail()(b, c)
      ensures ByEmail()(a, c)
    {
      LexLeTransitive(a.email, b.email, c.email);
    }
  }

  /** `filteredStudents`: the listed students, ordered by e-mail, students
      with the same e-mail keeping their fetched order. */
  function FilteredStudents(students: seq<UserProfile>, search: string, selectedCourse: Id): (r: seq<UserProfile>)
    ensures forall i :: 0 <= i < |r| ==> r[i] in students && Listed(r[i], search, selectedCourse)
    ensures forall i :: 0 <= i < |students| && Listed(students[i], search, selectedCourse) ==> students[i] in r
    ensures forall i, j :: 0 <= i < j < |r| ==> LexLe(r[i].email, r[j].email)
    ensures multiset(r) == multiset(Filter(students, ListedBy(search, selectedCourse)))
  {
    var kept := Filter(students, ListedBy(search, selectedCourse));
    ByEmailIsPreorder();
    Sorting.SortSorted(kept, ByEmail());
    var r := Sorting.Sort(kept, ByEmail());
    ReorderedFilter(students, ListedBy(search, selectedCourse), r);
    r
  }

  /** `Listed` for a fixed search and course, as a predicate on students. */
  function ListedBy(search: string, selectedCourse: Id): UserProfile -> bool {
    (s: UserProfile) => Listed(s, search, selectedCourse)
  }

  /** Students with the same e-mail are listed in their fetched order. */
  lemma FilteredStudentsStable(students: seq<UserProfile>, search: string, selectedCourse: Id, z: UserProfile)
    ensures Sorting.TiedWith(FilteredStudents(students, search, selectedCourse), ByEmail(), z)
         == Filter(Sorting.TiedWith(students, ByEmail(), z), ListedBy(search, selectedCourse))
  {
    ByEmailIsPreorder();
    Sorting.SortStable(Filter(students, ListedBy(search, selectedCourse)), ByEmail(), z);
    TiedWithFilter(students, ListedBy(search, selectedCourse), ByEmail(), z);
  }

  /** An empty search lists everyone (in the chosen course). */
  lemma EmptySearchListsAll(s: UserProfile, selectedCourse: Id)
    ensures Listed(s, "", selectedCourse) <==> selectedCourse == "" || selectedCourse in s.courseIds
  {
    assert StartsWith(Lower(s.email), Lower(""));
  }

  // ------------------------------------------------------------ enrolment

  /** `arrayRemove(c)`: every occurrence of `c` goes, the rest keep order. */
  function ArrayRemove(ids: seq<Id>, c: Id): (r: seq<Id>)
    ensures c !in r
    ensures forall x :: x != c ==> (x in r <==> x in ids)
    ensures NoDuplicates(ids) ==> NoDuplicates(r)
  {
    var r := Filter(ids, (x: Id) => x != c);
    assert NoDuplicates(ids) ==> NoDuplicates(r) by {
      if NoDuplicates(ids) {
        FilterKeepsDistinct(ids, (x: Id) => x != c);
      }
    }
    r
  }

  /** `arrayUnion(c)`: `c` is appended unless already present. */
  function ArrayUnion(ids: seq<Id>, c: Id): (r: seq<Id>)
    ensures c in r
    ensures forall x :: x != c ==> (x in r <==> x in ids)
    ensures NoDuplicates(ids) ==> NoDuplicates(r)
  {
    if c in ids then ids else ids + [c]
  }

  /** `toggleEnrollment(uid, course, courseIds.includes(course))`. */
  function Toggle(ids: seq<Id>, c: Id): (r: seq<Id>)
    ensures c in r <==> c !in ids
    ensures forall x :: x != c ==> (x in r <==> x in ids)
  {
    if c in ids then ArrayRemove(ids, c) else ArrayUnion(ids, c)
  }

  /** Enrolling and then unenrolling gives back the exact list when the
      student was not enrolled. */
  lemma {:induction false} EnrollThenUnenroll(ids: seq<Id>, c: Id)
    requires c !in ids
    ensures Toggle(Toggle(ids, c), c) == ids
  {
    FilterAllKept(ids, c);
    FilterAppendDropped(ids, c);
  }

  lemma {:induction false} FilterAllKept(ids: seq<Id>, c: Id)
    requires c !in ids
    ensures Filter(ids, (x: Id) => x != c) == ids
    decreases |ids|
  {
    if |ids| > 0 {
      FilterAllKept(ids[1..], c);
      assert ids == [ids[0]] + ids[1..];
    }
  }

  lemma {:induction false} FilterAppendDropped(ids: seq<Id>, c: Id)
    ensures Filter(ids + [c], (x: Id) => x != c) == Filter(ids, (x: Id) => x != c)
    decreases |ids|
  {
    if |ids| > 0 {
      assert (ids + [c])[1..] == ids[1..] + [c];
      FilterAppendDropped(ids[1..], c);
    } else {
      assert ids + [c] == [c];
    }
  }

  /** Two toggles restore the enrolment as a set. */
  lemma ToggleTwice(ids: seq<Id>, c: Id, x: Id)
    ensures x in Toggle(Toggle(ids, c), c) <==> x in ids
  {
  }

  /** The toggle button is drawn only while a course is chosen, and then
      every listed student is enrolled in it: from the list the toggle
      always unenrols. */
  lemma ListedToggleUnenrolls(students: seq<UserProfile>, search: string, selectedCourse: Id, i: int)
    requires selectedCourse != ""
    requires 0 <= i < |FilteredStudents(students, search, selectedCourse)|
    ensures var s := FilteredStudents(students, search, selectedCourse)[i];
      selectedCourse in s.courseIds && selectedCourse !in Toggle(s.courseIds, selectedCourse)
  {
  }

  // ------------------------------------------------------------ bulk registration

  /** A pasted row: lower-cased header to cell text. */
  type Row = map<string, string>

  /** Every string cell trimmed, as the loop does before reading it. */
  function TrimRow(row: Row): (r: Row)
    ensures r.Keys == row.Keys
    ensures forall k :: k in r ==> r[k] == Trim(row[k])
  {
    map k | k in row :: Trim(row[k])
  }

  /** `row[k] || ''`. */
  function CellOr(row: Row, k: string): (r: string)
    ensures k in row ==> r == row[k]
    ensures k !in row ==> r == ""
  {
    if k in row then row[k] else ""
  }

  /** What registration does with a row: refuse it, or register the
      account and write a profile with the derived name and courses,
      reporting each course code it could not find. */
  datatype Registration =
    | MissingCredentials(identifier: string)
    | Register(email: string, password: string, displayName: string,
               courseIds: seq<Id>, unknownCodes: seq<string>)

  const CourseColumns := ["course1", "course2", "course3", "course4"]

  /** The first course whose short code matches `code` ignoring ASCII case. */
  function CourseByCode(courses: seq<Course>, code: string): (r: Option<Course>)
    ensures r.Some? ==>
      exists i :: 0 <= i < |courses| && courses[i] == r.value
        && Lower(r.value.shortCode) == Lower(code)
        && forall j :: 0 <= j < i ==> Lower(courses[j].shortCode) != Lower(code)
    ensures r.None? <==> forall i :: 0 <= i < |courses| ==> Lower(courses[i].shortCode) != Lower(code)
  {
    if |courses| == 0 then None
    else if Lower(courses[0].shortCode) == Lower(code) then Some(courses[0])
    else
      var r := CourseByCode(courses[1..], code);
      assert forall i :: 1 <= i < |courses| ==> courses[i] == courses[1..][i - 1];
      r
  }

  /** The course columns in order: each non-empty code adds the id of its
      course, or, when no course has it, the code to the unknown ones. */
  function MapCodes(codes: seq<string>, courses: seq<Course>): (r: (seq<Id>, seq<string>))
    ensures |r.0| + |r.1| <= |codes|
    ensures forall i :: 0 <= i < |r.1| ==> r.1[i] in codes && CourseByCode(courses, r.1[i]).None?
    ensures forall i :: 0 <= i < |r.0| ==> IsCourseId(courses, r.0[i])
    ensures forall i :: 0 <= i < |codes| && codes[i] != "" ==>
      (CourseByCode(courses, codes[i]).Some? ==> CourseByCode(courses, codes[i]).value.id in r.0)
      && (CourseByCode(courses, codes[i]).None? ==> codes[i] in r.1)
    ensures r.0 == CourseIdsOf(Filter(codes, Known(courses)), courses)
    ensures r.1 == Filter(codes, Unknown(courses))
  {
    KnownIdsFrom(codes, courses, 0);
    assert codes[0..] == codes;
    (KnownIds(codes, courses, 0), UnknownCodes(codes, courses, 0))
  }

  /** A non-empty code some course has. */
  predicate KnownCode(courses: seq<Course>, code: string) {
    code != "" && CourseByCode(courses, code).Some?
  }

  function Known(courses: seq<Course>): string -> bool {
    (code: string) => KnownCode(courses, code)
  }

  /** A non-empty code no course has. */
  function Unknown(courses: seq<Course>): string -> bool {
    (code: string) => code != "" && CourseByCode(courses, code).None?
  }

  /** The ids of the courses known codes name, position by position. */
  function CourseIdsOf(codes: seq<string>, courses: seq<Course>): (r: seq<Id>)
    requires forall i :: 0 <= i < |codes| ==> KnownCode(courses, codes[i])
    ensures |r| == |codes|
    ensures forall i :: 0 <= i < |codes| ==> KnownCode(courses, codes[i]) && r[i] == CourseByCode(courses, codes[i]).value.id
  {
    seq(|codes|, i requires 0 <= i < |codes| && KnownCode(courses, codes[i]) => CourseByCode(courses, codes[i]).value.id)
  }

  lemma CourseIdsOfCons(code: string, codes: seq<string>, courses: seq<Course>)
    requires KnownCode(courses, code)
    requires forall i :: 0 <= i < |codes| ==> KnownCode(courses, codes[i])
    ensures CourseIdsOf([code] + codes, courses)
         == [CourseByCode(courses, code).value.id] + CourseIdsOf(codes, courses)
  {
  }

  /** The recursion over the columns from `k` on is the filter of the
      remaining codes: the known ones mapped to their course ids, the
      unknown ones kept as they are, both in column order. */
  lemma {:induction false} KnownIdsFrom(codes: seq<string>, courses: seq<Course>, k: nat)
    requires k <= |codes|
    ensures KnownIds(codes, courses, k) == CourseIdsOf(Filter(codes[k..], Known(courses)), courses)
    ensures UnknownCodes(codes, courses, k) == Filter(codes[k..], Unknown(courses))
    decreases |codes| - k
  {
    if k < |codes| {
      KnownIdsFrom(codes, courses, k + 1);
      var tail := codes[k..];
      assert tail[0] == codes[k] && tail[1..] == codes[k + 1..];
      FilterCons(tail, Known(courses));
      FilterCons(tail, Unknown(courses));
      if KnownCode(courses, codes[k]) {
        CourseIdsOfCons(codes[k], Filter(codes[k + 1..], Known(courses)), courses);
      }
    }
  }

  /** `id` is the id of one of the courses. */
  predicate IsCourseId(courses: seq<Course>, id: Id) {
    exists c :: c in courses && c.id == id
  }

  /** The ids of the courses the codes from column `k` on name. */
  function KnownIds(codes: seq<string>, courses: seq<Course>, k: nat): (r: seq<Id>)
    requires k <= |codes|
    ensures |r| + |UnknownCodes(codes, courses, k)| <= |codes| - k
    ensures forall i :: 0 <= i < |r| ==> IsCourseId(courses, r[i])
    ensures forall i :: k <= i < |codes| && codes[i] != "" && CourseByCode(courses, codes[i]).Some? ==>
      CourseByCode(courses, codes[i]).value.id in r
    decreases |codes| - k
  {
    if k == |codes| then []
    else
      var rest := KnownIds(codes, courses, k + 1);
      if codes[k] == "" then rest
      else match CourseByCode(courses, codes[k])
        case Some(c) =>
          CourseByCodeFound(courses, codes[k]);
          assert IsCourseId(courses, c.id);
          var r := [c.id] + rest;
          assert r[0] == c.id && r[1..] == rest;
          assert forall x :: x in rest ==> x in r;
          r
        case None => rest
  }

  lemma CourseByCodeFound(courses: seq<Course>, code: string)
    ensures CourseByCode(courses, code).Some? ==> CourseByCode(courses, code).value in courses
  {
  }

  /** The codes from column `k` on that no course has. */
  function UnknownCodes(codes: seq<string>, courses: seq<Course>, k: nat): (r: seq<string>)
    requires k <= |codes|
    ensures |r| <= |codes| - k
    ensures forall i :: 0 <= i < |r| ==> r[i] in codes && CourseByCode(courses, r[i]).None?
    ensures forall i :: k <= i < |codes| && codes[i] != "" && CourseByCode(courses, codes[i]).None? ==>
      codes[i] in r
    decreases |codes| - k
  {
    if k == |codes| then []
    else
      var rest := UnknownCodes(codes, courses, k + 1);
      if codes[k] != "" && CourseByCode(courses, codes[k]).None? then [codes[k]] + rest else rest
  }

  /** The four course columns of a row, in order, each `''` when absent. */
  function CourseCodes(row: Row): (r: seq<string>)
    ensures |r| == |CourseColumns| && forall i :: 0 <= i < |CourseColumns| ==> r[i] == CellOr(row, CourseColumns[i])
  {
    seq(|CourseColumns|, i requires 0 <= i < |CourseColumns| => CellOr(row, CourseColumns[i]))
  }

  /** One pasted row, after trimming: e-mail and password are required;
      the name is first and last name joined by a space and trimmed. */
  function Derive(raw: Row, rowNum: int, courses: seq<Course>): (r: Registration)
    ensures var row := TrimRow(raw);
      && (r.MissingCredentials? <==> CellOr(row, "email") == "" || CellOr(row, "password") == "")
      && (r.Register? ==>
            && r.email == row["email"] && r.password == row["password"]
            && r.displayName == Trim(CellOr(row, "firstname") + " " + CellOr(row, "lastname"))
            && (r.courseIds, r.unknownCodes) == MapCodes(CourseCodes(row), courses))
      && (r.MissingCredentials? && CellOr(row, "email") != "" ==> r.identifier == CellOr(row, "email"))
      && (r.MissingCredentials? && CellOr(row, "email") == "" ==> r.identifier == "Row " + IntToString(rowNum))
  {
    var row := TrimRow(raw);
    var email := CellOr(row, "email");
    var password := CellOr(row, "password");
    if email == "" || password == "" then
      MissingCredentials(if email != "" then email else "Row " + IntToString(rowNum))
    else
      assert "email" in row && "password" in row;
      var (ids, unknown) := MapCodes(CourseCodes(row), courses);
      Register(email, password, Trim(CellOr(row, "firstname") + " " + CellOr(row, "lastname")), ids, unknown)
  }

  /** A missing name part leaves no stray space: only a first name gives
      exactly that name. */
  lemma NameWithoutLastName(first: string)
    requires first == Trim(first)
    ensures Trim(first + " " + "") == first
  {
    if |first| == 0 {
      assert first + " " + "" == " ";
      TrimLoneSpace();
    } else {
      assert !IsSpace(first[0]) && !IsSpace(first[|first| - 1]);
      assert first + " " + "" == first + " ";
      TrimTrailingSpace(first);
    }
  }

  lemma TrimLoneSpace()
    ensures Trim(" ") == ""
  {
    assert " "[1..] == "";
    assert TrimStart(" ") == "";
  }

  lemma TrimTrailingSpace(first: string)
    requires |first| > 0 && !IsSpace(first[0]) && !IsSpace(first[|first| - 1])
    ensures Trim(first + " ") == first
  {
    var s := first + " ";
    assert s[0] == first[0];
    assert TrimStart(s) == s;
    assert s[..|s| - 1] == first;
    assert TrimEnd(s) == TrimEnd(first);
    assert TrimEnd(first) == first;
  }

  /** An unknown code is reported but does not stop the registration. */
  lemma UnknownCodeIsOnlyReported(raw: Row, rowNum: int, courses: seq<Course>, k: int)
    requires CellOr(TrimRow(raw), "email") != "" && CellOr(TrimRow(raw), "password") != ""
    requires 0 <= k < 4
    requires var code := CellOr(TrimRow(raw), CourseColumns[k]); code != "" && CourseByCode(courses, code).None?
    ensures var r := Derive(raw, rowNum, courses);
      r.Register? && CellOr(TrimRow(raw), CourseColumns[k]) in r.unknownCodes
  {
    var row := TrimRow(raw);
    assert CourseCodes(row)[k] == CellOr(row, CourseColumns[k]);
  }

  /** The outcome of the bulk form: an empty paste reports that no data
      was found; otherwise every row is derived. */
  datatype BulkPlan = NoData | Rows(registrations: seq<Registration>)

  function PlanBulk(rows: seq<Row>, courses: seq<Course>): (r: BulkPlan)
    ensures r.NoData? <==> |rows| == 0
    ensures r.Rows? ==> r.registrations == DeriveRows(rows, courses)
  {
    if |rows| == 0 then NoData else Rows(DeriveRows(rows, courses))
  }

  /** Every row derived, numbered from 1. */
  function DeriveRows(rows: seq<Row>, courses: seq<Course>): seq<Registration> {
    seq(|rows|, i requires 0 <= i < |rows| => Derive(rows[i], i + 1, courses))
  }
}

=== FILE: wrappers.dfy ===
/** Option, the value-or-nothing datatype used for the application's
    optional fields (`?:` properties, `| null` values) and for lookups that
    can miss. */
module Wrappers {

  datatype Option<+T> = None | Some(value: T) {

    /** The wrapped value, or `default` when there is none (the `??` operator). */
    function GetOr(default: T): T {
      match this
      case Some(v) => v
      case None => default
    }
  }
}
